=== FILE: README.md ===
# iBlog, modelled in Dafny

iBlog is a blogging site in two parts. The React client (`iBlog/src`) has a home feed, hot and category pages, a sidebar carousel, an article page, and a personal area for writing articles and drafts and for comments. It keeps the session and a small local account registry in `localStorage`. The Express API (`iblog_api/src`) serves articles, users and comments from MySQL behind a JWT middleware.

This project models the deterministic core of both parts as pure Dafny functions over immutable records:

- **Client state machines.** The recommend-feed pager with its `loading` guard. The comment list with its per-article raw cache. The session and account storage shared by the store, the user service and the user hooks. The windowed "load more" counters. The carousel index.
- **Client helpers.** Tag formatting and the publish and draft validity checks. Cover-file checks and article preparation. Image address normalisation. Markup stripping for card previews. The response-to-card mappings with their defaults. The client-side category filter.
- **API decisions.** Paging-parameter parsing, topic normalisation and the `hasMore` rule. The validation and ownership checks of the article, user and comment handlers, with their status codes. The two authentication middlewares. Hot-tag counting and top-k selection.

Every outside effect is an input:

- **Network.** A network reply is a value: a failure, or a status with a body.
- **Storage.** `localStorage` is a record of its entries. An entry is parsed or unparsable.
- **Database.** Its tables are maps or sequences. A list query's rows are passed in, and so is a database fault.
- **Foreign code.** Password hashing, password comparison, token signing and token verification are functions passed in. So are `JSON.parse`, locale date text, and the ids the database or the clock assigns.
- **Timers.** Timers and animation frames are separate steps.

JavaScript's truthiness, `parseInt` and `Number` are written out explicitly, with NaN as an absent value.

## Model

| member | source | states |
|---|---|---|
| Storage.Read | iBlog/src/store/userStore.js:15-18 | a stored entry reads as its parsed value; a missing entry reads as null; an unparsable entry is an error, except that an empty string counts as missing |
| Storage.CommentCacheKey | iBlog/src/features/myblog/hooks/useMyblogComments.js:89 | the cache key is the eight-character prefix `cmt_raw_` followed by the article id |
| Storage.CommentCacheKeyInjective | iBlog/src/features/myblog/hooks/useMyblogComments.js:89 | two articles never share a comment cache entry |
| Storage.PutComments | iBlog/src/features/myblog/hooks/useMyblogComments.js:89 | writing one article's raw comments stores exactly them and leaves every other article's cache, the token and the users untouched |
| UserService.DropSession | iBlog/src/services/userService.js:28-31 | the token and the cached user are removed and nothing else is |
| UserService.GetCurrentUser | iBlog/src/services/userService.js:6-45 | without a token nothing is requested; a 401 signs the user out and fails; any other reply leaves storage alone; the user comes back exactly when the reply is 2xx with `success` and a user, and it is that user |
| UserService.GetCurrentUserNeedsToken | iBlog/src/services/userService.js:9-12 | without a token the outcome does not depend on the server at all |
| UserService.GetUserById | iBlog/src/services/userService.js:48-77 | success exactly for a 2xx reply with `success` and a user; an error reply that is not JSON surfaces its raw text |
| UserService.SendUpdate | iBlog/src/services/userService.js:80-129 | the avatar and profile updates need a token; they succeed exactly on a 2xx reply and return its body; an error reply surfaces its message or `HTTP错误: <status>` |
| UserService.CheckAuth | iBlog/src/services/userService.js:132-141 | authenticated exactly when a token is stored; the user is the parsed cache, and a corrupt cache makes the call fail |
| UserStore.AllUsers | iBlog/src/store/userStore.js:4-7 | no stored list reads as the empty list, a stored list as itself |
| UserStore.SessionOf | iBlog/src/store/userStore.js:54-59 | the session record copies id, nickname, avatar and email and never the password |
| UserStore.Login | iBlog/src/store/userStore.js:48-66 | success exactly when some stored account matches both email and password, and then the session is that of the first such account; otherwise `邮箱或密码错误` and storage is unchanged |
| UserStore.LoginStoresNoPassword | iBlog/src/store/userStore.js:53-60 | after a successful login the stored session carries no password |
| UserStore.Register | iBlog/src/store/userStore.js:21-45 | an email already registered is refused with `该邮箱已被注册` and nothing is stored |
| UserStore.RegisterAppendsAndSignsIn | iBlog/src/store/userStore.js:29-44 | a new email appends exactly one account stamped with the clock and signs that account in, leaving the token and the comment caches alone |
| UserStore.Logout | iBlog/src/store/userStore.js:69-72 | only the session is removed |
| UserStore.SetAvatar | iBlog/src/store/userStore.js:86-91 | the first account with that id gets the new avatar; if none has it the list is unchanged |
| UserStore.UpdateAvatar | iBlog/src/store/userStore.js:81-101 | succeeds exactly when the signed-in user is the one named; then the first registry account with that id gets the new avatar (the registry is not rewritten when none has it) and the session carries the new avatar; otherwise nothing changes |
| UserStore.UpdateAvatarOnlyThatUser | iBlog/src/store/userStore.js:85-96 | after a successful update the registry has the same accounts, the first one with the id carries the new avatar, every other account is as it was, and the session gets the new avatar |
| UserHook.FetchUser | iBlog/src/features/myblog/hooks/useMyblogUser.js:11-44 | without a token only the cache is read and nothing is requested; an API user is shown and cached; on an API error the message is shown over the cached user, and a corrupt cache makes the hook reject |
| UserHook.UpdateUser | iBlog/src/features/myblog/hooks/useMyblogUser.js:50-53 | the shown user and the cached user become the same record, and the rest of storage is unchanged |
| AvatarHook.AvatarOf | iBlog/src/features/myblog/hooks/useMyblogAvatar.js:28 | a present avatar is used, otherwise `/default-avatar.png` |
| AvatarHook.CachedUser | iBlog/src/features/myblog/hooks/useMyblogAvatar.js:36-48 | the cached user is used only if it parses and has a username |
| AvatarHook.FetchCurrentUser | iBlog/src/features/myblog/hooks/useMyblogAvatar.js:14-72 | with a token: a complete API user is shown and cached, else a usable cached user is shown, else the API error (or `用户数据不完整`) is reported; without a token only a usable cache is shown and no error arises |
| AvatarHook.ExpiredSessionHasNoFallback | iBlog/src/features/myblog/hooks/useMyblogAvatar.js:24-50 | a 401 clears the session before the fallback reads it, so an error is always shown and the old user stays |
| AvatarHook.UpdateAvatar | iBlog/src/features/myblog/hooks/useMyblogAvatar.js:79-103 | no user is an error; a successful server update changes the avatar, the user and the cache; a failed one only records the error |
| AvatarHook.UpdateAvatarAgrees | iBlog/src/features/myblog/hooks/useMyblogAvatar.js:90-95 | after a successful update the shown avatar, the user's avatar and the cached user agree |
| AvatarHook.ClearUser | iBlog/src/features/myblog/hooks/useMyblogAvatar.js:111-116 | the user is gone, the avatar is the default, and the session is dropped from storage |
| Dates.Format | iBlog/src/features/myblog/hooks/useMyblogComments.js:45-51 | a valid date renders as the year followed by fifteen fixed-width characters |
| Dates.SafeFormatDate | iBlog/src/features/myblog/hooks/useMyblogComments.js:38-56 | a parseable date is formatted; a missing or invalid one becomes the locale text for now |
| Dates.PadTwoReads | iBlog/src/features/myblog/hooks/useMyblogComments.js:46-50 | a two-digit padded field reads back as its number |
| Dates.Layout | iBlog/src/features/myblog/hooks/useMyblogComments.js:51 | the template places each field at a fixed offset after the year |
| Dates.ParseFields | iBlog/src/features/myblog/hooks/useMyblogComments.js:51 | a string with that layout parses to its fields |
| Dates.FormatLayout | iBlog/src/features/myblog/hooks/useMyblogComments.js:45-51 | the formatted text has the year, then month+1, day, hour, minute and second, each padded to two digits |
| Dates.ParseFormat | iBlog/src/features/myblog/hooks/useMyblogComments.js:45-51 | the formatted text parses back to the same date |
| Dates.FormatInjective | iBlog/src/features/myblog/hooks/useMyblogComments.js:45-51 | two different valid dates never render the same |
| Comments.CurrentUser | iBlog/src/features/myblog/hooks/useMyblogComments.js:7-35 | without a token the cached user is used; with one the API user is used and cached, and on an API error the (possibly cleared) cache is used |
| Comments.Format | iBlog/src/features/myblog/hooks/useMyblogComments.js:73-86 | one's own comment shows one's username, others the author's name or `用户`; text, likes and avatar fall back to `''`, 0 and the default avatar; a missing id becomes the clock's text |
| Comments.ByUser | iBlog/src/features/myblog/hooks/useMyblogComments.js:74 | a comment is one's own exactly when someone is signed in and the comment's user id equals theirs (decided by this predicate; used by Comments.Format) |
| Comments.FormatAll | iBlog/src/features/myblog/hooks/useMyblogComments.js:73-86 | the list is formatted element by element, keeping order and length |
| Comments.LoadFallback | iBlog/src/features/myblog/hooks/useMyblogComments.js:90-114 | the error is recorded; with no cache the list is kept, with a corrupt cache it is emptied, otherwise the cached raw list is formatted; the cache itself is not touched |
| Comments.LoadComments | iBlog/src/features/myblog/hooks/useMyblogComments.js:64-118 | without an article nothing happens; on success the formatted server list is shown and exactly the raw list is cached; on an API failure the fallback runs on unchanged storage |
| Comments.TempRaw | iBlog/src/features/myblog/hooks/useMyblogComments.js:136-144 | an anonymous comment gets the id `temp_<clock>`, no user and zero likes |
| Comments.TempComment | iBlog/src/features/myblog/hooks/useMyblogComments.js:146-154 | the shown anonymous comment has the same id, no user, zero likes, the text and the name `匿名用户` |
| Comments.CreatedComment | iBlog/src/features/myblog/hooks/useMyblogComments.js:166-174 | a created comment shows the signed-in name and id, the server text or the typed text, and the server, user or default avatar |
| Comments.PrependCached | iBlog/src/features/myblog/hooks/useMyblogComments.js:176-179 | the new raw comment goes in front of the cached list; a corrupt cache makes it fail |
| Comments.AddComment | iBlog/src/features/myblog/hooks/useMyblogComments.js:127-190 | without an article or with blank text nothing happens; a failed add leaves list and cache as they were; a successful one puts exactly one comment in front of the list the click saw and in front of the cache |
| Comments.Fail | iBlog/src/features/myblog/hooks/useMyblogComments.js:183-189 | a failure keeps the list and storage, records the message and returns false |
| Comments.Commit | iBlog/src/features/myblog/hooks/useMyblogComments.js:156-182 | the comment is prepended to the list seen when `addComment` was called, and to the cache, exactly when the cache can be read |
| Comments.AnonymousAdd | iBlog/src/features/myblog/hooks/useMyblogComments.js:135-162 | signed out, the comment is added as a temporary anonymous one in front of the list seen at the click, and the server is never asked |
| Comments.SignedInAdd | iBlog/src/features/myblog/hooks/useMyblogComments.js:165-182 | signed in, the server's comment is added under the user's id in front of the list seen at the click, both shown and cached |
| Comments.AddDropsConcurrentLike | iBlog/src/features/myblog/hooks/useMyblogComments.js:127-212 | a comment like that completes while an add started before it is pending is lost from the shown list when the add lands, though the cache keeps it |
| Comments.LikeShown | iBlog/src/features/myblog/hooks/useMyblogComments.js:198-202 | every shown comment with that id gets one more like and the rest stay as they were |
| Comments.LikeRaw | iBlog/src/features/myblog/hooks/useMyblogComments.js:206-210 | every cached comment with that id gets one more like (a missing count counts as 0) |
| Comments.LikeComment | iBlog/src/features/myblog/hooks/useMyblogComments.js:193-220 | no id does nothing; a failed call records the error and changes nothing; a successful one likes the shown list and, when a cache exists, the cache |
| Comments.LikeOnlyMatching | iBlog/src/features/myblog/hooks/useMyblogComments.js:198-202 | a like adds exactly one to the matching comments, and only the likes change |
| Comments.FailedReloadRestores | iBlog/src/features/myblog/hooks/useMyblogComments.js:89-110 | a failed reload after a good one shows the same list again from the cache |
| Publish.CleanPieces | iBlog/src/features/myblog/pages/MyblogPublish.jsx:159-162 | no more tags come out than pieces go in, and every kept tag is non-empty and trimmed |
| Publish.CleanPiecesExact | iBlog/src/features/myblog/pages/MyblogPublish.jsx:159-162 | pieces that all trim to non-empty tags come out as exactly those tags, in order |
| Publish.CleanPiecesAppend | iBlog/src/features/myblog/pages/MyblogPublish.jsx:159-162 | cleaning two runs of pieces gives the tags of the first run followed by those of the second, so the order written is kept |
| Publish.CleanPiecesOne | iBlog/src/features/myblog/pages/MyblogPublish.jsx:161-162 | a single piece gives its trimmed text as the one tag, or no tag when it trims to empty |
| Publish.CleanPiecesDropsBlank | iBlog/src/features/myblog/pages/MyblogPublish.jsx:162 | a blank piece anywhere in the list contributes nothing: the tags are those of the other pieces |
| Publish.FormatTags | iBlog/src/features/myblog/pages/MyblogPublish.jsx:157-164 | an absent or empty tag field gives no tags; otherwise at most five tags come out, each non-empty and trimmed |
| Publish.FormatTagsOfJoin | iBlog/src/features/myblog/pages/MyblogPublish.jsx:157-164 | joining up to five clean tags with `, `, as the editor does on load, and formatting the text again gives back the same tags |
| Publish.FormatTagsOfPieces | iBlog/src/features/myblog/pages/MyblogPublish.jsx:157-164 | any comma-separated text gives the first five of its pieces' cleaned tags, in the order written, blank pieces dropped |
| Publish.FormatTagsKeepsFirstFive | iBlog/src/features/myblog/pages/MyblogPublish.jsx:157-164 | any number of clean tags joined with `, ` come back cut to the first five, in order |
| Publish.PublishValidIsDraftValid | iBlog/src/features/myblog/pages/MyblogPublish.jsx:166-177 | a form that may be published may also be saved as a draft |
| Publish.DraftValid | iBlog/src/features/myblog/pages/MyblogPublish.jsx:166-169 | a draft may be saved exactly when the trimmed title is not empty (decided by this predicate) |
| Publish.PublishValid | iBlog/src/features/myblog/pages/MyblogPublish.jsx:171-177 | an article may be published exactly when the trimmed title, content and category are all non-empty (decided by this predicate) |
| Publish.TitleError | iBlog/src/features/myblog/pages/MyblogPublish.jsx:412-422 | a title is accepted exactly when it is present, at most 100 characters long and not blank, and an accepted title makes the form draft-valid |
| Publish.CheckCover | iBlog/src/features/myblog/pages/MyblogPublish.jsx:193-207 | a cover is accepted exactly when it is an `image/` type of at most 5 MB; a non-image is reported before an oversized file |
| Publish.PrepareArticleData | iBlog/src/features/myblog/pages/MyblogPublish.jsx:260-269 | the title is trimmed, the category defaults to `前端开发`, the topics are the formatted tags, and the cover, content and status are passed through |
| Publish.Submit | iBlog/src/features/myblog/pages/MyblogPublish.jsx:271-327 | publishing blank content is refused first, then a missing token; otherwise the prepared data is sent as an update exactly in edit mode with an id, and as a create otherwise |
| Publish.Finish | iBlog/src/features/myblog/pages/MyblogPublish.jsx:329-350 | a 2xx reply with `success` ends as published or as a saved draft depending on the status; a saved new draft moves to its own edit URL exactly when the server returned the article |
| Publish.NullIdEntersEditModeButIsRefused | iBlog/src/features/myblog/pages/MyblogPublish.jsx:54-73 | the id `null` switches the page to edit mode but the loader refuses it |
| Publish.EntersEditMode | iBlog/src/features/myblog/pages/MyblogPublish.jsx:51-63 | the page is in edit mode exactly when the URL id is present and is not the text `undefined` (decided by this predicate) |
| Publish.ValidArticleId | iBlog/src/features/myblog/pages/MyblogPublish.jsx:66-73 | the loader accepts an id exactly when it is present and is neither `undefined` nor `null` (decided by this predicate) |
| Publish.ValidIdEntersEditMode | iBlog/src/features/myblog/pages/MyblogPublish.jsx:54-68 | every id that the loader accepts also switches the page to edit mode |
| Publish.EditorOf | iBlog/src/features/myblog/pages/MyblogPublish.jsx:110-129 | a loaded article fills the title, the category (default `前端开发`), the tags joined with `, `, the content and, when present, the cover and its full preview URL |
| Publish.EditKeepsTopics | iBlog/src/features/myblog/pages/MyblogPublish.jsx:114-118 | loading an article with clean topics into the editor and submitting it again sends the same topics |
| MyblogLists.FileOf | iBlog/src/features/myblog/hooks/useMyblogArticles.js:49 | the card's file name is the decimal text of the article id and reads back as that id |
| MyblogLists.ArticleEntryOf | iBlog/src/features/myblog/hooks/useMyblogArticles.js:48-68 | a published card keeps the raw article and its fields, formats the creation date, and defaults topics to `[]` and counters to 0 |
| MyblogLists.DraftEntryOf | iBlog/src/features/myblog/hooks/useMyblogDrafts.js:36-46 | a draft card formats the update date, keeps title, content and status, and defaults topics to `[]` and counters to 0 |
| MyblogLists.MapArticles | iBlog/src/features/myblog/hooks/useMyblogArticles.js:48-68 | the list maps element by element, and fails exactly when some article lacks an id |
| MyblogLists.MapDrafts | iBlog/src/features/myblog/hooks/useMyblogDrafts.js:36-46 | the list maps element by element, and fails exactly when some draft lacks an id |
| MyblogLists.ArticlesOf | iBlog/src/features/myblog/hooks/useMyblogArticles.js:34-68 | an error status becomes `HTTP错误: <status> - <text>`; an unsuccessful body becomes its message or `获取文章失败`; a list comes back only from a successful 2xx reply |
| MyblogLists.FetchArticles | iBlog/src/features/myblog/hooks/useMyblogArticles.js:10-80 | without a token the list is empty with `用户未登录`; otherwise the error is clear exactly when the reply is good, and every error empties the list |
| MyblogLists.DraftsOf | iBlog/src/features/myblog/hooks/useMyblogDrafts.js:28-51 | an error status becomes `获取草稿失败`; an unsuccessful body becomes its message or that text; a list comes back only from a successful 2xx reply |
| MyblogLists.FetchDrafts | iBlog/src/features/myblog/hooks/useMyblogDrafts.js:10-58 | without a token the old list stays with `用户未登录`; otherwise the error is clear exactly when the reply is good, and an error keeps the old list |
| MyblogLists.ArticleFilesAreIds | iBlog/src/features/myblog/hooks/useMyblogArticles.js:49 | every card's file name reads back as its article's id and the card keeps the raw article |
| MyblogLists.DraftFilesDistinct | iBlog/src/features/myblog/hooks/useMyblogDrafts.js:37 | drafts with different ids get different file names, so the list keys never clash |
| MyblogHome.Current | iBlog/src/features/myblog/pages/MyblogHome.jsx:33-35 | the shown list, loading flag and error are those of the selected tab |
| MyblogHome.LoadMoreClick | iBlog/src/features/myblog/pages/MyblogHome.jsx:37-39 | a click while already loading, or with everything shown, does nothing; otherwise it starts loading |
| MyblogHome.LoadMoreFire | iBlog/src/features/myblog/pages/MyblogHome.jsx:40-43 | the timer shows five more cards, never more than the list holds, and never fewer than before |
| MyblogHome.SwitchTab | iBlog/src/features/myblog/pages/MyblogHome.jsx:54-56 | switching to another tab shows the first five cards again; re-selecting the same tab changes nothing |
| MyblogHome.Render | iBlog/src/features/myblog/pages/MyblogHome.jsx:59-236 | loading wins over a non-empty error, the error over the list; the cards are the first `visible` items, and the more button shows exactly when items are hidden |
| MyblogHome.RoundsWindow | iBlog/src/features/myblog/pages/MyblogHome.jsx:37-43 | after k completed load-more rounds, the window is min(visible + 5k, length) |
| MyblogHome.LoadMoreShowsAll | iBlog/src/features/myblog/pages/MyblogHome.jsx:183-236 | enough rounds show the whole list and hide the button |
| Http.MessageOr | iBlog/src/services/articleService.js:16 | a non-empty server message wins, otherwise the fallback text |
| Http.Checked | iBlog/src/services/articleService.js:6-20 | success exactly for a 2xx reply whose body says `success`, returning that body; an error status gives `HTTP错误: <status>`; an unsuccessful body gives its message or the fallback |
| ArticleService.Call | iBlog/src/services/articleService.js:23-125 | every plain endpoint fails on an error status or an unsuccessful body with its own fallback text, and succeeds only with the server's body |
| ArticleService.GetFeatured | iBlog/src/services/articleService.js:128-134 | the featured call succeeds exactly when the checked call does, and returns the body's `list` |
| ArticleService.GetHot | iBlog/src/services/articleService.js:144-158 | the hot call succeeds exactly when the checked call does, and returns the body's `data` |
| ArticleService.GetByCategory | iBlog/src/services/articleService.js:160-185 | an error status names the request URL; a successful body needs a list and comes back with the list filtered to the category |
| ArticleService.CategoryFilterExact | iBlog/src/services/articleService.js:177-182 | the kept articles are exactly the server's articles of that category, each as often as the server sent it |
| Images.Rooted | iBlog/src/utils/imageUtils.js:13 | the path starts with `/`, and a path that already did is unchanged |
| Images.GetImageUrl | iBlog/src/utils/imageUtils.js:2-15 | a missing, empty, `undefined` or `null` path gives `/default-cover.jpg`; a path starting with `http` is used as it is; anything else is served from the API host |
| Images.GetCoverUrl | iBlog/src/features/article/pages/ArticleDetail.jsx:28-41 | the detail page's copy follows the same three cases |
| Images.CoverHelpersAgree | iBlog/src/features/article/pages/ArticleDetail.jsx:28-41 | the shared helper and the detail page's copy agree on every input |
| Images.LeadingSlashIrrelevant | iBlog/src/utils/imageUtils.js:13-14 | a relative path with or without its leading `/` gives the same URL |
| Images.HostedPathRecovered | iBlog/src/utils/imageUtils.js:13-14 | a hosted URL is the API host followed by the rooted path, so the path can be read back |
| HotBlogs.HotCard | iBlog/src/features/home/pages/HotBlogs.jsx:27-38 | a hot card takes each field from the short name first and the article name second, never shows a cover, and defaults author, topics and counters |
| HotBlogs.HotOnly | iBlog/src/features/home/pages/HotBlogs.jsx:22-24 | only articles with more than 1000 views are kept |
| HotBlogs.IsHot | iBlog/src/features/home/pages/HotBlogs.jsx:22-24 | an article is hot exactly when its view count exceeds 1000 (decided by this predicate) |
| HotBlogs.HotFilterExact | iBlog/src/features/home/pages/HotBlogs.jsx:22-24 | an article is kept exactly when it was sent and is hot, and a hot article keeps its multiplicity |
| HotBlogs.Fetch | iBlog/src/features/home/pages/HotBlogs.jsx:15-48 | a failed call empties the list; a good one shows one card per hot article in order; every shown card has more than 1000 views |
| HotBlogs.Render | iBlog/src/features/home/pages/HotBlogs.jsx:53-85 | loading first, then the empty notice exactly for an empty list, else the first `maxItems` cards with a more button exactly when some are hidden |
| HotBlogs.LoadMore | iBlog/src/features/home/pages/HotBlogs.jsx:77 | the window grows by at most 50 and never past the list |
| HotBlogs.LoadMoreExtends | iBlog/src/features/home/pages/HotBlogs.jsx:74-81 | pressing the button shows a strictly longer prefix of the same list, by at most 50 cards |
| Columns.AllCategories | iBlog/src/features/home/pages/Columns.jsx:10 | the tabs are `全部` followed by the configured categories |
| Columns.RequestFor | iBlog/src/features/home/pages/Columns.jsx:20-23 | `全部` asks for all articles (100 from offset 0); every other tab asks for its category (page 0, limit 100) |
| Columns.Initial | iBlog/src/features/home/pages/Columns.jsx:13-15 | the page starts on the first tab, with no articles and not loading |
| Columns.ColumnCard | iBlog/src/features/home/pages/Columns.jsx:25-33 | a card takes each field from the article name first and the short name second, with the default author and empty topics, and carries no counters |
| Columns.Response | iBlog/src/features/home/pages/Columns.jsx:20-23 | the reply is checked by the all-articles call for `全部` and by the category call otherwise |
| Columns.Load | iBlog/src/features/home/pages/Columns.jsx:17-41 | a failure empties the list; a success shows one card per article in order |
| Columns.Select | iBlog/src/features/home/pages/Columns.jsx:43-45 | re-selecting the active tab requests nothing; another tab becomes active, starts loading and requests its articles |
| Columns.CategoryCardsMatch | iBlog/src/features/home/pages/Columns.jsx:17-41 | on a category tab every shown card comes from an article of that category |
| Sidebar.Slides | iBlog/src/components/SidebarRight.jsx:41-44 | at most five slides, the i-th being the i-th article with the i-th fixed picture |
| Sidebar.FetchFeatured | iBlog/src/components/SidebarRight.jsx:37-52 | a good reply shows its slides from the first one; any failure (including a missing list) empties the carousel; the tags are untouched |
| Sidebar.Tick | iBlog/src/components/SidebarRight.jsx:54-60 | with more than one slide the timer moves to the next one, wrapping round; otherwise nothing moves |
| Sidebar.GoSlide | iBlog/src/components/SidebarRight.jsx:62 | clicking a dot shows that slide |
| Sidebar.Ticks | iBlog/src/components/SidebarRight.jsx:54-60 | any number of ticks keeps the current slide inside the list |
| Sidebar.SlidePictures | iBlog/src/components/SidebarRight.jsx:41-44 | every slide pairs the server's article with the picture at its own position |
| Sidebar.FetchTags | iBlog/src/components/SidebarRight.jsx:67-77 | a good reply shows the server's tag list, a failure shows none, and the carousel is untouched |
| ArticleCard.StripTags | iBlog/src/components/ArticleCard.jsx:6-7 | removing tags never makes the text longer |
| ArticleCard.TagEnd | iBlog/src/components/ArticleCard.jsx:7 | a tag that opens at `<` closes at the first `>` after at least one other character |
| ArticleCard.StripKeepsChars | iBlog/src/components/ArticleCard.jsx:7 | every character of the stripped text comes from the original |
| ArticleCard.StripIsTagFree | iBlog/src/components/ArticleCard.jsx:7 | the stripped text contains no complete tag |
| ArticleCard.StripTagFree | iBlog/src/components/ArticleCard.jsx:7 | text without tags is left exactly as it was |
| ArticleCard.StripIdempotent | iBlog/src/components/ArticleCard.jsx:7 | stripping twice is the same as stripping once |
| ArticleCard.NoOpenerIsTagFree | iBlog/src/components/ArticleCard.jsx:7 | text without `<` holds no tag |
| ArticleCard.StripKeepsPlainPrefix | iBlog/src/components/ArticleCard.jsx:7 | text up to the first `<` is kept unchanged and in order, ahead of what the rest strips to |
| ArticleCard.StripRemovesTag | iBlog/src/components/ArticleCard.jsx:7 | a `<`, one or more characters other than `>`, and a `>` are removed as one tag, and the text after it is stripped as if the tag were not there |
| ArticleCard.PlainText | iBlog/src/components/ArticleCard.jsx:6-7 | the preview is the first 120 characters of the stripped text followed by `...`, so at most 123 characters, and its body is a prefix of the stripped text |
| ArticleCard.ImageUrlAsWritten | iBlog/src/components/ArticleCard.jsx:10-16 | the card's own helper: a missing, empty, `undefined` or `null` path gives the default cover, and a path not starting with `http` gets the same address as from the shared helper |
| ArticleCard.AbsoluteCoverBroken | iBlog/src/components/ArticleCard.jsx:10-16 | for every cover starting with `http`, the card's helper gives the API host + `/` + the URL, while the shared helper keeps the URL |
| ArticleCard.AbsoluteCoverExample | iBlog/src/components/ArticleCard.jsx:14-15 | `https://cdn.example.com/a.png` comes out as `http://localhost:4000/https://cdn.example.com/a.png` |
| ArticleCard.ImageUrl | iBlog/src/utils/imageUtils.js:2-15 | the corrected card helper: the default for no cover, an `http` URL unchanged, and the card's hosting for everything else |
| ArticleCard.Show | iBlog/src/components/ArticleCard.jsx:35-95 | the card shows the preview, the address from its own image helper, and each counter or 0 when it is missing or 0 |
| ArticleCard.AbsoluteCoverOnCard | iBlog/src/components/ArticleCard.jsx:10-50 | a card with an `http` cover shows it under the API host, which differs from the shared helper's address, and after the load error it shows the default cover |
| ArticleCard.OnImageError | iBlog/src/components/ArticleCard.jsx:46-50 | a broken picture is replaced by the default cover and nothing else changes |
| ArticleDetail.Open | iBlog/src/features/article/pages/ArticleDetail.jsx:14-15 | opening an id starts loading and keeps the previous article and error |
| ArticleDetail.Load | iBlog/src/features/article/pages/ArticleDetail.jsx:16-20 | a good reply replaces the article and keeps the old error; a failure keeps the article and sets a non-empty error: the message, or `文章加载失败` |
| ArticleDetail.Render | iBlog/src/features/article/pages/ArticleDetail.jsx:23-75 | loading first, then the error, then `文章不存在`, then the article; the cover shows exactly when the article has one, at the detail page's cover URL |
| ArticleDetail.Bump | iBlog/src/features/article/pages/ArticleDetail.jsx:46 | a count goes up by one; a missing count stays missing (NaN in the page) |
| ArticleDetail.Like | iBlog/src/features/article/pages/ArticleDetail.jsx:44-47 | a successful like shows the article of the render the click was made on with one more like and nothing else changed; a failed one changes nothing |
| ArticleDetail.Collect | iBlog/src/features/article/pages/ArticleDetail.jsx:48-51 | a successful collect shows the article of the render the click was made on with one more collect and nothing else changed; a failed one changes nothing |
| ArticleDetail.LikeCollectCommute | iBlog/src/features/article/pages/ArticleDetail.jsx:44-51 | when each click is made on the page the previous one left, liking and collecting give the same page in either order |
| ArticleDetail.OverlappingClicksLoseOne | iBlog/src/features/article/pages/ArticleDetail.jsx:44-51 | two clicks made on the same render both start from its article: two likes show one more like, not two, and a like then a collect loses the like |
| ArticleDetail.LikeShowsOneMore | iBlog/src/features/article/pages/ArticleDetail.jsx:44-75 | after a successful like the page shows the same article with one more like and the same cover |
| ArticleDetail.Reloads | iBlog/src/features/article/pages/ArticleDetail.jsx:14-21 | a sequence of finished loads leaves the page not loading |
| ArticleDetail.ErrorSticks | iBlog/src/features/article/pages/ArticleDetail.jsx:14-24 | once an error is shown, no later load, good or bad, clears it, so the page keeps showing the failure |
| HomeFeed.Begin | iBlog/src/features/home/pages/Home.jsx:33-53 | a load while another is running does nothing; otherwise it starts loading and asks for 50 articles at offset page × 50, from the search endpoint exactly when a keyword is set |
| HomeFeed.Complete | iBlog/src/features/home/pages/Home.jsx:55-74 | a failure or a reply without a list keeps the list and stops paging; a list replaces the feed for a search change or page 0 and is appended otherwise; the page becomes target + 1 and `hasMore` defaults to true |
| HomeFeed.AppendKeepsOrder | iBlog/src/features/home/pages/Home.jsx:61-65 | a later page keeps the shown articles as a prefix and adds exactly the new ones after them |
| HomeFeed.Reset | iBlog/src/features/home/pages/Home.jsx:78-100 | only a keyword change on the recommend tab clears the feed and starts a search-change load of page 0; anything else does nothing |
| HomeFeed.MountLoad | iBlog/src/features/home/pages/Home.jsx:103-108 | the mount load runs exactly on the recommend tab with an empty, idle feed, and then loads page 0 |
| HomeFeed.MountNeverLoads | iBlog/src/features/home/pages/Home.jsx:17 | since the page opens on the columns tab, the mount load never fires |
| HomeFeed.ScrollTrigger | iBlog/src/features/home/pages/Home.jsx:111-127 | scrolling near the bottom loads the next page exactly on the recommend tab while idle with more to come |
| HomeFeed.ButtonClick | iBlog/src/features/home/pages/Home.jsx:164-172 | the button loads the next page exactly when it is shown and no load is running |
| HomeFeed.ButtonShown | iBlog/src/features/home/pages/Home.jsx:164 | the load-more button is shown exactly when the feed says there are more pages (decided by this predicate) |
| HomeFeed.ResetSwallowedWhileLoading | iBlog/src/features/home/pages/Home.jsx:89-97 | a keyword change while a load is running clears the feed but starts no search, and the running load's list is then shown as page target + 1 |
| HomeFeed.StaleResultShown | iBlog/src/features/home/pages/Home.jsx:33-100 | loading the unfiltered feed, then typing `rust` before it answers, ends showing the unfiltered article with no search ever sent |
| FeedFixed.Load | iBlog/src/features/home/pages/Home.jsx:33-53 | the corrected load tags its request with the current generation and keeps the busy guard |
| FeedFixed.Reset | iBlog/src/features/home/pages/Home.jsx:78-100 | a keyword change on the recommend tab always starts the search, under a new generation, even while a load is running |
| FeedFixed.Complete | iBlog/src/features/home/pages/Home.jsx:55-74 | a reply of an older generation is dropped; a current one completes as before |
| FeedFixed.StaleRepliesIgnored | iBlog/src/features/home/pages/Home.jsx:55-74 | any number of older replies leave the feed untouched |
| FeedFixed.LastResetWins | iBlog/src/features/home/pages/Home.jsx:78-100 | whatever older replies arrive in between, the newest search's reply is what the feed shows |
| FeedFixed.SearchNotLost | iBlog/src/features/home/pages/Home.jsx:89-97 | in the scenario above the search is sent, the stale reply is dropped, and the search result is shown |
| Server.CurrentUserId | iblog_api/src/controllers/articleController.js:117 | the current user's id is known exactly when a user is attached and its id is a non-zero number |
| Authenticate.TokenOf | iblog_api/src/middlewares/authenticate.js:6 | a missing header gives no token; otherwise the token is the header with its first `Bearer ` removed |
| Authenticate.UserOf | iblog_api/src/middlewares/authenticate.js:18-23 | the attached user copies the id, email and name from the verified claims |
| Authenticate.Authenticate | iblog_api/src/middlewares/authenticate.js:4-36 | no token or an empty one gives 401 `访问被拒绝，未提供令牌`; a token that fails verification gives 401 `令牌无效`; the request goes on exactly with a verified token, carrying its claims' user |
| Authenticate.OptionalAuthenticate | iblog_api/src/middlewares/authenticate.js:38-56 | the request always goes on, with a user exactly when a present token verifies |
| Authenticate.MiddlewaresAgree | iblog_api/src/middlewares/authenticate.js:4-56 | where the strict middleware lets a request through, the optional one attaches the same user; where it refuses, the optional one goes on without a user |
| Authenticate.BearerHeader | iblog_api/src/middlewares/authenticate.js:6 | `Bearer <t>` yields exactly `t` |
| Authenticate.BareHeader | iblog_api/src/middlewares/authenticate.js:6 | a header that never contains `Bearer ` is taken whole as the token |
| ArticleModel.Raise | iblog_api/src/models/articleModel.js:110-124 | exactly the chosen counter goes up by one |
| ArticleModel.Increment | iblog_api/src/models/articleModel.js:8-19 | a row is affected exactly when the id parses and names an article, and then only that article's counter is raised; otherwise the table is unchanged |
| ArticleModel.IncrementChangesOneCounter | iblog_api/src/models/articleModel.js:110-124 | the ids stay the same, other articles are untouched, the author, title, content and status are kept, and the three counters sum to one more |
| ArticleModel.Delete | iblog_api/src/models/articleModel.js:102-108 | a row is removed exactly when the id parses and names an article; otherwise the table is unchanged |
| ArticleModel.NewRow | iblog_api/src/models/articleModel.js:60-69 | a new row keeps the author, title and content, defaults cover and category to `''`, topics to `[]` and status to `published`, and starts all counters at 0 |
| ArticleModel.Create | iblog_api/src/models/articleModel.js:71-78 | the table gains exactly the new row under the new id and keeps every other row |
| ArticleModel.Update | iblog_api/src/models/articleModel.js:81-100 | an existing article gets the new title, content, cover, category, topics and status while its author and counters stay; a missing one changes nothing and reads back as nothing |
| ArticleModel.RowTags | iblog_api/src/models/articleModel.js:236-239 | only the non-empty tags of an array are counted, and a non-array contributes none |
| ArticleModel.AllTags | iblog_api/src/models/articleModel.js:234-241 | the flattened tag list holds no empty tag |
| ArticleModel.AddTag | iblog_api/src/models/articleModel.js:238 | counting a tag adds at most one new entry |
| ArticleModel.AddTagLookup | iblog_api/src/models/articleModel.js:238 | counting a tag raises its count by one and no other count |
| ArticleModel.AddTagEntries | iblog_api/src/models/articleModel.js:238 | after counting a tag, it has an entry, and the other entries are the old ones |
| ArticleModel.AddTagDistinct | iblog_api/src/models/articleModel.js:238 | counting never creates a second entry for a tag |
| ArticleModel.TallyExact | iblog_api/src/models/articleModel.js:233-241 | each tag's count is the number of times it occurs; a tag has an entry exactly when it occurs; no tag has two entries |
| ArticleModel.Tally | iblog_api/src/models/articleModel.js:233-241 | counts the tags of a list of articles, entries in first-seen order (its meaning is stated by ArticleModel.TallyExact) |
| ArticleModel.AllTagsCount | iblog_api/src/models/articleModel.js:234-241 | a non-empty tag occurs in the flattened list as often as in the articles |
| ArticleModel.HotTagCounts | iblog_api/src/models/articleModel.js:233-245 | every non-empty tag is counted exactly as often as the published articles use it, the empty tag never, and each tag once |
| ArticleModel.Insert | iblog_api/src/models/articleModel.js:246 | inserting adds exactly the one entry |
| ArticleModel.InsertSorted | iblog_api/src/models/articleModel.js:246 | inserting into a list ordered by use keeps it ordered, and an entry used no more than the head goes after it |
| ArticleModel.SortByUsed | iblog_api/src/models/articleModel.js:246 | sorting by use is a permutation |
| ArticleModel.SortSorted | iblog_api/src/models/articleModel.js:246 | the sorted list is ordered from most used to least used |
| ArticleModel.Shuffle | iblog_api/src/models/articleModel.js:250 | the random order, driven by its choices, is a permutation |
| ArticleModel.HotTags | iblog_api/src/models/articleModel.js:224-251 | at most `pick` tags and at most `limit` come back, all taken from the `limit` most used |
| ArticleModel.TakeOfSorted | iblog_api/src/models/articleModel.js:247 | a prefix of an ordered list is ordered, is part of the list, and beats every entry it left out |
| ArticleModel.TopTags | iblog_api/src/models/articleModel.js:244-247 | the top list has at most `limit` entries, in order of use, drawn from the counts, and no tag left out is used more than one kept |
| ArticleController.ParseQuery | iblog_api/src/controllers/articleController.js:10-11 | an absent query value parses to nothing (NaN), a present one as `parseInt` reads it |
| ArticleController.ParseLimit | iblog_api/src/controllers/articleController.js:10 | a limit that parses to a non-zero number is used; NaN or 0 becomes 10, so the limit is never 0 |
| ArticleController.ParseOffset | iblog_api/src/controllers/articleController.js:11 | an offset that parses is used, NaN becomes 0 |
| ArticleController.PagingOfNumerals | iblog_api/src/controllers/articleController.js:10-11 | the decimal text of any limit reads back as that limit (0 as 10), the text of any offset as that offset, and missing values as 10 and 0 |
| ArticleController.PagingOf | iblog_api/src/controllers/articleController.js:10-11 | the query's paging is the parsed limit and offset |
| ArticleController.Normalise | iblog_api/src/controllers/articleController.js:20-37 | an array of topics is kept; a string is parsed as JSON, and one that fails to parse, like any other value, becomes `[]` |
| ArticleController.NormaliseAll | iblog_api/src/controllers/articleController.js:20-37 | every article keeps all its fields but its topics, which are normalised |
| ArticleController.ListAnswer | iblog_api/src/controllers/articleController.js:41-51 | a failed query gives 500 `服务器内部错误: <message>`; otherwise 200 with the normalised list and `hasMore` exactly when the page is full |
| ArticleController.GetAll | iblog_api/src/controllers/articleController.js:8-53 | the query is asked for the parsed paging and its rows are answered as a list page of the parsed limit |
| ArticleController.HasMoreIffFull | iblog_api/src/controllers/articleController.js:44 | `hasMore` is true exactly when as many rows came back as were asked for, so a short page ends paging; the list has one entry per row |
| ArticleController.Search | iblog_api/src/controllers/articleController.js:437-488 | a missing keyword gives 400 `搜索关键词不能为空`; otherwise the keyword search is answered as a list page |
| ArticleController.ByCategory | iblog_api/src/controllers/articleController.js:613-664 | a missing category gives 400 `分类参数不能为空`; otherwise the category query is answered as a list page |
| ArticleController.RefusalsMakeNoQuery | iblog_api/src/controllers/articleController.js:443-448 | a refused search or category request answers 400 whatever the database would have said |
| ArticleController.Mine | iblog_api/src/controllers/articleController.js:365-434 | no user gives 401 `用户未认证`; a user without an id gives 400 `用户ID不存在`; otherwise that user's rows are answered as a list page |
| ArticleController.UserTopics | iblog_api/src/controllers/articleController.js:342-347 | the author's list converts string topics by JSON parsing and keeps other values; it fails exactly when some string does not parse |
| ArticleController.ByUser | iblog_api/src/controllers/articleController.js:332-362 | a failed query or an unparsable topic string gives 500; 200 comes exactly with a good query and parseable topics, and its list is the query's rows with their topics parsed, without `hasMore` |
| ArticleController.ByUserListsRows | iblog_api/src/controllers/articleController.js:340-353 | a 200 lists exactly the rows the query returned for the author, same length and order, each with text topics parsed and the other fields as read |
| ArticleController.GetById | iblog_api/src/controllers/articleController.js:56-112 | an unknown or unparsable id gives 404 `文章不存在`; otherwise 200 with the row as read, topics normalised; the views go up only for a published article, and a failed increment is ignored |
| ArticleController.ViewFaultInvisible | iblog_api/src/controllers/articleController.js:73-78 | a failing view counter never changes the answer, and then nothing is written |
| ArticleController.Create | iblog_api/src/controllers/articleController.js:114-161 | a missing title or content gives 400 `标题和内容不能为空` before a missing user gives 401 `用户未认证`; 201 comes exactly when both are present, a user is signed in and the insert works, and then exactly the new row, by that user, is added |
| ArticleController.EditOf | iblog_api/src/controllers/articleController.js:189-202 | title, content, category and cover default to `''`, topics to `[]` unless an array was sent, and the status is passed on |
| ArticleController.Update | iblog_api/src/controllers/articleController.js:164-221 | 404 for an unknown article, 403 `无权修改此文章` for someone else's; a body without a status makes the update fail with 500 and writes nothing; 200 exactly for the owner with a status and without a fault, answering the updated row; nothing is written otherwise |
| ArticleController.Remove | iblog_api/src/controllers/articleController.js:223-270 | 404 for an unknown article, 403 `无权删除此文章` for someone else's; 200 `文章删除成功` exactly for the owner without a fault, removing that row; nothing is written otherwise |
| ArticleController.Bump | iblog_api/src/controllers/articleController.js:272-330 | a fault gives 500 and writes nothing; an unknown article gives 404; otherwise the counter goes up and the answer is `点赞成功` or `收藏成功` |
| ArticleController.HotTagsAnswer | iblog_api/src/controllers/articleController.js:575-583 | 200 with at most five tags, all drawn from the twenty most used |
| ArticleController.OnlyOwnerWrites | iblog_api/src/controllers/articleController.js:179-187 | whoever is not the author gets 403 on edit and delete and the table is unchanged |
| ArticleController.CreateThenGet | iblog_api/src/controllers/articleController.js:114-161 | a created article reads back with its title, content and author, and the first read counts one view |
| ArticleController.UpdateThenGet | iblog_api/src/controllers/articleController.js:189-221 | an edit with a status reads back with the sent topics, title and status while likes and views are kept; an edit without a status is refused with 500 and the table stays as it was |
| ArticleController.LikeThenGet | iblog_api/src/controllers/articleController.js:272-300 | a like reads back as one more like, and no other article changes |
| UserController.Public | iblog_api/src/controllers/userController.js:141-146 | the public user carries id, name, email and avatar and never the password hash |
| UserController.ByEmail | iblog_api/src/controllers/userController.js:110-115 | no user is found exactly when none has that email; a found user is in the table and has it |
| UserController.ById | iblog_api/src/controllers/userController.js:201-205 | no user is found exactly when none has that id; a found user is in the table and has it |
| UserController.Register | iblog_api/src/controllers/userController.js:6-96 | a missing name, email or password gives 400 `缺少必填字段`; a known email gives 409 `邮箱已存在`; otherwise 201 `注册成功` with the new id, and exactly one row is appended with the hashed password and the avatar or `/default-avatar.png`; refusals change nothing |
| UserController.RegisterKeepsTableUnique | iblog_api/src/controllers/userController.js:29-36 | registration never creates a second account with the same email or id |
| UserController.Login | iblog_api/src/controllers/userController.js:99-152 | a missing field gives 400; an unknown email gives 401 `用户不存在`; a wrong password gives 401 `密码错误`; 200 `登录成功` comes exactly when the password matches, with a token signed over id and email and the public user |
| UserController.RegisterThenLogin | iblog_api/src/controllers/userController.js:55-146 | right after registering, logging in with the same email and password succeeds and returns that new user |
| UserController.GetUser | iblog_api/src/controllers/userController.js:196-214 | an id that is not a number gives 400 `id 必须是数字`; 200 comes exactly for a whole-number id of a known user, with that public user; any other number gives 404 |
| UserController.SetWhere | iblog_api/src/controllers/userController.js:237-240 | every row with that id is changed and every other row is kept |
| UserController.UpdateAvatar | iblog_api/src/controllers/userController.js:217-257 | a missing avatar gives 400 `头像URL不能为空`; an unknown or unparsable id gives 404; otherwise 200 `头像更新成功`, that user's avatar changes and the changed user is returned |
| UserController.UpdateProfile | iblog_api/src/controllers/userController.js:260-304 | a missing name or email gives 400 `用户名和邮箱不能为空`; an email held by another user gives 409 `邮箱已被其他用户使用`; an unknown id gives 404; otherwise 200 with that user's new name and email; refusals change nothing |
| UserController.UpdateProfileKeepsEmailsUnique | iblog_api/src/controllers/userController.js:269-283 | a profile update never makes two accounts share an email, nor two share an id |
| UserController.ProfileOfAnotherUserChanged | iblog_api/src/controllers/userController.js:260-304 | a signed-in user can change another user's email: the id in the path is not theirs, the answer is 200 and the other row gets the new email |
| UserController.UpdateOwnProfile | iblog_api/src/routes/userRoutes.js:23 | the corrected profile route refuses with 403 `无权修改此用户` unless the path names the signed-in user, and otherwise behaves as the original |
| UserController.UpdateOwnAvatar | iblog_api/src/routes/userRoutes.js:22 | the corrected avatar route refuses with 403 unless the path names the signed-in user, and otherwise behaves as the original |
| UserController.OnlyOwnRowsChange | iblog_api/src/routes/userRoutes.js:22-23 | through the corrected routes, no row but the signed-in user's own can change |
| CommentController.List | iblog_api/src/controllers/commentController.js:6-22 | the article's comments come back with 200, a failure gives 500 `获取评论失败: <message>` |
| CommentController.Create | iblog_api/src/controllers/commentController.js:25-54 | missing or blank content gives 400 `评论内容不能为空`; a signed-in user without an id gives 500 `创建评论失败: ` followed by the driver's undefined-bind message; a database fault gives 500 `创建评论失败: <message>`; otherwise 201 with the one new comment by the signed-in user with zero likes |
| CommentController.WhitespaceRefused | iblog_api/src/controllers/commentController.js:30-35 | content made only of whitespace is refused and nothing is stored |
| CommentController.CreateAttributes | iblog_api/src/controllers/commentController.js:37-46 | without a user id the store is unchanged; with one, accepted content is stored as written under the signed-in user, and exactly one comment is added |
| CommentController.Like | iblog_api/src/controllers/commentController.js:57-80 | a fault gives 500 `点赞失败: <message>`; an unknown comment gives 404 `评论不存在`; otherwise 200 `点赞成功` and that comment gets one more like |
| CommentController.LikeTouchesOneComment | iblog_api/src/controllers/commentController.js:60-66 | a like changes only the likes of the one comment, by one |
| CommentController.FaultsAre500 | iblog_api/src/controllers/commentController.js:15-21 | every database fault answers 500 with `success: false` and writes nothing |

## Left out

- SQL text, the connection pool and the JOIN on the user table: list queries are inputs, so which rows a query returns (its filter, order, `LIMIT` and the author name and avatar joined in) is not modelled.
- The featured and hot endpoints and `getMe` and the draft list of the API are SQL only and are not modelled; their clients are.
- ArticleController.Remove: the 500 `删除失败` branch (iblog_api/src/controllers/articleController.js:256-262) needs the row to vanish between the read and the delete; with one sequential table the delete always succeeds.
- ArticleController.HotTagsAnswer: the 500 for a failed query (iblog_api/src/controllers/articleController.js:580-582) is not modelled.
- ArticleController.Update: a JSON `null` field is not told apart from a field left out. The model reads every missing field as `undefined`: for update, a missing status is the 500 of the undefined bind, and for create it is the default `published`. A `null` status, which both create and update store as NULL, is not modelled.
- UserController.Register: the 500 after a hashing or insert failure (iblog_api/src/controllers/userController.js:83-92) is not modelled.
- UserController.Login, UserController.GetUser, UserController.UpdateAvatar, UserController.UpdateProfile: database errors handed to `next(err)` are not modelled.
- UserController.UpdateProfile: MySQL's string-to-number conversion of the path id is modelled as `ParseInt`; for an id that does not parse, every user counts as another in the email check.
- CommentController.Like: how MySQL converts the route parameter to a comment id is the `key` input.
- bcrypt, `jwt.sign` and `jwt.verify` (token expiry included) are functions passed in, not implemented.
- `JSON.stringify` of topics is modelled by the list itself; `JSON.parse` is a function passed in.
- ArticleModel.HotTags: `Object.entries` lists integer-like keys first; the model keeps first-seen order among equal counts. The `Math.random` shuffle is a permutation chosen by an input.
- ArticleModel.AddTag: counts every tag as an own entry of a map. The source's `counter[t] || 0` on a plain object reads inherited members, so a tag named `constructor`, `toString`, `valueOf` or `hasOwnProperty` starts from a function and ends as a string, and `__proto__` is swallowed by the prototype setter; such tag names are not modelled.
- ArticleModel.TallyExact: the exact count per tag is promised for every tag name, including the `Object.prototype` names for which the source does not count (see ArticleModel.AddTag).
- ArticleModel.HotTagCounts: promises each tag's exact use count for every tag name, which the source does not deliver for `Object.prototype` tag names (see ArticleModel.AddTag).
- ArticleModel.HotTags: the promise that at most `pick` tags come back, drawn from the `limit` most used and shuffled, holds only for tag names that are not `Object.prototype` members (see ArticleModel.AddTag).
- ArticleModel.TopTags: the ordering by count holds only when every count is a number, so not for `Object.prototype` tag names (see ArticleModel.AddTag).
- `Number()` of a path parameter is taken as a value that is NaN or a real; `parseInt` without a radix is modelled as JavaScript reads it: leading whitespace skipped, at most one sign, then decimal digits, or hexadecimal digits after `0x` or `0X`.
- Locale-dependent date text (`toLocaleString`, `new Date` parsing) is a parameter; only the zero-padded formatting from integer fields is modelled.
- String lengths are counted in characters, not UTF-16 code units.
- ArticleCard `formatNumber` uses floating-point `toFixed` and is not modelled.
- The timers (the comment delay, the load-more delay, `requestAnimationFrame`, `setInterval`, the debounce) are immediate steps; a closure that sees a stale `loading` value is not modelled.
- The fetch plumbing, request headers, console logging and navigation (`encodeURIComponent` links, `toggleExpand`) are not modelled.
- A card whose article lacks `articleTopics` makes the render throw; the model takes topics as a list.
- The cover upload request and the `FileReader` preview in the publish page are not modelled; only the file checks before the upload are.
- The route tables, the error handler, the static data, the markdown and rich-text editors and the presentation-only components are not modelled.

## Findings

Observed behaviour that is not a defect: on the recommend tab an empty keyword does not load by itself (iBlog/src/features/home/pages/Home.jsx:89). The first page comes from the button or from a scroll. On the article page, a like or collect clicked before the previous one has returned starts from the same article, so the page shows one increment fewer than the server counted (ArticleDetail.OverlappingClicksLoseOne).

| source | as written | input that shows it | evidently intended | confidence | as-written member | corrected member |
|---|---|---|---|---|---|---|
| iBlog/src/features/home/pages/Home.jsx:34, 88-98 | the keyword reset calls `loadArticles(0, searchKeyword, true)` inside `requestAnimationFrame`, which returns at once while `loading` is set; when the earlier request completes, its page of the old keyword is appended or shown | a page request is in flight on the recommend tab, and the user types a keyword | the newest keyword's first page is shown, and a reply to an older request is ignored | medium, not executed | HomeFeed.StaleResultShown, HomeFeed.ResetSwallowedWhileLoading | FeedFixed.SearchNotLost, FeedFixed.LastResetWins, FeedFixed.StaleRepliesIgnored |
| iBlog/src/components/ArticleCard.jsx:10-16 | the card's own `getImageUrl` prefixes the API host to every path, including an absolute `http` address | cover `https://cdn.example.com/a.png` becomes `http://localhost:4000/https://cdn.example.com/a.png` | the behaviour of the shared `getImageUrl` (iBlog/src/utils/imageUtils.js:8-10): absolute addresses pass through | low, not executed | ArticleCard.ImageUrlAsWritten, ArticleCard.Show, ArticleCard.AbsoluteCoverBroken, ArticleCard.AbsoluteCoverExample, ArticleCard.AbsoluteCoverOnCard | ArticleCard.ImageUrl |
| iblog_api/src/controllers/userController.js:217-304 | `updateAvatar` and `updateProfile` change the account named in the path; the routes (iblog_api/src/routes/userRoutes.js:22-23) only require some signed-in user | user 1's token with `PUT /api/user/2/profile` and a fresh email | only the signed-in user may change their own account, as the article handlers check ownership | low to medium, not executed | UserController.ProfileOfAnotherUserChanged | UserController.UpdateOwnProfile, UserController.UpdateOwnAvatar, UserController.OnlyOwnRowsChange |

=== FILE: article_card.dfy ===
/** The article card: a preview of the content with the markup removed,
    and the cover picture. */
module ArticleCard {
  import opened Wrappers
  import opened Strings
  import opened Seqs
  import opened Records
  import Images

  const PreviewLength: nat := 120
  const Ellipsis: string := "..."

  /** `html.replace(/<[^>]+>/g, '')`: scanning left to right, a '<' that
      is followed later by a '>' with at least one character between them
      starts a tag, and the tag up to that first '>' is removed; any other
      character is kept. */
  function StripTags(s: string): (r: string)
    ensures |r| <= |s|
    decreases |s|
  {
    if |s| == 0 then ""
    else if s[0] == '<' && TagEnd(s).Some? then StripTags(s[TagEnd(s).value + 1..])
    else [s[0]] + StripTags(s[1..])
  }

  /** Where the tag that starts at `s[0]` ends: the first '>' after it,
      when that is not the very next character. */
  function TagEnd(s: string): (r: Option<nat>)
    requires |s| > 0
    ensures r.Some? ==> 2 <= r.value < |s| && s[r.value] == '>' && '>' !in s[1..r.value]
  {
    match FindChar(s[1..], '>')
    case None => None
    case Some(k) =>
      if k == 0 then None
      else
        assert s[1..][..k] == s[1..k + 1];
        Some(k + 1)
  }

  /** Text with no tag left in it: every '<' is followed by no '>' at
      all, or by a '>' straight away. */
  predicate TagFree(s: string)
    decreases |s|
  {
    |s| == 0 || ((s[0] != '<' || TagEnd(s).None?) && TagFree(s[1..]))
  }

  /** Stripping keeps only characters of the input. */
  lemma {:induction false} StripKeepsChars(s: string, c: char)
    requires c in StripTags(s)
    ensures c in s
    decreases |s|
  {
    if s[0] == '<' && TagEnd(s).Some? {
      StripKeepsChars(s[TagEnd(s).value + 1..], c);
    } else if c != s[0] {
      StripKeepsChars(s[1..], c);
    }
  }

  /** Stripping leaves no tag behind. */
  lemma {:induction false} StripIsTagFree(s: string)
    ensures TagFree(StripTags(s))
    decreases |s|
  {
    if |s| > 0 {
      if s[0] == '<' && TagEnd(s).Some? {
        StripIsTagFree(s[TagEnd(s).value + 1..]);
      } else {
        var tail := StripTags(s[1..]);
        var r := [s[0]] + tail;
        StripIsTagFree(s[1..]);
        assert r[1..] == tail;
        if s[0] == '<' {
          match FindChar(s[1..], '>')
          case None =>
            if '>' in tail { StripKeepsChars(s[1..], '>'); }
            assert FindChar(r[1..], '>').None?;
          case Some(k) =>
            assert k == 0 && s[1] == '>';
            assert tail == [s[1]] + StripTags(s[2..]) by {
              assert s[1..][1..] == s[2..];
            }
            assert FindChar(r[1..], '>') == Some(0);
        }
      }
    }
  }

  /** Text without tags comes through unchanged. */
  lemma {:induction false} StripTagFree(s: string)
    requires TagFree(s)
    ensures StripTags(s) == s
    decreases |s|
  {
    if |s| > 0 {
      StripTagFree(s[1..]);
    }
  }

  /** Stripping twice strips nothing more. */
  lemma StripIdempotent(s: string)
    ensures StripTags(StripTags(s)) == StripTags(s)
  {
    StripIsTagFree(s);
    StripTagFree(StripTags(s));
  }

  /** Text without any '<' has no tag. */
  lemma {:induction false} NoOpenerIsTagFree(s: string)
    requires '<' !in s
    ensures TagFree(s)
    decreases |s|
  {
    if |s| > 0 {
      assert s[0] != '<';
      assert '<' !in s[1..];
      NoOpenerIsTagFree(s[1..]);
    }
  }

  /** Text before the first '<' is kept as it is, in order, ahead of
      whatever the rest strips to. */
  lemma {:induction false} StripKeepsPlainPrefix(a: string, b: string)
    requires '<' !in a
    ensures StripTags(a + b) == a + StripTags(b)
    decreases |a|
  {
    if |a| > 0 {
      var s := a + b;
      assert s[0] == a[0] && s[0] != '<';
      assert s[1..] == a[1..] + b;
      assert StripTags(s) == [a[0]] + StripTags(a[1..] + b);
      assert '<' !in a[1..];
      StripKeepsPlainPrefix(a[1..], b);
      assert a == [a[0]] + a[1..];
    } else {
      assert a + b == b;
    }
  }

  /** A tag, '<' then at least one character other than '>' and then '>',
      is removed whole, and nothing after it is touched. */
  lemma StripRemovesTag(t: string, b: string)
    requires t != "" && '>' !in t
    ensures StripTags("<" + t + ">" + b) == StripTags(b)
  {
    var s := "<" + t + ">" + b;
    assert s[1..] == t + ">" + b;
    assert s[1..][..|t|] == t;
    assert s[1..][|t|] == '>';
    var k := FindChar(s[1..], '>');
    assert k.Some? by {
      assert '>' in s[1..];
    }
    assert k.value == |t|;
    assert TagEnd(s) == Some(|t| + 1);
    assert s[|t| + 2..] == b;
  }

  /** `plainText(html)`: the first 120 characters of the stripped text and
      an ellipsis. The card always passes a string. */
  function PlainText(html: string): (r: string)
    ensures |r| <= PreviewLength + |Ellipsis|
    ensures |r| >= |Ellipsis| && r[|r| - |Ellipsis|..] == Ellipsis
    ensures r[..|r| - |Ellipsis|] == Take(StripTags(html), PreviewLength)
    ensures r[..|r| - |Ellipsis|] <= StripTags(html)
  {
    var body := Take(StripTags(html), PreviewLength);
    assert (body + Ellipsis)[..|body|] == body;
    body + Ellipsis
  }

  /** The card's own `getImageUrl` as the card writes it: the same
      defaults, but no exception for addresses that already start with
      "http", which get the API host put in front of them as well. */
  function ImageUrlAsWritten(p: Option<string>): (r: string)
    ensures Images.NoCover(p) ==> r == Images.DefaultCover
    ensures !Images.NoCover(p) && !("http" <= p.value) ==> r == Images.GetImageUrl(p)
  {
    if !Present(p) || p.value == "undefined" || p.value == "null" then Images.DefaultCover
    else Images.ApiHost + Images.Rooted(p.value)
  }

  /** An absolute cover address is turned into one that points at the API
      host, so the card shows a broken picture (and then the default one
      from its error handler), where the shared helper keeps it. */
  lemma AbsoluteCoverBroken(p: string)
    requires "http" <= p
    ensures ImageUrlAsWritten(Some(p)) == Images.ApiHost + "/" + p
    ensures Images.GetImageUrl(Some(p)) == p
    ensures ImageUrlAsWritten(Some(p)) != Images.GetImageUrl(Some(p))
  {
    assert p[0] != '/';
    assert |p| != |"undefined"| || p != "undefined";
    assert |p| != |"null"| || p != "null";
    assert |Images.ApiHost + "/" + p| > |p|;
  }

  /** One such address, as a concrete witness. */
  lemma AbsoluteCoverExample()
    ensures var p := "https://cdn.example.com/a.png";
      ImageUrlAsWritten(Some(p)) == Images.ApiHost + "/" + p != p == ImageUrl(Some(p))
  {
    AbsoluteCoverBroken("https://cdn.example.com/a.png");
  }

  /** The corrected card helper: the card's own defaults with the "http"
      exception the other two copies make. */
  function ImageUrl(p: Option<string>): (r: string)
    ensures Images.NoCover(p) ==> r == Images.DefaultCover
    ensures !Images.NoCover(p) && "http" <= p.value ==> r == p.value
    ensures !Images.NoCover(p) && !("http" <= p.value) ==> r == ImageUrlAsWritten(p)
  {
    Images.GetImageUrl(p)
  }

  /** What one card shows: the preview, the picture (from the card's own
      helper) and the three counters, a missing counter shown as 0. */
  datatype Shown = Shown(preview: string, picture: string, likes: int, collects: int, views: int)

  function Show(c: Card): (r: Shown)
    ensures r.preview == PlainText(c.articleContent)
    ensures r.picture == ImageUrlAsWritten(c.articleCover)
    ensures NumPresent(c.articleLikes) ==> r.likes == c.articleLikes.value
    ensures !NumPresent(c.articleLikes) ==> r.likes == 0
    ensures NumPresent(c.articleCollects) ==> r.collects == c.articleCollects.value
    ensures !NumPresent(c.articleCollects) ==> r.collects == 0
    ensures NumPresent(c.articleViews) ==> r.views == c.articleViews.value
    ensures !NumPresent(c.articleViews) ==> r.views == 0
  {
    Shown(PlainText(c.articleContent), ImageUrlAsWritten(c.articleCover),
          OrZero(c.articleLikes), OrZero(c.articleCollects), OrZero(c.articleViews))
  }

  /** A picture that fails to load is replaced by the default one. */
  function OnImageError(s: Shown): (r: Shown)
    ensures r.picture == Images.DefaultCover
    ensures r.preview == s.preview && r.likes == s.likes && r.collects == s.collects && r.views == s.views
  {
    s.(picture := Images.DefaultCover)
  }

  /** A card whose cover is an absolute address shows a picture on the API
      host instead; once that fails to load, the card shows the default
      cover rather than the article's own. */
  lemma AbsoluteCoverOnCard(c: Card)
    requires c.articleCover.Some? && "http" <= c.articleCover.value
    ensures Show(c).picture == Images.ApiHost + "/" + c.articleCover.value
    ensures Show(c).picture != Images.GetImageUrl(c.articleCover)
    ensures OnImageError(Show(c)).picture == Images.DefaultCover
  {
    AbsoluteCoverBroken(c.articleCover.value);
  }
}

=== FILE: article_controller.dfy ===
/** The API's article handlers: paging parameters, topic normalisation,
    the list answers with `hasMore`, and the create, update, delete, like
    and view paths with their validation and ownership checks. The
    database is the abstract table of `ArticleModel`; a list query is a
    function from its parameters to the rows it returns or the error it
    throws. */
module ArticleController {
  import opened Wrappers
  import opened Strings
  import opened Records
  import opened Server
  import opened ArticleModel
  import opened Seqs
  import ArticleService
  import Http

  const NotFound: string := "文章不存在"
  const MissingFields: string := "标题和内容不能为空"
  const Unauthenticated: string := "用户未认证"
  const MissingUserId: string := "用户ID不存在"
  const NotYoursToEdit: string := "无权修改此文章"
  const NotYoursToDelete: string := "无权删除此文章"
  const MissingKeyword: string := "搜索关键词不能为空"
  const MissingCategory: string := "分类参数不能为空"
  const DefaultLimit: int := 10

  /** What the handlers send besides `success` and `message`. */
  datatype Payload =
    | Listing(list: seq<Row>, hasMore: Option<bool>)
    | One(article: Row)
    | Tags(tags: seq<ArticleService.HotTag>)

  /** `parseInt(v)` of a query value; an absent value is `undefined`,
      which parses to NaN. */
  function ParseQuery(v: Option<string>): (r: Option<int>)
    ensures v.None? ==> r.None?
    ensures v.Some? ==> r == ParseInt(v.value)
  {
    if v.Some? then ParseInt(v.value) else None
  }

  /** `parseInt(req.query.limit) || 10`: NaN and 0 both give 10. */
  function ParseLimit(v: Option<string>): (r: int)
    ensures ParseQuery(v).Some? && ParseQuery(v).value != 0 ==> r == ParseQuery(v).value
    ensures ParseQuery(v).None? || ParseQuery(v) == Some(0) ==> r == DefaultLimit
    ensures r != 0
  {
    match ParseQuery(v)
    case Some(n) => if n != 0 then n else DefaultLimit
    case None => DefaultLimit
  }

  /** `parseInt(req.query.offset) || 0`. */
  function ParseOffset(v: Option<string>): (r: int)
    ensures ParseQuery(v).Some? ==> r == ParseQuery(v).value
    ensures ParseQuery(v).None? ==> r == 0
  {
    ParseQuery(v).GetOr(0)
  }

  /** A limit or offset written as a number is read back as that number,
      except that a zero limit means the default one. */
  lemma PagingOfNumerals(limit: int, offset: int)
    ensures ParseLimit(Some(IntToString(limit))) == if limit == 0 then DefaultLimit else limit
    ensures ParseOffset(Some(IntToString(offset))) == offset
    ensures ParseLimit(None) == DefaultLimit && ParseOffset(None) == 0
  {
    ParseIntOfIntToString(limit);
    ParseIntOfIntToString(offset);
  }

  /** The paging a list query is run with. */
  datatype Paging = Paging(limit: int, offset: int)

  function PagingOf(limit: Option<string>, offset: Option<string>): (r: Paging)
    ensures r.limit == ParseLimit(limit) && r.offset == ParseOffset(offset)
  {
    Paging(ParseLimit(limit), ParseOffset(offset))
  }

  /** The topics of a listed article: a string is replaced by what
      `JSON.parse` makes of it (`parse`, None where it throws, which gives
      the empty array), an array stays, anything else becomes the empty
      array. */
  function Normalise(t: Topics, parse: string -> Option<Topics>): (r: Topics)
    ensures t.TagArray? ==> r == t
    ensures t.Text? && parse(t.text).Some? ==> r == parse(t.text).value
    ensures t.Text? && parse(t.text).None? ==> r == TagArray([])
    ensures t.Other? ==> r == TagArray([])
  {
    match t
    case TagArray(_) => t
    case Text(s) => parse(s).GetOr(TagArray([]))
    case Other => TagArray([])
  }

  /** Every row with its topics normalised, in the query's order. */
  function NormaliseAll(rows: seq<Row>, parse: string -> Option<Topics>): (r: seq<Row>)
    ensures |r| == |rows|
    ensures forall i :: 0 <= i < |rows| ==> r[i] == rows[i].(topics := Normalise(rows[i].topics, parse))
  {
    if |rows| == 0 then []
    else [rows[0].(topics := Normalise(rows[0].topics, parse))] + NormaliseAll(rows[1..], parse)
  }

  /** The list answer: the normalised rows and `hasMore`, which is whether
      the page came back full; a query error is a 500. */
  function ListAnswer(rows: Result<seq<Row>>, limit: int, parse: string -> Option<Topics>): (r: Answer<Payload>)
    ensures rows.Err? ==> r == Refuse(500, InternalError(rows.message))
    ensures rows.Ok? ==> r == Accept(200, None, Listing(NormaliseAll(rows.value, parse), Some(|rows.value| == limit)))
  {
    match rows
    case Err(m) => Refuse(500, InternalError(m))
    case Ok(rs) => Accept(200, None, Listing(NormaliseAll(rs, parse), Some(|rs| == limit)))
  }

  /** `getAllArticles`. */
  function GetAll(limit: Option<string>, offset: Option<string>, query: Paging -> Result<seq<Row>>,
                  parse: string -> Option<Topics>): (r: Answer<Payload>)
    ensures r == ListAnswer(query(PagingOf(limit, offset)), ParseLimit(limit), parse)
  {
    var p := PagingOf(limit, offset);
    ListAnswer(query(p), p.limit, parse)
  }

  /** `hasMore` is set exactly when the page holds `limit` rows, so it is
      never set for a negative limit, and a short page ends the list. */
  lemma HasMoreIffFull(rows: seq<Row>, limit: int, parse: string -> Option<Topics>)
    ensures ListAnswer(Ok(rows), limit, parse).data.value.hasMore == Some(|rows| == limit)
    ensures |rows| < limit ==> ListAnswer(Ok(rows), limit, parse).data.value.hasMore == Some(false)
    ensures |ListAnswer(Ok(rows), limit, parse).data.value.list| == |rows|
  {
  }

  /** `searchArticles`: an absent or empty keyword is refused before the
      query. */
  function Search(keyword: Option<string>, limit: Option<string>, offset: Option<string>,
                  query: (string, Paging) -> Result<seq<Row>>, parse: string -> Option<Topics>): (r: Answer<Payload>)
    ensures !Present(keyword) ==> r == Refuse(400, MissingKeyword)
    ensures Present(keyword) ==> r == ListAnswer(query(keyword.value, PagingOf(limit, offset)), ParseLimit(limit), parse)
  {
    if !Present(keyword) then Refuse(400, MissingKeyword)
    else ListAnswer(query(keyword.value, PagingOf(limit, offset)), ParseLimit(limit), parse)
  }

  /** `getArticlesByCategory`: an absent or empty category is refused
      before the query. */
  function ByCategory(category: Option<string>, limit: Option<string>, offset: Option<string>,
                      query: (string, Paging) -> Result<seq<Row>>, parse: string -> Option<Topics>): (r: Answer<Payload>)
    ensures !Present(category) ==> r == Refuse(400, MissingCategory)
    ensures Present(category) ==> r == ListAnswer(query(category.value, PagingOf(limit, offset)), ParseLimit(limit), parse)
  {
    if !Present(category) then Refuse(400, MissingCategory)
    else ListAnswer(query(category.value, PagingOf(limit, offset)), ParseLimit(limit), parse)
  }

  /** A refused search or category request does not depend on the
      database: no query is made. */
  lemma RefusalsMakeNoQuery(v: Option<string>, limit: Option<string>, offset: Option<string>,
                            q1: (string, Paging) -> Result<seq<Row>>, q2: (string, Paging) -> Result<seq<Row>>,
                            parse: string -> Option<Topics>)
    requires !Present(v)
    ensures Search(v, limit, offset, q1, parse) == Search(v, limit, offset, q2, parse)
    ensures ByCategory(v, limit, offset, q1, parse) == ByCategory(v, limit, offset, q2, parse)
    ensures Search(v, limit, offset, q1, parse).status == ByCategory(v, limit, offset, q1, parse).status == 400
  {
  }

  /** `getMyArticles` and `getMyDrafts`: 401 without a user, 400 when the
      user has no id, else the user's rows (published or drafts, as the
      query chooses). */
  function Mine(user: Option<ReqUser>, limit: Option<string>, offset: Option<string>,
                query: (int, Paging) -> Result<seq<Row>>, parse: string -> Option<Topics>): (r: Answer<Payload>)
    ensures user.None? ==> r == Refuse(401, Unauthenticated)
    ensures user.Some? && CurrentUserId(user).None? ==> r == Refuse(400, MissingUserId)
    ensures CurrentUserId(user).Some? ==>
      r == ListAnswer(query(CurrentUserId(user).value, PagingOf(limit, offset)), ParseLimit(limit), parse)
  {
    if user.None? then Refuse(401, Unauthenticated)
    else match CurrentUserId(user)
      case None => Refuse(400, MissingUserId)
      case Some(id) => ListAnswer(query(id, PagingOf(limit, offset)), ParseLimit(limit), parse)
  }

  /** `getUserArticles` parses string topics without catching: a string
      that is not JSON makes the whole answer a 500. */
  function UserTopics(rows: seq<Row>, parse: string -> Option<Topics>): (r: Result<seq<Row>>)
    ensures r.Ok? <==> forall i :: 0 <= i < |rows| && rows[i].topics.Text? ==> parse(rows[i].topics.text).Some?
    ensures r.Ok? ==> |r.value| == |rows| && forall i :: 0 <= i < |rows| ==>
      r.value[i] == rows[i].(topics := if rows[i].topics.Text? then parse(rows[i].topics.text).value else rows[i].topics)
  {
    if |rows| == 0 then Ok([])
    else
      var t := rows[0].topics;
      if t.Text? && parse(t.text).None? then Err(Http.InvalidJson)
      else
        var head := rows[0].(topics := if t.Text? then parse(t.text).value else t);
        match UserTopics(rows[1..], parse)
        case Err(m) =>
          assert !(forall i :: 0 <= i < |rows| - 1 && rows[1..][i].topics.Text? ==> parse(rows[1..][i].topics.text).Some?);
          Err(m)
        case Ok(tail) =>
          assert forall i :: 1 <= i < |rows| ==> rows[i] == rows[1..][i - 1];
          Ok([head] + tail)
  }

  /** `getUserArticles`: the author's published rows, with no `hasMore`. */
  function ByUser(userId: string, limit: Option<string>, offset: Option<string>,
                  query: (string, Paging) -> Result<seq<Row>>, parse: string -> Option<Topics>): (r: Answer<Payload>)
    ensures query(userId, PagingOf(limit, offset)).Err? ==>
      r == Refuse(500, InternalError(query(userId, PagingOf(limit, offset)).message))
    ensures query(userId, PagingOf(limit, offset)).Ok? && UserTopics(query(userId, PagingOf(limit, offset)).value, parse).Err? ==>
      r == Refuse(500, InternalError(UserTopics(query(userId, PagingOf(limit, offset)).value, parse).message))
    ensures r.status == 200 ==> r.data.Some? && r.data.value.Listing? && r.data.value.hasMore.None?
    ensures r.status == 200 <==> query(userId, PagingOf(limit, offset)).Ok? && UserTopics(query(userId, PagingOf(limit, offset)).value, parse).Ok?
    ensures r.status == 200 ==> r.data.value.list == UserTopics(query(userId, PagingOf(limit, offset)).value, parse).value
  {
    match query(userId, PagingOf(limit, offset))
    case Err(m) => Refuse(500, InternalError(m))
    case Ok(rs) =>
      match UserTopics(rs, parse)
      case Err(m) => Refuse(500, InternalError(m))
      case Ok(list) => Accept(200, None, Listing(list, None))
  }

  /** A 200 from `getUserArticles` lists exactly the author's rows the query
      returned, in its order, each with its text topics parsed. */
  lemma ByUserListsRows(userId: string, limit: Option<string>, offset: Option<string>,
                        query: (string, Paging) -> Result<seq<Row>>, parse: string -> Option<Topics>)
    ensures var r := ByUser(userId, limit, offset, query, parse);
      var rows := query(userId, PagingOf(limit, offset));
      r.status == 200 ==>
        && rows.Ok?
        && |r.data.value.list| == |rows.value|
        && forall i :: 0 <= i < |rows.value| ==>
             r.data.value.list[i] == rows.value[i].(topics := if rows.value[i].topics.Text? then parse(rows.value[i].topics.text).value else rows.value[i].topics)
  {
  }

  /** `getArticleById`: 404 for an id with no row. A published article's
      views go up by one, and a failure of that update (`viewsFault`) is
      ignored; the answer is the row as read before the update, with its
      topics normalised. */
  function GetById(db: Db, id: string, viewsFault: bool, parse: string -> Option<Topics>): (r: (Db, Answer<Payload>))
    ensures !(Key(id).Some? && Key(id).value in db) ==> r == (db, Refuse(404, NotFound))
    ensures Key(id).Some? && Key(id).value in db ==>
      var row := db[Key(id).value];
      && r.1 == Accept(200, None, One(row.(topics := Normalise(row.topics, parse))))
      && (row.status == Some(DefaultStatus) && !viewsFault ==> r.0 == Increment(db, Key(id), Views).0)
      && (row.status != Some(DefaultStatus) || viewsFault ==> r.0 == db)
  {
    var key := Key(id);
    if !(key.Some? && key.value in db) then (db, Refuse(404, NotFound))
    else
      var row := db[key.value];
      var after := if row.status == Some(DefaultStatus) && !viewsFault then Increment(db, key, Views).0 else db;
      (after, Accept(200, None, One(row.(topics := Normalise(row.topics, parse)))))
  }

  /** The answer of the article page never depends on the view count
      update: it is the same whether that update succeeds or fails. */
  lemma ViewFaultInvisible(db: Db, id: string, parse: string -> Option<Topics>)
    ensures GetById(db, id, true, parse).1 == GetById(db, id, false, parse).1
    ensures GetById(db, id, true, parse).0 == db
  {
  }

  /** The request body of `createArticle` and `updateArticle`; None is a
      field left undefined. */
  datatype Body = Body(
    title: Option<string>, content: Option<string>, cover: Option<string>,
    category: Option<string>, topics: Option<Topics>, status: Option<string>)

  /** `createArticle`: 400 for a missing title or content, checked before
      the 401 for a missing user; then the row is inserted with the
      current user as author, whatever the body says, and answered with
      201. A fault of the insert (`fault`) is a 500 and inserts nothing.
      Stringifying an array of topics is modelled by the array itself. */
  function Create(db: Db, user: Option<ReqUser>, b: Body, newId: int, fault: Option<string>): (r: (Db, Answer<Payload>))
    requires newId !in db
    ensures !Present(b.title) || !Present(b.content) ==> r == (db, Refuse(400, MissingFields))
    ensures Present(b.title) && Present(b.content) && CurrentUserId(user).None? ==> r == (db, Refuse(401, Unauthenticated))
    ensures fault.Some? ==> r.0 == db && r.1.status != 201
    ensures r.1.status == 201 <==> Present(b.title) && Present(b.content) && CurrentUserId(user).Some? && fault.None?
    ensures r.1.status == 201 ==>
      var a := NewArticle(b.title, b.content, b.cover, b.category, b.topics, b.status, CurrentUserId(user).value);
      r == (db[newId := NewRow(a)], Accept(201, None, One(NewRow(a))))
  {
    if !Present(b.title) || !Present(b.content) then (db, Refuse(400, MissingFields))
    else match CurrentUserId(user)
      case None => (db, Refuse(401, Unauthenticated))
      case Some(uid) =>
        if fault.Some? then (db, Refuse(500, InternalError(fault.value)))
        else
          var (after, row) := ArticleModel.Create(db, NewArticle(b.title, b.content, b.cover, b.category, b.topics, b.status, uid), newId);
          (after, Accept(201, None, One(row)))
  }

  /** Whether the request's user wrote the row: `existing.userId !==
      currentUserId`, where a missing current id never matches. */
  predicate Owns(user: Option<ReqUser>, row: Row) {
    CurrentUserId(user) == Some(row.userId)
  }

  /** The fields `updateArticle` writes: each text field `|| ''`, the
      topics the body's array or else the empty array ('[]'), and the
      status as sent. */
  function EditOf(b: Body): (e: Edit)
    ensures e.title == Or(b.title, "") && e.content == Or(b.content, "")
    ensures e.cover == Or(b.cover, "") && e.category == Or(b.category, "")
    ensures b.topics.Some? && b.topics.value.TagArray? ==> e.topics == b.topics.value
    ensures !(b.topics.Some? && b.topics.value.TagArray?) ==> e.topics == TagArray([])
    ensures e.status == b.status
  {
    Edit(Or(b.title, ""), Or(b.content, ""), Or(b.cover, ""), Or(b.category, ""),
         if b.topics.Some? && b.topics.value.TagArray? then b.topics.value else TagArray([]),
         b.status)
  }

  /** `updateArticle`: 404 for a missing row and 403 for someone else's,
      neither writing anything. The status is bound as sent, so a body
      without one makes the update statement fail (500, nothing written);
      otherwise the row is rewritten and answered. */
  function Update(db: Db, user: Option<ReqUser>, id: string, b: Body, fault: Option<string>): (r: (Db, Answer<Payload>))
    ensures !(Key(id).Some? && Key(id).value in db) ==> r == (db, Refuse(404, NotFound))
    ensures Key(id).Some? && Key(id).value in db && !Owns(user, db[Key(id).value]) ==> r == (db, Refuse(403, NotYoursToEdit))
    ensures Key(id).Some? && Key(id).value in db && Owns(user, db[Key(id).value]) && b.status.None? ==>
      r == (db, Refuse(500, InternalError(UndefinedBind)))
    ensures r.1.status != 200 ==> r.0 == db
    ensures r.1.status == 200 <==>
      Key(id).Some? && Key(id).value in db && Owns(user, db[Key(id).value]) && b.status.Some? && fault.None?
    ensures r.1.status == 200 ==>
      r.0 == ArticleModel.Update(db, Key(id), EditOf(b)).0 && r.1 == Accept(200, None, One(r.0[Key(id).value]))
  {
    var key := Key(id);
    if !(key.Some? && key.value in db) then (db, Refuse(404, NotFound))
    else if !Owns(user, db[key.value]) then (db, Refuse(403, NotYoursToEdit))
    else if b.status.None? then (db, Refuse(500, InternalError(UndefinedBind)))
    else if fault.Some? then (db, Refuse(500, InternalError(fault.value)))
    else
      var (after, row) := ArticleModel.Update(db, key, EditOf(b));
      (after, Accept(200, None, One(row.value)))
  }

  /** `deleteArticle`: the same 404 and 403 checks; then the row goes.
      The row was just found, so the delete always affects it here. */
  function Remove(db: Db, user: Option<ReqUser>, id: string, fault: Option<string>): (r: (Db, Answer<Payload>))
    ensures !(Key(id).Some? && Key(id).value in db) ==> r == (db, Refuse(404, NotFound))
    ensures Key(id).Some? && Key(id).value in db && !Owns(user, db[Key(id).value]) ==> r == (db, Refuse(403, NotYoursToDelete))
    ensures r.1.status != 200 ==> r.0 == db
    ensures r.1.status == 200 <==> Key(id).Some? && Key(id).value in db && Owns(user, db[Key(id).value]) && fault.None?
    ensures r.1.status == 200 ==> r.0 == db - {Key(id).value} && r.1.message == Some("文章删除成功")
  {
    var key := Key(id);
    if !(key.Some? && key.value in db) then (db, Refuse(404, NotFound))
    else if !Owns(user, db[key.value]) then (db, Refuse(403, NotYoursToDelete))
    else if fault.Some? then (db, Refuse(500, InternalError(fault.value)))
    else
      var (after, _) := ArticleModel.Delete(db, key);
      (after, Answer(200, Some(true), Some("文章删除成功"), None))
  }

  /** `likeArticle` and `collectArticle`: the counter goes up when the id
      names a row (200), else 404. */
  function Bump(db: Db, id: string, c: Counter, fault: Option<string>): (r: (Db, Answer<Payload>))
    requires c != Views
    ensures fault.Some? ==> r.0 == db && r.1.status == 500
    ensures fault.None? && !(Key(id).Some? && Key(id).value in db) ==> r == (db, Refuse(404, NotFound))
    ensures fault.None? && Key(id).Some? && Key(id).value in db ==>
      r.0 == Increment(db, Key(id), c).0 && r.1.status == 200 &&
      r.1.message == Some(if c == Likes then "点赞成功" else "收藏成功")
  {
    if fault.Some? then (db, Refuse(500, InternalError(fault.value)))
    else
      var (after, hit) := Increment(db, Key(id), c);
      if hit then (after, Answer(200, Some(true), Some(if c == Likes then "点赞成功" else "收藏成功"), None))
      else (db, Refuse(404, NotFound))
  }

  /** `getHotTags`: the top 20 tags, five of them at random. */
  function HotTagsAnswer(published: seq<Topics>, choices: seq<nat>): (r: Answer<Payload>)
    ensures r.status == 200 && r.data.Some? && r.data.value.Tags?
    ensures |r.data.value.tags| <= PickCount
    ensures multiset(r.data.value.tags) <= multiset(Take(SortByUsed(Tally(AllTags(published))), TopLimit))
  {
    Accept(200, None, Tags(HotTags(published, TopLimit, PickCount, choices)))
  }

  /** Only the author can change or remove an article: whoever else asks
      gets 403 and the table stays as it was. */
  lemma OnlyOwnerWrites(db: Db, user: Option<ReqUser>, id: string, b: Body, fault: Option<string>)
    requires Key(id).Some? && Key(id).value in db && CurrentUserId(user) != Some(db[Key(id).value].userId)
    ensures Update(db, user, id, b, fault) == (db, Refuse(403, NotYoursToEdit))
    ensures Remove(db, user, id, fault) == (db, Refuse(403, NotYoursToDelete))
  {
  }

  /** A new article can be read back under its id: the page finds it with
      the fields it was created with, and, published by default, counts
      the visit. */
  lemma CreateThenGet(db: Db, user: Option<ReqUser>, b: Body, newId: int, parse: string -> Option<Topics>)
    requires newId !in db
    requires Present(b.title) && Present(b.content) && CurrentUserId(user).Some?
    requires b.status.None?
    ensures var after := Create(db, user, b, newId, None).0;
      var (db2, answer) := GetById(after, IntToString(newId), false, parse);
      && answer.status == 200
      && answer.data.value.article.title == b.title && answer.data.value.article.content == b.content
      && answer.data.value.article.userId == CurrentUserId(user).value
      && db2[newId].views == 1
  {
    ParseIntOfIntToString(newId);
  }

  /** An edit the author saves with an array of tags and a status is what
      the article page then shows: the tags and the status come back as
      sent, the texts as sent (empty when left out), and the counters are
      untouched. Without a status the edit is refused and the article
      stays as it was. */
  lemma UpdateThenGet(db: Db, user: Option<ReqUser>, id: string, b: Body, tags: seq<string>,
                      parse: string -> Option<Topics>)
    requires Key(id).Some? && Key(id).value in db && Owns(user, db[Key(id).value])
    requires b.topics == Some(TagArray(tags))
    ensures b.status.None? ==> Update(db, user, id, b, None) == (db, Refuse(500, InternalError(UndefinedBind)))
    ensures b.status.Some? ==>
      var after := Update(db, user, id, b, None).0;
      var answer := GetById(after, id, false, parse).1;
      var old_ := db[Key(id).value];
      && answer.status == 200
      && answer.data.value.article.topics == TagArray(tags)
      && answer.data.value.article.title == Some(Or(b.title, ""))
      && answer.data.value.article.status == b.status
      && answer.data.value.article.likes == old_.likes
      && answer.data.value.article.views == old_.views
  {
  }

  /** A like is counted once on the row and nowhere else. */
  lemma LikeThenGet(db: Db, id: string, parse: string -> Option<Topics>)
    requires Key(id).Some? && Key(id).value in db
    ensures var after := Bump(db, id, Likes, None).0;
      && after.Keys == db.Keys
      && GetById(after, id, false, parse).1.data.value.article.likes == db[Key(id).value].likes + 1
      && (forall k :: k in db && k != Key(id).value ==> after[k] == db[k])
  {
  }
}

=== FILE: article_detail.dfy ===
/** The article page: it loads one article, shows its cover when it has
    one, and counts a like or a collect locally once the server has taken
    it. */
module ArticleDetail {
  import opened Wrappers
  import opened Records
  import opened Http
  import ArticleService
  import Images

  const LoadFailed: string := "文章加载失败"

  /** The page's state: the article (None while there is none), the
      loading flag and the error text ("" when there is none). */
  datatype Page = Page(article: Option<RawArticle>, loading: bool, error: string)

  const Initial: Page := Page(None, true, "")

  /** A new article id starts a load: only the loading flag is set; the
      article and the error of the previous load stay. */
  function Open(p: Page): (r: Page)
    ensures r.loading && r.article == p.article && r.error == p.error
  {
    p.(loading := true)
  }

  /** The load settles: on success the body's `article` (None when it is
      missing or null) replaces the article; on failure the error message,
      or "文章加载失败" when it is empty, becomes the error. Either way the
      loading flag is cleared. */
  function Load(p: Page, reply: Reply<Option<RawArticle>>): (r: Page)
    ensures !r.loading
    ensures Checked(reply, ArticleService.Fallback(ArticleService.GetById)).Ok? ==>
      r.article == reply.body.value.payload && r.error == p.error
    ensures Checked(reply, ArticleService.Fallback(ArticleService.GetById)).Err? ==>
      r.article == p.article && r.error != "" &&
      (Checked(reply, ArticleService.Fallback(ArticleService.GetById)).message != "" ==>
        r.error == Checked(reply, ArticleService.Fallback(ArticleService.GetById)).message) &&
      (Checked(reply, ArticleService.Fallback(ArticleService.GetById)).message == "" ==> r.error == LoadFailed)
  {
    match Checked(reply, ArticleService.Fallback(ArticleService.GetById))
    case Ok(b) => p.(article := b.payload, loading := false)
    case Err(m) => p.(error := if m != "" then m else LoadFailed, loading := false)
  }

  /** What the page shows. The cover block is there exactly when the
      article's cover is truthy, and its picture is the detail page's
      cover address. */
  datatype View =
    | Loading
    | Failed(message: string)
    | Missing
    | Shown(article: RawArticle, cover: Option<string>)

  function Render(p: Page): (r: View)
    ensures p.loading <==> r == Loading
    ensures r.Failed? <==> !p.loading && p.error != ""
    ensures r.Failed? ==> r.message == p.error
    ensures r == Missing <==> !p.loading && p.error == "" && p.article.None?
    ensures r.Shown? ==> p.article == Some(r.article)
    ensures r.Shown? ==> (r.cover.Some? <==> Present(r.article.articleCover))
    ensures r.Shown? && r.cover.Some? ==> r.cover.value == Images.GetCoverUrl(r.article.articleCover)
  {
    if p.loading then Loading
    else if p.error != "" then Failed(p.error)
    else match p.article
      case None => Missing
      case Some(a) =>
        Shown(a, if Present(a.articleCover) then Some(Images.GetCoverUrl(a.articleCover)) else None)
  }

  /** `n + 1` on an optional count: an undefined count gives NaN, which is
      modelled as staying undefined. A JSON `null` count, for which `null + 1`
      is 1, is not modelled: `None` stands for undefined only. */
  function Bump(n: Option<int>): (r: Option<int>)
    ensures n.Some? <==> r.Some?
    ensures n.Some? ==> r.value == n.value + 1
  {
    match n
    case None => None
    case Some(v) => Some(v + 1)
  }

  /** The like button. The handler keeps the article of the render it was
      clicked on (`seen`); once the like request succeeds, the page shows
      that article with one more like, whatever the page holds by then.
      When the request fails the handler throws before touching the page. */
  function Like(p: Page, seen: RawArticle, reply: Reply<ArticleService.Listing>): (r: Page)
    ensures ArticleService.Call(ArticleService.Like, reply).Ok? ==>
      r == p.(article := Some(seen.(articleLikes := Bump(seen.articleLikes))))
    ensures ArticleService.Call(ArticleService.Like, reply).Err? ==> r == p
  {
    match ArticleService.Call(ArticleService.Like, reply)
    case Err(_) => p
    case Ok(_) => p.(article := Some(seen.(articleLikes := Bump(seen.articleLikes))))
  }

  /** The collect button, the same way for the collect count. */
  function Collect(p: Page, seen: RawArticle, reply: Reply<ArticleService.Listing>): (r: Page)
    ensures ArticleService.Call(ArticleService.Collect, reply).Ok? ==>
      r == p.(article := Some(seen.(articleCollects := Bump(seen.articleCollects))))
    ensures ArticleService.Call(ArticleService.Collect, reply).Err? ==> r == p
  {
    match ArticleService.Call(ArticleService.Collect, reply)
    case Err(_) => p
    case Ok(_) => p.(article := Some(seen.(articleCollects := Bump(seen.articleCollects))))
  }

  /** Clicks that each wait for the page the previous one left: a like and
      a collect touch different counts, so their order does not matter. */
  lemma LikeCollectCommute(p: Page, r1: Reply<ArticleService.Listing>, r2: Reply<ArticleService.Listing>)
    requires p.article.Some?
    ensures var a := p.article.value;
      && Like(p, a, r1).article.Some? && Collect(p, a, r2).article.Some?
      && Collect(Like(p, a, r1), Like(p, a, r1).article.value, r2) ==
         Like(Collect(p, a, r2), Collect(p, a, r2).article.value, r1)
  {
  }

  /** Two clicks made on the same render, the second before the first
      request has returned, both start from that render's article: two
      likes show one more like, not two, and a like followed by a collect
      loses the like. */
  lemma OverlappingClicksLoseOne(p: Page, r1: Reply<ArticleService.Listing>, r2: Reply<ArticleService.Listing>, n: int)
    requires p.article.Some? && p.article.value.articleLikes == Some(n)
    requires ArticleService.Call(ArticleService.Like, r1).Ok? && ArticleService.Call(ArticleService.Like, r2).Ok?
    requires ArticleService.Call(ArticleService.Collect, r2).Ok?
    ensures var a := p.article.value;
      && Like(Like(p, a, r1), a, r2).article.value.articleLikes == Some(n + 1)
      && Collect(Like(p, a, r1), a, r2).article.value.articleLikes == Some(n)
  {
  }

  /** A successful single like raises the shown like count by exactly one and
      leaves the view otherwise as it was. */
  lemma LikeShowsOneMore(p: Page, reply: Reply<ArticleService.Listing>, n: int)
    requires !p.loading && p.error == "" && p.article.Some? && p.article.value.articleLikes == Some(n)
    requires ArticleService.Call(ArticleService.Like, reply).Ok?
    ensures var after := Like(p, p.article.value, reply);
      && Render(after).Shown? && Render(p).Shown?
      && Render(after).article.articleLikes == Some(n + 1)
      && Render(after).cover == Render(p).cover
      && Render(after).article.(articleLikes := Some(n)) == Render(p).article
  {
  }

  /** An error once shown stays shown: later loads, even successful ones,
      never clear it. */
  lemma {:induction false} ErrorSticks(p: Page, replies: seq<Reply<Option<RawArticle>>>)
    requires p.error != ""
    ensures Reloads(p, replies).error != ""
    ensures !Reloads(p, replies).loading ==> Render(Reloads(p, replies)).Failed?
    decreases |replies|
  {
    if |replies| > 0 {
      ErrorSticks(Load(Open(p), replies[0]), replies[1..]);
    }
  }

  /** A sequence of id changes, each followed by its load. */
  function Reloads(p: Page, replies: seq<Reply<Option<RawArticle>>>): (r: Page)
    ensures |replies| > 0 ==> !r.loading
    ensures |replies| == 0 ==> r == p
    decreases |replies|
  {
    if |replies| == 0 then p else Reloads(Load(Open(p), replies[0]), replies[1..])
  }
}

=== FILE: article_model.dfy ===
/** The article data layer of the API over an abstract article table: the
    row updates whose result is `affectedRows > 0`, the defaults of a new
    row, and the hot-tag tally. The SQL text is not modelled; a query that
    only selects is an input to the code that uses its rows. */
module ArticleModel {
  import opened Wrappers
  import opened Strings
  import opened Seqs
  import opened ArticleService

  /** The `articleTopics` column as the driver hands it over: an array (the
      driver decodes the JSON column), a string, or any other value. Tags
      are strings; the empty string is the only falsy one. */
  datatype Topics = TagArray(tags: seq<string>) | Text(text: string) | Other

  /** One row of the article table joined with its author. */
  datatype Row = Row(
    userId: int, title: Option<string>, content: Option<string>, cover: Option<string>,
    category: Option<string>, topics: Topics, status: Option<string>,
    likes: int, collects: int, views: int)

  /** The article table, by `articleId`. */
  type Db = map<int, Row>

  /** `parseInt(articleId)` of a route parameter; NaN matches no row. */
  function Key(id: string): (r: Option<int>)
    ensures r == ParseInt(id)
  {
    ParseInt(id)
  }

  /** The three counters the API raises by one. */
  datatype Counter = Likes | Collects | Views

  function Raise(row: Row, c: Counter): (r: Row)
    ensures c == Likes ==> r == row.(likes := row.likes + 1)
    ensures c == Collects ==> r == row.(collects := row.collects + 1)
    ensures c == Views ==> r == row.(views := row.views + 1)
  {
    match c
    case Likes => row.(likes := row.likes + 1)
    case Collects => row.(collects := row.collects + 1)
    case Views => row.(views := row.views + 1)
  }

  /** `incrementViews`, `likeArticle`, `collectArticle`: one counter of
      the row goes up by one, and the call reports whether a row was
      affected, which is whether the id names a row. */
  function Increment(db: Db, key: Option<int>, c: Counter): (r: (Db, bool))
    ensures r.1 <==> key.Some? && key.value in db
    ensures r.1 ==> r.0 == db[key.value := Raise(db[key.value], c)]
    ensures !r.1 ==> r.0 == db
  {
    if key.Some? && key.value in db then (db[key.value := Raise(db[key.value], c)], true)
    else (db, false)
  }

  /** Raising one counter changes nothing else: the same rows, every other
      row as it was, and in the raised row only that counter. */
  lemma IncrementChangesOneCounter(db: Db, k: int, c: Counter, other: int)
    requires k in db
    ensures var after := Increment(db, Some(k), c).0;
      && after.Keys == db.Keys
      && (other in db && other != k ==> after[other] == db[other])
      && after[k].userId == db[k].userId && after[k].title == db[k].title
      && after[k].content == db[k].content && after[k].status == db[k].status
      && after[k].likes + after[k].collects + after[k].views == db[k].likes + db[k].collects + db[k].views + 1
  {
  }

  /** `deleteArticle`: the row goes, and the call reports whether it was
      there. */
  function Delete(db: Db, key: Option<int>): (r: (Db, bool))
    ensures r.1 <==> key.Some? && key.value in db
    ensures r.1 ==> r.0 == db - {key.value}
    ensures !r.1 ==> r.0 == db
  {
    if key.Some? && key.value in db then (db - {key.value}, true) else (db, false)
  }

  /** The fields `createArticle` takes from the request; None is an
      undefined field. */
  datatype NewArticle = NewArticle(
    title: Option<string>, content: Option<string>, cover: Option<string>,
    category: Option<string>, topics: Option<Topics>, status: Option<string>, userId: int)

  const DefaultStatus: string := "published"

  /** The row `createArticle` inserts: an undefined cover or category
      becomes "", undefined topics the empty array ('[]'), an undefined
      status "published"; the counters start at 0. */
  function NewRow(a: NewArticle): (r: Row)
    ensures r.userId == a.userId && r.title == a.title && r.content == a.content
    ensures r.cover == Some(a.cover.GetOr("")) && r.category == Some(a.category.GetOr(""))
    ensures a.topics.None? ==> r.topics == TagArray([])
    ensures a.topics.Some? ==> r.topics == a.topics.value
    ensures r.status == Some(a.status.GetOr(DefaultStatus))
    ensures r.likes == 0 && r.collects == 0 && r.views == 0
  {
    Row(a.userId, a.title, a.content, Some(a.cover.GetOr("")), Some(a.category.GetOr("")),
        a.topics.GetOr(TagArray([])), Some(a.status.GetOr(DefaultStatus)), 0, 0, 0)
  }

  /** `createArticle`: the row is inserted under the id the table assigns
      (`newId`, unused so far) and read back. */
  function Create(db: Db, a: NewArticle, newId: int): (r: (Db, Row))
    requires newId !in db
    ensures r.0 == db[newId := NewRow(a)] && r.1 == NewRow(a)
    ensures newId in r.0 && r.0[newId] == r.1
    ensures forall k :: k in db ==> k in r.0 && r.0[k] == db[k]
  {
    (db[newId := NewRow(a)], NewRow(a))
  }

  /** The fields `updateArticle` writes; the controller supplies them all. */
  datatype Edit = Edit(
    title: string, content: string, cover: string, category: string,
    topics: Topics, status: Option<string>)

  /** `updateArticle`: the edited fields replace those of the row, when
      there is one; the author and the counters stay. The row is then read
      back. */
  function Update(db: Db, key: Option<int>, e: Edit): (r: (Db, Option<Row>))
    ensures key.Some? && key.value in db ==>
      var old_ := db[key.value];
      && r.1.Some?
      && r.0 == db[key.value := r.1.value]
      && r.1.value.title == Some(e.title) && r.1.value.content == Some(e.content)
      && r.1.value.cover == Some(e.cover) && r.1.value.category == Some(e.category)
      && r.1.value.topics == e.topics && r.1.value.status == e.status
      && r.1.value.userId == old_.userId && r.1.value.likes == old_.likes
      && r.1.value.collects == old_.collects && r.1.value.views == old_.views
    ensures !(key.Some? && key.value in db) ==> r == (db, None)
  {
    if key.Some? && key.value in db then
      var row := db[key.value].(title := Some(e.title), content := Some(e.content), cover := Some(e.cover),
                                category := Some(e.category), topics := e.topics, status := e.status);
      (db[key.value := row], Some(row))
    else (db, None)
  }

  // -----------------------------------------------------------------------
  // Hot tags
  // -----------------------------------------------------------------------

  const TopLimit: nat := 20
  const PickCount: nat := 5

  /** The truthy tags of one row: its array's non-empty strings, or none
      when the column is not an array. */
  function RowTags(t: Topics): (r: seq<string>)
    ensures forall i :: 0 <= i < |r| ==> r[i] != ""
    ensures !t.TagArray? ==> r == []
  {
    if t.TagArray? then Filter(t.tags, (s: string) => s != "") else []
  }

  /** Every truthy tag occurrence of the published rows, in row order. */
  function AllTags(rows: seq<Topics>): (r: seq<string>)
    ensures forall i :: 0 <= i < |r| ==> r[i] != ""
  {
    if |rows| == 0 then [] else RowTags(rows[0]) + AllTags(rows[1..])
  }

  /** How often `t` occurs in the arrays of the rows, counted row by
      row: the reference the tally is checked against. */
  function Occurrences(rows: seq<Topics>, t: string): nat {
    if |rows| == 0 then 0
    else (if rows[0].TagArray? then multiset(rows[0].tags)[t] else 0) + Occurrences(rows[1..], t)
  }

  /** The count a tally holds for `t`, 0 when it has no entry. */
  function Lookup(c: seq<HotTag>, t: string): nat {
    if |c| == 0 then 0 else if c[0].tag == t then c[0].used else Lookup(c[1..], t)
  }

  predicate HasEntry(c: seq<HotTag>, t: string) {
    |c| > 0 && (c[0].tag == t || HasEntry(c[1..], t))
  }

  /** One entry per tag. */
  predicate DistinctTags(c: seq<HotTag>) {
    |c| == 0 || (!HasEntry(c[1..], c[0].tag) && DistinctTags(c[1..]))
  }

  /** `counter[t] = (counter[t] || 0) + 1`: the entry of `t` goes up by
      one, or a new entry with count 1 is added at the end. */
  function AddTag(c: seq<HotTag>, t: string): (r: seq<HotTag>)
    ensures |r| == |c| || |r| == |c| + 1
  {
    if |c| == 0 then [HotTag(t, 1)]
    else if c[0].tag == t then [c[0].(used := c[0].used + 1)] + c[1..]
    else [c[0]] + AddTag(c[1..], t)
  }

  lemma {:induction false} AddTagLookup(c: seq<HotTag>, t: string, u: string)
    ensures Lookup(AddTag(c, t), u) == Lookup(c, u) + (if u == t then 1 else 0)
  {
    if |c| > 0 && c[0].tag != t {
      AddTagLookup(c[1..], t, u);
      assert AddTag(c, t)[1..] == AddTag(c[1..], t);
    } else if |c| > 0 {
      assert AddTag(c, t)[1..] == c[1..];
    }
  }

  lemma {:induction false} AddTagEntries(c: seq<HotTag>, t: string, u: string)
    ensures HasEntry(AddTag(c, t), u) <==> HasEntry(c, u) || u == t
  {
    if |c| > 0 && c[0].tag != t {
      AddTagEntries(c[1..], t, u);
      assert AddTag(c, t)[1..] == AddTag(c[1..], t);
    } else if |c| > 0 {
      assert AddTag(c, t)[1..] == c[1..];
    }
  }

  lemma {:induction false} AddTagDistinct(c: seq<HotTag>, t: string)
    requires DistinctTags(c)
    ensures DistinctTags(AddTag(c, t))
  {
    if |c| > 0 && c[0].tag != t {
      AddTagDistinct(c[1..], t);
      AddTagEntries(c[1..], t, c[0].tag);
      assert AddTag(c, t)[1..] == AddTag(c[1..], t);
    } else if |c| > 0 {
      assert AddTag(c, t)[1..] == c[1..];
    }
  }

  /** The counter object after the `forEach`: entries in the order their
      tags were first seen. */
  function Tally(ts: seq<string>): (r: seq<HotTag>)
    decreases |ts|
  {
    if |ts| == 0 then [] else AddTag(Tally(ts[..|ts| - 1]), ts[|ts| - 1])
  }

  /** The tally counts every tag exactly: its entry holds the number of
      occurrences, and it has an entry exactly for the tags that occur,
      one each. */
  lemma {:induction false} TallyExact(ts: seq<string>, u: string)
    ensures Lookup(Tally(ts), u) == multiset(ts)[u]
    ensures HasEntry(Tally(ts), u) <==> u in ts
    ensures DistinctTags(Tally(ts))
    decreases |ts|
  {
    if |ts| > 0 {
      var init := ts[..|ts| - 1];
      var last := ts[|ts| - 1];
      assert ts == init + [last];
      TallyExact(init, u);
      AddTagLookup(Tally(init), last, u);
      AddTagEntries(Tally(init), last, u);
      AddTagDistinct(Tally(init), last);
    }
  }

  lemma {:induction false} AllTagsCount(rows: seq<Topics>, t: string)
    requires t != ""
    ensures multiset(AllTags(rows))[t] == Occurrences(rows, t)
  {
    if |rows| > 0 {
      AllTagsCount(rows[1..], t);
      if rows[0].TagArray? {
        FilterCount(rows[0].tags, (s: string) => s != "", t);
      }
    }
  }

  /** The hot-tag counter counts each non-empty tag once per occurrence in
      an array-valued row, ignores rows whose topics are not an array, and
      never counts the empty tag. */
  lemma HotTagCounts(rows: seq<Topics>, t: string)
    ensures t != "" ==> Lookup(Tally(AllTags(rows)), t) == Occurrences(rows, t)
    ensures t == "" ==> !HasEntry(Tally(AllTags(rows)), t)
    ensures DistinctTags(Tally(AllTags(rows)))
  {
    TallyExact(AllTags(rows), t);
    if t != "" {
      AllTagsCount(rows, t);
    }
  }

  /** Sorted by count, most used first. */
  predicate NonIncreasing(s: seq<HotTag>) {
    forall i, j :: 0 <= i < j < |s| ==> s[i].used >= s[j].used
  }

  /** Stable insertion: `x` goes after every entry used at least as
      often. */
  function Insert(x: HotTag, s: seq<HotTag>): (r: seq<HotTag>)
    ensures multiset(r) == multiset(s) + multiset{x}
    ensures |r| == |s| + 1
  {
    if |s| == 0 then [x]
    else if s[0].used >= x.used then
      assert s == [s[0]] + s[1..];
      [s[0]] + Insert(x, s[1..])
    else [x] + s
  }

  lemma {:induction false} InsertSorted(x: HotTag, s: seq<HotTag>)
    requires NonIncreasing(s)
    ensures NonIncreasing(Insert(x, s))
    ensures |s| > 0 && s[0].used >= x.used ==> Insert(x, s)[0] == s[0]
  {
    if |s| > 0 && s[0].used >= x.used {
      InsertSorted(x, s[1..]);
      var r := Insert(x, s);
      var t := Insert(x, s[1..]);
      assert r == [s[0]] + t;
      forall k | 0 <= k < |t|
        ensures s[0].used >= t[k].used
      {
        assert t[k] in multiset(t);
        assert t[k] in multiset(s[1..]) + multiset{x};
        if t[k] != x {
          assert t[k] in s[1..];
        }
      }
    }
  }

  /** `.sort((a, b) => b.used - a.used)`, a stable sort by count, most
      used first. */
  function SortByUsed(s: seq<HotTag>): (r: seq<HotTag>)
    ensures multiset(r) == multiset(s)
    ensures |r| == |s|
  {
    if |s| == 0 then []
    else
      assert s == s[..|s| - 1] + [s[|s| - 1]];
      Insert(s[|s| - 1], SortByUsed(s[..|s| - 1]))
  }

  lemma {:induction false} SortSorted(s: seq<HotTag>)
    ensures NonIncreasing(SortByUsed(s))
  {
    if |s| > 0 {
      SortSorted(s[..|s| - 1]);
      InsertSorted(s[|s| - 1], SortByUsed(s[..|s| - 1]));
    }
  }

  /** `Math.random()` in the shuffle, as the choices it made: each choice
      picks, among the entries left, the one to put next. With one choice
      per entry, every order can be chosen. */
  function Shuffle<T>(s: seq<T>, choices: seq<nat>): (r: seq<T>)
    ensures multiset(r) == multiset(s)
    decreases |s|
  {
    if |s| == 0 then []
    else
      var j := if |choices| > 0 then choices[0] % |s| else 0;
      var rest := if |choices| > 0 then choices[1..] else [];
      assert s == s[..j] + [s[j]] + s[j + 1..];
      [s[j]] + Shuffle(s[..j] + s[j + 1..], rest)
  }

  /** `getHotTags(limit, pick)`: the top `limit` tags by count, shuffled,
      and the first `pick` of them. */
  function HotTags(rows: seq<Topics>, limit: nat, pick: nat, choices: seq<nat>): (r: seq<HotTag>)
    ensures |r| <= pick && |r| <= limit
    ensures multiset(r) <= multiset(Take(SortByUsed(Tally(AllTags(rows))), limit))
  {
    var top := Take(SortByUsed(Tally(AllTags(rows))), limit);
    var picked := Shuffle(top, choices);
    assert picked == Take(picked, pick) + picked[Seqs.Min(pick, |picked|)..];
    Take(picked, pick)
  }

  /** A prefix of a list sorted by count is sorted, is drawn from the
      list, and is used at least as often as anything cut off. */
  lemma TakeOfSorted(s: seq<HotTag>, n: nat, t: HotTag, u: HotTag)
    requires NonIncreasing(s)
    ensures NonIncreasing(Take(s, n))
    ensures multiset(Take(s, n)) <= multiset(s)
    ensures t in Take(s, n) && u in s && u !in Take(s, n) ==> t.used >= u.used
  {
    var top := Take(s, n);
    assert s == top + s[|top|..];
    if t in top && u in s && u !in top {
      var i :| 0 <= i < |top| && top[i] == t;
      var j :| 0 <= j < |s| && s[j] == u;
      assert j >= |top|;
      assert s[i] == t;
    }
  }

  /** The top list is sorted by count, holds at most `limit` entries, all
      of them tally entries, and leaves out no tag used more often than one
      it holds. */
  lemma TopTags(rows: seq<Topics>, limit: nat, t: HotTag, u: HotTag)
    ensures var sorted := SortByUsed(Tally(AllTags(rows)));
      var top := Take(sorted, limit);
      && |top| <= limit
      && NonIncreasing(top)
      && multiset(top) <= multiset(Tally(AllTags(rows)))
      && (t in top && u in sorted && u !in top ==> t.used >= u.used)
  {
    var tally := Tally(AllTags(rows));
    SortSorted(tally);
    TakeOfSorted(SortByUsed(tally), limit, t, u);
  }
}

=== FILE: article_service.dfy ===
/** The client's article service: one request per API endpoint, each
    checking the status and the `success` flag before returning, and the
    category lookup that filters the list again on the client. */
module ArticleService {
  import opened Wrappers
  import opened Strings
  import opened Records
  import opened Http
  import opened Seqs

  /** A tag and the number of published articles that use it. */
  datatype HotTag = HotTag(tag: string, used: nat)

  /** The fields of an article endpoint's body besides `success` and
      `message`: `list` (None when it is missing or not an array), the
      server's `hasMore`, the `data` array of the hot endpoint, and the
      tag list of the hot-tag endpoint. */
  datatype Listing = Listing(
    list: Option<seq<RawArticle>>, hasMore: Option<bool>,
    data: Option<seq<RawArticle>>, tags: Option<seq<HotTag>>)

  /** The endpoints, each with the message it throws when the body says
      `success: false` without one. */
  datatype Method = GetAll | GetById | Create | Like | Collect | Search | Featured | HotTags | Hot

  function Fallback(m: Method): string {
    match m
    case GetAll => "获取文章失败"
    case GetById => "获取文章失败"
    case Create => "创建文章失败"
    case Like => "点赞失败"
    case Collect => "收藏失败"
    case Search => "搜索文章失败"
    case Featured => "获取精选文章失败"
    case HotTags => "获取热门标签失败"
    case Hot => "获取热门文章失败"
  }

  /** A service call: the parsed body, or the error it throws. */
  function Call(m: Method, reply: Reply<Listing>): (r: Result<Body<Listing>>)
    ensures reply.Response? && !IsOk(reply.status) ==> r == Err(HttpError(reply.status))
    ensures reply.Response? && IsOk(reply.status) && reply.body.Some? && !reply.body.value.success
      ==> r == Err(MessageOr(reply.body.value, Fallback(m)))
    ensures r.Ok? ==> reply.Response? && IsOk(reply.status) && reply.body == Some(r.value) && r.value.success
  {
    Checked(reply, Fallback(m))
  }

  /** `getFeaturedArticles()` returns the body's `list`. */
  function GetFeatured(reply: Reply<Listing>): (r: Result<Option<seq<RawArticle>>>)
    ensures r.Ok? <==> Call(Featured, reply).Ok?
    ensures r.Ok? ==> r.value == Call(Featured, reply).value.payload.list
  {
    match Call(Featured, reply)
    case Err(m) => Err(m)
    case Ok(b) => Ok(b.payload.list)
  }

  /** `getHotArticles()` returns the body's `data`. */
  function GetHot(reply: Reply<Listing>): (r: Result<Option<seq<RawArticle>>>)
    ensures r.Ok? <==> Call(Hot, reply).Ok?
    ensures r.Ok? ==> r.value == Call(Hot, reply).value.payload.data
  {
    match Call(Hot, reply)
    case Err(m) => Err(m)
    case Ok(b) => Ok(b.payload.data)
  }

  /** The client-side category test. */
  function InCategory(category: string): RawArticle -> bool {
    (a: RawArticle) => a.articleCategory == Some(category)
  }

  /** `getArticlesByCategory(category, page, limit)`: a non-ok status
      throws with the request address in the message, and the body's list
      is filtered to the articles of `category`; every other field of the
      body passes through. A missing list makes the filter throw. */
  function GetByCategory(reply: Reply<Listing>, category: string, url: string): (r: Result<Body<Listing>>)
    ensures reply.Response? && !IsOk(reply.status) ==> r == Err(HttpError(reply.status) + "，请求地址: " + url)
    ensures r.Ok? ==> Checked(reply, "获取分类文章失败").Ok?
    ensures r.Ok? ==>
      var b := Checked(reply, "获取分类文章失败").value;
      && b.payload.list.Some?
      && r.value == b.(payload := b.payload.(list := Some(Filter(b.payload.list.value, InCategory(category)))))
    ensures Checked(reply, "获取分类文章失败").Ok? && Checked(reply, "获取分类文章失败").value.payload.list.Some? ==> r.Ok?
  {
    if reply.Response? && !IsOk(reply.status) then Err(HttpError(reply.status) + "，请求地址: " + url)
    else match Checked(reply, "获取分类文章失败")
      case Err(m) => Err(m)
      case Ok(b) =>
        match b.payload.list
        case None => Err(MissingValue)
        case Some(l) => Ok(b.(payload := b.payload.(list := Some(Filter(l, InCategory(category))))))
  }

  /** The category lookup keeps exactly the articles of that category,
      every copy of each, in the server's order. */
  lemma CategoryFilterExact(reply: Reply<Listing>, category: string, url: string, a: RawArticle)
    requires GetByCategory(reply, category, url).Ok?
    ensures var kept := GetByCategory(reply, category, url).value.payload.list.value;
      var all := Checked(reply, "获取分类文章失败").value.payload.list.value;
      && (forall i :: 0 <= i < |kept| ==> kept[i].articleCategory == Some(category))
      && (a in kept <==> a in all && a.articleCategory == Some(category))
      && (a.articleCategory == Some(category) ==> multiset(kept)[a] == multiset(all)[a])
  {
    var all := Checked(reply, "获取分类文章失败").value.payload.list.value;
    FilterMembership(all, InCategory(category), a);
    FilterCount(all, InCategory(category), a);
  }
}

=== FILE: authenticate.dfy ===
/** The API's authentication middleware: the bearer token is taken from the
    Authorization header and checked; `authenticate` answers 401 when that
    fails and `optionalAuthenticate` carries on without a user. */
module Authenticate {
  import opened Wrappers
  import opened Strings
  import opened Server
  import opened Records

  const NoToken: string := "访问被拒绝，未提供令牌"
  const BadToken: string := "令牌无效"
  const Bearer: string := "Bearer "

  /** The claims of a verified token; `issuedAt` and `expires` stand for
      the fields the middleware does not copy. */
  datatype Claims = Claims(
    userid: Option<int>, email: Option<string>, username: Option<string>,
    issuedAt: Option<int>, expires: Option<int>)

  /** The middleware's verdict: an answer sent in place of the handler, or
      `next()` with the request's user. */
  datatype Verdict = Deny(answer: Answer<()>) | Next(user: Option<ReqUser>)

  /** `req.header('Authorization')?.replace('Bearer ', '')`: the first
      "Bearer " anywhere in the header is removed. */
  function TokenOf(header: Option<string>): (r: Option<string>)
    ensures header.None? <==> r.None?
    ensures header.Some? ==> r.value == ReplaceFirst(header.value, Bearer, "")
  {
    match header
    case None => None
    case Some(h) => Some(ReplaceFirst(h, Bearer, ""))
  }

  /** The user a verified token stands for. */
  function UserOf(c: Claims): (u: ReqUser)
    ensures u.userid == c.userid && u.email == c.email && u.username == c.username
  {
    ReqUser(c.userid, c.email, c.username)
  }

  /** `authenticate`. `verify` is `jwt.verify` with the server's secret:
      the claims of a valid token, or None where it throws. */
  function Authenticate(header: Option<string>, verify: string -> Option<Claims>): (r: Verdict)
    ensures TokenOf(header).None? || TokenOf(header) == Some("") ==> r == Deny(Refuse(401, NoToken))
    ensures Present(TokenOf(header)) && verify(TokenOf(header).value).None? ==> r == Deny(Refuse(401, BadToken))
    ensures r.Next? <==> Present(TokenOf(header)) && verify(TokenOf(header).value).Some?
    ensures r.Next? ==> r.user == Some(UserOf(verify(TokenOf(header).value).value))
  {
    match TokenOf(header)
    case None => Deny(Refuse(401, NoToken))
    case Some(t) =>
      if t == "" then Deny(Refuse(401, NoToken))
      else match verify(t)
        case None => Deny(Refuse(401, BadToken))
        case Some(c) => Next(Some(UserOf(c)))
  }

  /** `optionalAuthenticate`: it always passes the request on; the user is
      set only for a present token that verifies. */
  function OptionalAuthenticate(header: Option<string>, verify: string -> Option<Claims>): (r: Verdict)
    ensures r.Next?
    ensures r.user.Some? <==> Present(TokenOf(header)) && verify(TokenOf(header).value).Some?
    ensures r.user.Some? ==> r.user.value == UserOf(verify(TokenOf(header).value).value)
  {
    match TokenOf(header)
    case None => Next(None)
    case Some(t) =>
      if t == "" then Next(None)
      else match verify(t)
        case None => Next(None)
        case Some(c) => Next(Some(UserOf(c)))
  }

  /** The two middlewares agree on who the user is: where `authenticate`
      lets a request through, the optional one sets the same user, and where
      it refuses, the optional one sets none. */
  lemma MiddlewaresAgree(header: Option<string>, verify: string -> Option<Claims>)
    ensures Authenticate(header, verify).Next? ==>
      OptionalAuthenticate(header, verify) == Authenticate(header, verify)
    ensures Authenticate(header, verify).Deny? ==> OptionalAuthenticate(header, verify) == Next(None)
  {
  }

  /** A header written the usual way, "Bearer <token>", yields the token,
      whatever it contains. */
  lemma BearerHeader(t: string)
    ensures TokenOf(Some(Bearer + t)) == Some(t)
  {
    var h := Bearer + t;
    assert Bearer <= h;
    assert FindSub(h, Bearer) == Some(0);
    assert h[|Bearer|..] == t;
    assert ReplaceFirst(h, Bearer, "") == h[..0] + "" + h[|Bearer|..];
    assert h[..0] + "" + h[|Bearer|..] == t;
  }

  /** A header without "Bearer " is taken as the token itself. */
  lemma BareHeader(h: string)
    requires forall k :: 0 <= k <= |h| ==> !(Bearer <= h[k..])
    ensures TokenOf(Some(h)) == Some(h)
  {
  }
}

=== FILE: avatar_hook.dfy ===
/** `useMyblogAvatar`: the signed-in user and their avatar, resolved from
    the API first and the cached `blogUser` second. */
module AvatarHook {
  import opened Wrappers
  import opened Records
  import opened Http
  import opened Storage
  import UserService

  const DefaultAvatar: string := "/default-avatar.png"

  datatype State = State(avatar: string, user: Option<UserRecord>, loading: bool, error: Option<string>)

  /** The state on mount. */
  const Initial: State := State(DefaultAvatar, None, true, None)

  /** A user the hook accepts: one with a truthy `username`. */
  predicate Usable(u: UserRecord) {
    Present(u.username)
  }

  /** The avatar shown for a user: theirs, or the default when absent. */
  function AvatarOf(u: UserRecord): (a: string)
    ensures Present(u.avatar) ==> a == u.avatar.value
    ensures !Present(u.avatar) ==> a == DefaultAvatar
  {
    Or(u.avatar, DefaultAvatar)
  }

  /** The cached user, when it is stored, parses and is usable. */
  function CachedUser(st: Store): (r: Option<UserRecord>)
    ensures r.Some? <==> st.blogUser.Some? && st.blogUser.value.Parsed? && Usable(st.blogUser.value.value)
    ensures r.Some? ==> r.value == st.blogUser.value.value
  {
    match st.blogUser
    case Some(Parsed(u)) => if Usable(u) then Some(u) else None
    case _ => None
  }

  /** Shows a user and their avatar. */
  function Show(s: State, u: UserRecord): State {
    s.(user := Some(u), avatar := AvatarOf(u))
  }

  /** `fetchCurrentUser()`: with a token the API answer wins when it is
      usable, and is also cached; otherwise a usable cached user is shown
      silently, and failing that the API error is reported. Without a
      token only the cache is consulted. Either way `loading` ends false;
      when no user is found the previous one stays. */
  function FetchCurrentUser(s: State, st: Store, reply: Reply<Option<UserRecord>>): (r: (State, Store))
    ensures !r.0.loading
    // the token case
    ensures HasToken(st) ==>
      var (st1, api) := UserService.GetCurrentUser(st, reply);
      if api.Ok? && Usable(api.value) then
        r.0 == Show(s, api.value).(loading := false, error := None)
        && r.1 == st1.(blogUser := Some(Parsed(api.value)))
      else if CachedUser(st1).Some? then
        r.0 == Show(s, CachedUser(st1).value).(loading := false, error := None) && r.1 == st1
      else
        r.0 == s.(loading := false, error := Some(if api.Err? then api.message else "用户数据不完整"))
        && r.1 == st1
    // the no-token case
    ensures !HasToken(st) ==> r.1 == st && r.0.error.None?
    ensures !HasToken(st) && CachedUser(st).Some? ==> r.0 == Show(s, CachedUser(st).value).(loading := false, error := None)
    ensures !HasToken(st) && CachedUser(st).None? ==> r.0 == s.(loading := false, error := None)
  {
    var s0 := s.(loading := true, error := None);
    if HasToken(st) then
      var (st1, api) := UserService.GetCurrentUser(st, reply);
      if api.Ok? && Usable(api.value) then
        (Show(s0, api.value).(loading := false), st1.(blogUser := Some(Parsed(api.value))))
      else
        var apiError := if api.Err? then api.message else "用户数据不完整";
        match CachedUser(st1)
        case Some(u) => (Show(s0, u).(loading := false), st1)
        case None => (s0.(loading := false, error := Some(apiError)), st1)
    else
      match CachedUser(st)
      case Some(u) => (Show(s0, u).(loading := false), st)
      case None => (s0.(loading := false), st)
  }

  /** A 401 removes the cached user before the fallback looks for it, so an
      expired session always ends in the API error and no user is taken
      from the cache. */
  lemma ExpiredSessionHasNoFallback(s: State, st: Store, text: string, body: Option<Body<Option<UserRecord>>>)
    requires HasToken(st)
    ensures var r := FetchCurrentUser(s, st, Response(401, text, body));
      r.0.error.Some? && r.0.user == s.user && r.1.token.None? && r.1.blogUser.None?
  {
  }

  /** What `updateAvatar(newAvatar)` did: the new state and storage, and
      the value the call resolved to, or the error it rejected with. */
  datatype Update = Update(state: State, store: Store, returned: Result<bool>)

  /** `updateAvatar(newAvatar)`: rejects when no user is loaded; otherwise
      sends the update, and only when that succeeds shows the new avatar,
      puts it on the user and caches that user. */
  function UpdateAvatar<P>(s: State, st: Store, avatar: string, reply: Reply<P>): (r: Update)
    ensures s.user.None? ==> r == Update(s, st, Err(UserService.NotSignedIn))
    ensures s.user.Some? && UserService.SendUpdate(st, reply).Ok? ==>
      var u := s.user.value.(avatar := Some(avatar));
      && r.returned == Ok(true)
      && r.state == s.(avatar := avatar, user := Some(u), error := None)
      && r.store == st.(blogUser := Some(Parsed(u)))
    ensures s.user.Some? && UserService.SendUpdate(st, reply).Err? ==>
      r == Update(s.(error := Some(UserService.SendUpdate(st, reply).message)), st, Ok(false))
  {
    match s.user
    case None => Update(s, st, Err(UserService.NotSignedIn))
    case Some(user) =>
      match UserService.SendUpdate(st, reply)
      case Err(m) => Update(s.(error := Some(m)), st, Ok(false))
      case Ok(_) =>
        var u := user.(avatar := Some(avatar));
        Update(s.(avatar := avatar, user := Some(u), error := None), st.(blogUser := Some(Parsed(u))), Ok(true))
  }

  /** After a successful update the shown avatar, the user and the cache
      all agree on the new avatar. */
  lemma UpdateAvatarAgrees<P>(s: State, st: Store, avatar: string, reply: Reply<P>)
    requires UpdateAvatar(s, st, avatar, reply).returned == Ok(true)
    ensures var r := UpdateAvatar(s, st, avatar, reply);
      && r.state.avatar == avatar
      && r.state.user.Some? && r.state.user.value.avatar == Some(avatar)
      && r.store.blogUser == Some(Parsed(r.state.user.value))
  {
  }

  /** `clearUser()`: signs out locally. */
  function ClearUser(s: State, st: Store): (r: (State, Store))
    ensures r.0.user.None? && r.0.avatar == DefaultAvatar
    ensures r.0.loading == s.loading && r.0.error == s.error
    ensures r.1 == UserService.DropSession(st)
  {
    (s.(user := None, avatar := DefaultAvatar), UserService.DropSession(st))
  }
}

=== FILE: columns.dfy ===
/** The columns page: a row of category tabs headed by "全部", and the
    articles of the active category as cards. */
module Columns {
  import opened Wrappers
  import opened Seqs
  import opened Dates
  import opened Records
  import opened Http
  import opened ArticleService

  const All: string := "全部"
  const Limit: nat := 100
  const UnknownAuthor: string := "未知作者"

  /** The tabs: "全部" and then the site's categories, which are data
      outside this model and come as a parameter. */
  function AllCategories(categories: seq<string>): (r: seq<string>)
    ensures |r| == |categories| + 1 && r[0] == All && r[1..] == categories
  {
    [All] + categories
  }

  /** The request a category load makes. */
  datatype Request =
    | AllArticles(limit: nat, offset: nat)
    | ByCategory(category: string, page: nat, limit: nat)

  /** `loadArticles(category)`'s choice of service call. */
  function RequestFor(category: string): (r: Request)
    ensures category == All <==> r.AllArticles?
    ensures r.AllArticles? ==> r == AllArticles(Limit, 0)
    ensures r.ByCategory? ==> r == ByCategory(category, 0, Limit)
  {
    if category == All then AllArticles(Limit, 0) else ByCategory(category, 0, Limit)
  }

  /** The page state. */
  datatype State = State(active: string, articles: seq<Card>, loading: bool)

  /** The first tab is active before anything loads. */
  function Initial(categories: seq<string>): (r: State)
    ensures r.active == AllCategories(categories)[0] && r.articles == [] && !r.loading
  {
    State(All, [], false)
  }

  /** The card of a column article: long field names first, then the
      short ones; the counters are not copied. */
  function ColumnCard(a: RawArticle, nowText: string): (r: Card)
    ensures r.articleId == NumOrElse(a.articleId, a.id)
    ensures r.articleTitle == OrElse(a.articleTitle, a.title)
    ensures r.articleContent == Or(OrElse(a.articleContent, a.summary), "")
    ensures r.articleCover == OrElse(a.articleCover, a.cover)
    ensures r.userName == Or(OrElse(a.userName, a.author), UnknownAuthor)
    ensures r.articleCreatedAt == SafeFormatDate(StampOr(a.articleCreatedAt, a.createdAt), nowText)
    ensures r.articleTopics == ListOr(ListOrElse(a.articleTopics, a.topics))
    ensures r.articleLikes.None? && r.articleCollects.None? && r.articleViews.None?
  {
    Card(NumOrElse(a.articleId, a.id), OrElse(a.articleTitle, a.title),
         Or(OrElse(a.articleContent, a.summary), ""), OrElse(a.articleCover, a.cover),
         Or(OrElse(a.userName, a.author), UnknownAuthor),
         SafeFormatDate(StampOr(a.articleCreatedAt, a.createdAt), nowText),
         ListOr(ListOrElse(a.articleTopics, a.topics)), None, None, None)
  }

  /** What the chosen service call returns for `category`: the whole body
      of `getAllArticles`, or the filtered body of `getArticlesByCategory`. */
  function Response(category: string, reply: Reply<Listing>, url: string): (r: Result<Body<Listing>>)
    ensures category == All ==> r == Call(GetAll, reply)
    ensures category != All ==> r == GetByCategory(reply, category, url)
  {
    if category == All then Call(GetAll, reply) else GetByCategory(reply, category, url)
  }

  /** `loadArticles(category)` once its call has answered: the body's list
      (none when it is missing) mapped to cards, or no articles at all after
      any failure; loading ends either way. */
  function Load(s: State, category: string, reply: Reply<Listing>, url: string, nowText: string): (r: State)
    ensures !r.loading && r.active == s.active
    ensures Response(category, reply, url).Err? ==> r.articles == []
    ensures Response(category, reply, url).Ok? ==>
      var l := ListOr(Response(category, reply, url).value.payload.list);
      |r.articles| == |l| && forall i :: 0 <= i < |l| ==> r.articles[i] == ColumnCard(l[i], nowText)
  {
    match Response(category, reply, url)
    case Err(_) => s.(articles := [], loading := false)
    case Ok(body) => s.(articles := Map(ListOr(body.payload.list), (a: RawArticle) => ColumnCard(a, nowText)), loading := false)
  }

  /** A tab click: the effect on `activeCategory` starts a load only when
      the category changed. */
  function Select(s: State, category: string): (r: (State, Option<Request>))
    ensures category == s.active ==> r == (s, None)
    ensures category != s.active ==> r.0 == s.(active := category, loading := true) && r.1 == Some(RequestFor(category))
  {
    if category == s.active then (s, None) else (s.(active := category, loading := true), Some(RequestFor(category)))
  }

  /** A category tab shows only that category's articles: every card of a
      successful load comes from an article of the category. */
  lemma CategoryCardsMatch(s: State, category: string, reply: Reply<Listing>, url: string, nowText: string, i: nat)
    requires category != All && Response(category, reply, url).Ok?
    requires i < |Load(s, category, reply, url, nowText).articles|
    ensures var l := Response(category, reply, url).value.payload.list.value;
      i < |l| && l[i].articleCategory == Some(category)
      && Load(s, category, reply, url, nowText).articles[i] == ColumnCard(l[i], nowText)
  {
  }
}

=== FILE: comment_controller.dfy ===
/** The API's comment handlers over an abstract comment table: the list,
    the create path with its blank-content check and author attribution,
    and the like counter. A fault of the database is the message it throws. */
module CommentController {
  import opened Wrappers
  import opened Strings
  import opened Records
  import opened Server

  const BlankComment: string := "评论内容不能为空"
  const NoSuchComment: string := "评论不存在"

  /** A row of the comment table. */
  datatype CommentRow = CommentRow(articleId: string, userId: Option<int>, content: string, likes: int)

  /** The comment table, by `commentId`. */
  type Table = map<int, CommentRow>

  datatype Payload = Comments(list: seq<CommentRow>) | Comment(comment: CommentRow)

  /** `getArticleComments`: the query's rows, or a 500 with its error. */
  function List(rows: Result<seq<CommentRow>>): (r: Answer<Payload>)
    ensures rows.Ok? ==> r == Accept(200, None, Comments(rows.value))
    ensures rows.Err? ==> r == Refuse(500, "获取评论失败: " + rows.message)
  {
    match rows
    case Ok(rs) => Accept(200, None, Comments(rs))
    case Err(m) => Refuse(500, "获取评论失败: " + m)
  }

  /** `!commentContent || commentContent.trim() === ''`. */
  predicate Blank(content: Option<string>) {
    !Present(content) || Trim(content.value) == ""
  }

  /** The message of a failed insert. */
  function CreateFailed(m: string): string {
    "创建评论失败: " + m
  }

  /** `createComment`, behind `authenticate`: blank content is a 400 and
      writes nothing; otherwise the comment is stored under the id the
      table assigns (`newId`, unused so far) with the signed-in user as its
      author and answered with 201. A fault of the insert is a 500, and so
      is a token without a `userid`, whose undefined bind the driver
      refuses. */
  function Create(db: Table, articleId: string, user: ReqUser, content: Option<string>,
                  newId: int, fault: Option<string>): (r: (Table, Answer<Payload>))
    requires newId !in db
    ensures Blank(content) ==> r == (db, Refuse(400, BlankComment))
    ensures !Blank(content) && user.userid.None? ==> r == (db, Refuse(500, CreateFailed(UndefinedBind)))
    ensures !Blank(content) && user.userid.Some? && fault.Some? ==> r == (db, Refuse(500, CreateFailed(fault.value)))
    ensures r.1.status == 201 <==> !Blank(content) && user.userid.Some? && fault.None?
    ensures r.1.status == 201 ==>
      var row := CommentRow(articleId, user.userid, content.value, 0);
      r == (db[newId := row], Accept(201, None, Comment(row)))
  {
    if Blank(content) then (db, Refuse(400, BlankComment))
    else if user.userid.None? then (db, Refuse(500, CreateFailed(UndefinedBind)))
    else if fault.Some? then (db, Refuse(500, CreateFailed(fault.value)))
    else
      var row := CommentRow(articleId, user.userid, content.value, 0);
      (db[newId := row], Accept(201, None, Comment(row)))
  }

  /** Content made only of white space is refused like missing content:
      the check trims before it compares. */
  lemma WhitespaceRefused(db: Table, articleId: string, user: ReqUser, content: string, newId: int, fault: Option<string>)
    requires newId !in db && IsBlank(content)
    ensures Create(db, articleId, user, Some(content), newId, fault) == (db, Refuse(400, BlankComment))
  {
    TrimEmptyIffBlank(content);
  }

  /** The author of a new comment is the token's user, whoever the body
      claims to be, and the comment keeps its text untrimmed; a token
      without a user id stores nothing. */
  lemma CreateAttributes(db: Table, articleId: string, user: ReqUser, content: string, newId: int)
    requires newId !in db && !IsBlank(content)
    ensures user.userid.None? ==> Create(db, articleId, user, Some(content), newId, None).0 == db
    ensures user.userid.Some? ==>
      var (after, answer) := Create(db, articleId, user, Some(content), newId, None);
      && answer.status == 201
      && after[newId].userId == user.userid
      && after[newId].content == content
      && after.Keys == db.Keys + {newId}
  {
    TrimEmptyIffBlank(content);
    assert !Blank(Some(content));
    if user.userid.Some? {
      var row := CommentRow(articleId, user.userid, content, 0);
      assert Create(db, articleId, user, Some(content), newId, None) == (db[newId := row], Accept(201, None, Comment(row)));
    }
  }

  /** `likeComment`: the like counter of the comment goes up when a row
      was affected (200), else 404; a fault is a 500. `key` is the comment
      id as the database reads the route parameter. */
  function Like(db: Table, key: Option<int>, fault: Option<string>): (r: (Table, Answer<Payload>))
    ensures fault.Some? ==> r == (db, Refuse(500, "点赞失败: " + fault.value))
    ensures fault.None? && !(key.Some? && key.value in db) ==> r == (db, Refuse(404, NoSuchComment))
    ensures fault.None? && key.Some? && key.value in db ==>
      r == (db[key.value := db[key.value].(likes := db[key.value].likes + 1)],
            Answer(200, Some(true), Some("点赞成功"), None))
  {
    if fault.Some? then (db, Refuse(500, "点赞失败: " + fault.value))
    else if key.Some? && key.value in db then
      (db[key.value := db[key.value].(likes := db[key.value].likes + 1)], Answer(200, Some(true), Some("点赞成功"), None))
    else (db, Refuse(404, NoSuchComment))
  }

  /** A like changes the one comment and only its count. */
  lemma LikeTouchesOneComment(db: Table, k: int, other: int)
    requires k in db
    ensures var after := Like(db, Some(k), None).0;
      && after.Keys == db.Keys
      && after[k].likes == db[k].likes + 1
      && after[k].(likes := db[k].likes) == db[k]
      && (other in db && other != k ==> after[other] == db[other])
  {
  }

  /** Every fault answers 500 with `success` false and leaves the table
      as it was. */
  lemma FaultsAre500(db: Table, articleId: string, user: ReqUser, content: Option<string>,
                     newId: int, key: Option<int>, m: string, rows: seq<CommentRow>)
    requires newId !in db
    ensures !Blank(content) ==>
      var r := Create(db, articleId, user, content, newId, Some(m));
      r.0 == db && r.1.status == 500 && r.1.success == Some(false)
    ensures var r := Like(db, key, Some(m)); r.0 == db && r.1.status == 500 && r.1.success == Some(false)
    ensures List(Err(m)).status == 500 && List(Err(m)).success == Some(false)
  {
  }
}

=== FILE: comments.dfy ===
/** `useMyblogComments`: an article's comment list, backed by the comment
    API and by a raw copy of the server list kept in `cmt_raw_<articleId>`.
    Likes are applied after the server accepts them; nothing is optimistic
    and nothing is rolled back. */
module Comments {
  import opened Wrappers
  import opened Strings
  import opened Dates
  import opened Records
  import opened Http
  import opened Storage
  import opened Seqs
  import UserService

  const DefaultAvatar: string := "/default-avatar.png"
  const AnonymousName: string := "匿名用户"
  const TempPrefix: string := "temp_"

  /** A comment as the list renders it. */
  datatype Comment = Comment(
    nick: Option<string>, txt: string, time: string, id: CommentKey,
    likes: int, userId: Option<int>, avatar: string)

  datatype State = State(comments: seq<Comment>, loading: bool, error: Option<string>)

  /** The clock readings a call uses: `Date.now()`, the locale text of the
      current time (the date formatter's fallback) and
      `new Date().toISOString()`. */
  datatype Clock = Clock(now: nat, nowText: string, nowIso: Stamp)

  /** `err.message || fallback`. */
  function ErrorText(m: string, fallback: string): string {
    Or(Some(m), fallback)
  }

  /** The hook's own `getCurrentUser()`: without a token the cached user
      (or null); with one, the API user, which is then cached, or failing
      that the cached user. A cache that does not parse makes it reject. */
  function CurrentUser(st: Store, reply: Reply<Option<UserRecord>>): (r: (Store, Result<Option<UserRecord>>))
    ensures !HasToken(st) ==> r == (st, Read(st.blogUser))
    ensures HasToken(st) && UserService.GetCurrentUser(st, reply).1.Ok? ==>
      var u := UserService.GetCurrentUser(st, reply).1.value;
      r == (UserService.GetCurrentUser(st, reply).0.(blogUser := Some(Parsed(u))), Ok(Some(u)))
    ensures HasToken(st) && UserService.GetCurrentUser(st, reply).1.Err? ==>
      var st1 := UserService.GetCurrentUser(st, reply).0;
      r == (st1, Read(st1.blogUser))
    ensures r.0.comments == st.comments
  {
    if !HasToken(st) then (st, Read(st.blogUser))
    else
      var (st1, api) := UserService.GetCurrentUser(st, reply);
      match api
      case Ok(u) => (st1.(blogUser := Some(Parsed(u))), Ok(Some(u)))
      case Err(_) => (st1, Read(st1.blogUser))
  }

  /** The comment was written by the signed-in user. Raw comments carry a
      numeric `userId`, or null for anonymous ones. */
  predicate ByUser(c: RawComment, user: Option<UserRecord>) {
    user.Some? && c.userId.Some? && c.userId == user.value.userid
  }

  /** The formatting `loadComments` applies to each raw comment. */
  function Format(c: RawComment, user: Option<UserRecord>, clock: Clock): (r: Comment)
    ensures r.nick == if ByUser(c, user) then user.value.username else Some(Or(c.username, "用户"))
    ensures r.txt == Or(c.commentContent, "")
    ensures r.time == SafeFormatDate(c.commentCreatedAt, clock.nowText)
    ensures r.id == if KeyPresent(c.commentId) then c.commentId.value else Str(NatToString(clock.now))
    ensures r.likes == OrZero(c.commentLikes) && r.userId == c.userId
    ensures r.avatar == Or(c.avatar, DefaultAvatar)
  {
    Comment(
      if ByUser(c, user) then user.value.username else Some(Or(c.username, "用户")),
      Or(c.commentContent, ""),
      SafeFormatDate(c.commentCreatedAt, clock.nowText),
      if KeyPresent(c.commentId) then c.commentId.value else Str(NatToString(clock.now)),
      OrZero(c.commentLikes),
      c.userId,
      Or(c.avatar, DefaultAvatar))
  }

  /** `rawData.map(format)`: one comment per raw comment, in server order. */
  function FormatAll(raw: seq<RawComment>, user: Option<UserRecord>, clock: Clock): (r: seq<Comment>)
    ensures |r| == |raw|
    ensures forall i :: 0 <= i < |raw| ==> r[i] == Format(raw[i], user, clock)
  {
    Map(raw, (c: RawComment) => Format(c, user, clock))
  }

  /** The catch block of `loadComments`: the error is shown, and the cached
      raw list, when there is one, is formatted in place of the server's.
      A cache that does not parse, or a failing user lookup, empties the
      list. */
  function LoadFallback(s: State, st: Store, articleId: string, message: string,
                        again: Reply<Option<UserRecord>>, clock: Clock): (r: (State, Store))
    ensures r.0.error == Some(ErrorText(message, "加载评论失败")) && !r.0.loading
    ensures Read(CachedComments(st, articleId)) == Ok(None) ==> r.0.comments == s.comments && r.1 == st
    ensures Read(CachedComments(st, articleId)).Err? ==> r.0.comments == [] && r.1 == st
    ensures (Read(CachedComments(st, articleId)).Ok? && Read(CachedComments(st, articleId)).value.Some?
             && CurrentUser(st, again).1.Ok?) ==>
      r.0.comments == FormatAll(Read(CachedComments(st, articleId)).value.value, CurrentUser(st, again).1.value, clock)
    ensures CachedComments(r.1, articleId) == CachedComments(st, articleId)
  {
    var s1 := s.(error := Some(ErrorText(message, "加载评论失败")), loading := false);
    match Read(CachedComments(st, articleId))
    case Err(_) => (s1.(comments := []), st)
    case Ok(None) => (s1, st)
    case Ok(Some(raw)) =>
      var (st1, cu) := CurrentUser(st, again);
      match cu
      case Err(_) => (s1.(comments := []), st1)
      case Ok(user) => (s1.(comments := FormatAll(raw, user, clock)), st1)
  }

  /** `loadComments()`. `fetched` is the comment API's reply, `reply` and
      `again` the `/user/me` replies of the first and of the fallback user
      lookup. */
  function LoadComments(s: State, st: Store, articleId: Option<string>,
                        fetched: Reply<Option<seq<RawComment>>>,
                        reply: Reply<Option<UserRecord>>, again: Reply<Option<UserRecord>>,
                        clock: Clock): (r: (State, Store))
    // no article: nothing at all happens
    ensures !Present(articleId) ==> r == (s, st)
    ensures Present(articleId) ==> !r.0.loading
    // success: the formatted server list, and exactly the raw list cached
    ensures (Present(articleId) && Checked(fetched, "获取评论失败").Ok?
             && Checked(fetched, "获取评论失败").value.payload.Some?
             && CurrentUser(st, reply).1.Ok?) ==>
      var raw := Checked(fetched, "获取评论失败").value.payload.value;
      && r.0 == State(FormatAll(raw, CurrentUser(st, reply).1.value, clock), false, None)
      && r.1 == PutComments(CurrentUser(st, reply).0, articleId.value, raw)
    // failure of the comment API: the fallback on the unchanged storage
    ensures Present(articleId) && Checked(fetched, "获取评论失败").Err? ==>
      r == LoadFallback(s, st, articleId.value, Checked(fetched, "获取评论失败").message, again, clock)
  {
    if !Present(articleId) then (s, st)
    else
      var id := articleId.value;
      var s0 := s.(loading := true, error := None);
      match Checked(fetched, "获取评论失败")
      case Err(m) => LoadFallback(s0, st, id, m, again, clock)
      case Ok(body) =>
        var (st1, cu) := CurrentUser(st, reply);
        match cu
        case Err(m) => LoadFallback(s0, st1, id, m, again, clock)
        case Ok(user) =>
          match body.payload
          case None => LoadFallback(s0, st1, id, MissingValue, again, clock)
          case Some(raw) => (State(FormatAll(raw, user, clock), false, None), PutComments(st1, id, raw))
  }

  /** What `addComment` and `likeComment` did: the new state and storage,
      and the value the call resolved to. */
  datatype Change = Change(state: State, store: Store, returned: bool)

  /** The raw comment stored for an anonymous author. */
  function TempRaw(content: string, clock: Clock): (c: RawComment)
    ensures c.commentId == Some(Str(TempPrefix + NatToString(clock.now)))
    ensures c.userId.None? && c.commentLikes == Some(0) && c.commentContent == Some(content)
  {
    RawComment(Some(Str(TempPrefix + NatToString(clock.now))), None, Some(AnonymousName), Some(content),
               Some(clock.nowIso), Some(0), Some(DefaultAvatar))
  }

  /** The comment shown for an anonymous author. */
  function TempComment(content: string, clock: Clock): (c: Comment)
    ensures c.id == TempRaw(content, clock).commentId.value
    ensures c.userId.None? && c.likes == 0 && c.txt == content && c.nick == Some(AnonymousName)
  {
    Comment(Some(AnonymousName), content, SafeFormatDate(Some(clock.nowIso), clock.nowText),
            Str(TempPrefix + NatToString(clock.now)), 0, None, DefaultAvatar)
  }

  /** The comment shown for one the server created. */
  function CreatedComment(c: RawComment, content: string, user: UserRecord, clock: Clock): (r: Comment)
    ensures r.nick == user.username && r.userId == user.userid
    ensures r.txt == Or(c.commentContent, content)
    ensures r.likes == OrZero(c.commentLikes)
    ensures r.avatar == Or(OrElse(c.avatar, user.avatar), DefaultAvatar)
  {
    Comment(user.username, Or(c.commentContent, content), SafeFormatDate(c.commentCreatedAt, clock.nowText),
            if KeyPresent(c.commentId) then c.commentId.value else Str(NatToString(clock.now)),
            OrZero(c.commentLikes), user.userid, Or(OrElse(c.avatar, user.avatar), DefaultAvatar))
  }

  /** Prepends one raw comment to an article's cached list (an empty list
      when none is cached). */
  function PrependCached(st: Store, articleId: string, c: RawComment): (r: Result<Store>)
    ensures r.Ok? <==> Read(CachedComments(st, articleId)).Ok?
    ensures r.Ok? ==> r.value == PutComments(st, articleId, [c] + Read(CachedComments(st, articleId)).value.GetOr([]))
  {
    match Read(CachedComments(st, articleId))
    case Err(m) => Err(m)
    case Ok(saved) => Ok(PutComments(st, articleId, [c] + saved.GetOr([])))
  }

  /** `addComment(content)`. `created` is the comment API's reply; it is
      not consulted for an anonymous author. `seen` is the list of the
      render whose `addComment` ran: the new comment is put in front of
      that list, not of the list the page holds once the awaits return. */
  function AddComment(s: State, st: Store, articleId: Option<string>, content: string,
                      reply: Reply<Option<UserRecord>>, created: Reply<Option<RawComment>>,
                      clock: Clock, seen: seq<Comment>): (r: Change)
    // the guard: nothing happens without an article or without text
    ensures (!Present(articleId) || Trim(content) == "") ==> r == Change(s, st, false)
    ensures Present(articleId) && Trim(content) != "" ==> !r.state.loading
    // a failed call leaves the list and the cache as they were
    ensures !r.returned ==> r.state.comments == s.comments
    ensures !r.returned && Present(articleId) ==> CachedComments(r.store, articleId.value) == CachedComments(st, articleId.value)
    // a successful call prepends exactly one comment to the list and to the cache
    ensures r.returned ==>
      && Present(articleId) && |r.state.comments| == |seen| + 1 && r.state.comments[1..] == seen
      && HeadAdded(CachedComments(st, articleId.value), CachedComments(r.store, articleId.value))
  {
    if !Present(articleId) || Trim(content) == "" then Change(s, st, false)
    else
      var id := articleId.value;
      var s0 := s.(loading := true, error := None);
      var (st1, cu) := CurrentUser(st, reply);
      assert CachedComments(st1, id) == CachedComments(st, id);
      match cu
      case Err(m) => Fail(s0, st1, ErrorText(m, "添加评论失败"))
      case Ok(None) => Commit(s0, st1, id, TempComment(content, clock), TempRaw(content, clock), seen)
      case Ok(Some(user)) =>
        match Checked(created, "创建评论失败")
        case Err(m) => Fail(s0, st1, ErrorText(m, "添加评论失败"))
        case Ok(body) =>
          match body.payload
          case None => Fail(s0, st1, MissingValue)
          case Some(raw) => Commit(s0, st1, id, CreatedComment(raw, content, user, clock), raw, seen)
  }

  /** The cache gained one entry at its head and kept the rest. */
  predicate HeadAdded(before: Option<Entry<seq<RawComment>>>, after: Option<Entry<seq<RawComment>>>) {
    && Read(before).Ok? && after.Some? && after.value.Parsed? && |after.value.value| >= 1
    && after.value.value[1..] == Read(before).value.GetOr([])
  }

  /** `addComment` giving up with a message. */
  function Fail(s: State, st: Store, message: string): (r: Change)
    ensures r.state.comments == s.comments && r.store == st && !r.returned && !r.state.loading
    ensures r.state.error == Some(message)
  {
    Change(s.(loading := false, error := Some(message)), st, false)
  }

  /** `addComment` putting `shown` at the head of the list it saw and `raw`
      at the head of the cache as stored now; a cache that does not parse
      stops it. */
  function Commit(s: State, st: Store, articleId: string, shown: Comment, raw: RawComment, seen: seq<Comment>): (r: Change)
    ensures r.returned <==> Read(CachedComments(st, articleId)).Ok?
    ensures !r.state.loading
    ensures r.returned ==> r.state.comments == [shown] + seen
    ensures r.returned ==> CachedComments(r.store, articleId) == Some(Parsed([raw] + Read(CachedComments(st, articleId)).value.GetOr([])))
    ensures !r.returned ==> r.state.comments == s.comments && r.store == st
  {
    match PrependCached(st, articleId, raw)
    case Err(m) => Fail(s, st, ErrorText(m, "添加评论失败"))
    case Ok(st2) => Change(s.(loading := false, comments := [shown] + seen), st2, true)
  }


  /** An anonymous author gets a `temp_` comment with no user and no likes,
      at the head of both the list and the cache, and the comment API is
      never called. */
  lemma AnonymousAdd(s: State, st: Store, articleId: Option<string>, content: string,
                     reply: Reply<Option<UserRecord>>, created: Reply<Option<RawComment>>, other: Reply<Option<RawComment>>,
                     clock: Clock, seen: seq<Comment>)
    requires Present(articleId) && Trim(content) != ""
    requires CurrentUser(st, reply).1 == Ok(None)
    requires Read(CachedComments(CurrentUser(st, reply).0, articleId.value)).Ok?
    ensures var r := AddComment(s, st, articleId, content, reply, created, clock, seen);
      && r.returned
      && r.state.comments == [TempComment(content, clock)] + seen
      && TempPrefix <= r.state.comments[0].id.s
      && r.state.comments[0].userId.None? && r.state.comments[0].likes == 0
      && CachedComments(r.store, articleId.value) ==
           Some(Parsed([TempRaw(content, clock)] + Read(CachedComments(CurrentUser(st, reply).0, articleId.value)).value.GetOr([])))
    ensures AddComment(s, st, articleId, content, reply, created, clock, seen) ==
            AddComment(s, st, articleId, content, reply, other, clock, seen)
  {
  }

  /** A signed-in author gets the comment the server created, attributed
      to them, at the head of both the list and the cache. */
  lemma SignedInAdd(s: State, st: Store, articleId: Option<string>, content: string,
                    reply: Reply<Option<UserRecord>>, created: Reply<Option<RawComment>>, clock: Clock,
                    seen: seq<Comment>)
    requires Present(articleId) && Trim(content) != ""
    requires CurrentUser(st, reply).1.Ok? && CurrentUser(st, reply).1.value.Some?
    requires Checked(created, "创建评论失败").Ok? && Checked(created, "创建评论失败").value.payload.Some?
    requires Read(CachedComments(CurrentUser(st, reply).0, articleId.value)).Ok?
    ensures var r := AddComment(s, st, articleId, content, reply, created, clock, seen);
      var raw := Checked(created, "创建评论失败").value.payload.value;
      var user := CurrentUser(st, reply).1.value.value;
      && r.returned
      && r.state.comments == [CreatedComment(raw, content, user, clock)] + seen
      && r.state.comments[0].userId == user.userid
      && CachedComments(r.store, articleId.value) ==
           Some(Parsed([raw] + Read(CachedComments(CurrentUser(st, reply).0, articleId.value)).value.GetOr([])))
  {
  }

  /** One like added to the shown comments whose id is `k`. */
  function LikeShown(cs: seq<Comment>, k: CommentKey): (r: seq<Comment>)
    ensures |r| == |cs|
    ensures forall i :: 0 <= i < |cs| ==>
      r[i] == if cs[i].id == k then cs[i].(likes := OrZero(Some(cs[i].likes)) + 1) else cs[i]
  {
    Map(cs, (c: Comment) => if c.id == k then c.(likes := OrZero(Some(c.likes)) + 1) else c)
  }

  /** One like added to the cached raw comments whose id is `k`. */
  function LikeRaw(cs: seq<RawComment>, k: CommentKey): (r: seq<RawComment>)
    ensures |r| == |cs|
    ensures forall i :: 0 <= i < |cs| ==>
      r[i] == if cs[i].commentId == Some(k) then cs[i].(commentLikes := Some(OrZero(cs[i].commentLikes) + 1)) else cs[i]
  {
    Map(cs, (c: RawComment) => if c.commentId == Some(k) then c.(commentLikes := Some(OrZero(c.commentLikes) + 1)) else c)
  }

  /** The key of the cache `likeComment` updates: the article id as the
      template string prints it. */
  function ArticleText(articleId: Option<string>): string {
    articleId.GetOr("undefined")
  }

  /** `likeComment(commentId)`: after the like API succeeds, one like is
      added to each matching comment in the list and, when the article's
      cache is stored, in the cache. */
  function LikeComment(s: State, st: Store, articleId: Option<string>, commentId: Option<CommentKey>,
                       liked: Reply<()>): (r: Change)
    ensures !KeyPresent(commentId) ==> r == Change(s, st, false)
    ensures KeyPresent(commentId) && Checked(liked, "点赞失败").Err? ==>
      r == Change(s.(error := Some(ErrorText(Checked(liked, "点赞失败").message, "点赞失败"))), st, false)
    ensures KeyPresent(commentId) && Checked(liked, "点赞失败").Ok? ==>
      r.state.comments == LikeShown(s.comments, commentId.value) && r.state.loading == s.loading
    ensures r.returned ==> KeyPresent(commentId) && r.state == s.(comments := LikeShown(s.comments, commentId.value))
    ensures r.returned ==>
      match Read(CachedComments(st, ArticleText(articleId)))
      case Ok(Some(raw)) => r.store == PutComments(st, ArticleText(articleId), LikeRaw(raw, commentId.value))
      case _ => r.store == st
  {
    if !KeyPresent(commentId) then Change(s, st, false)
    else
      var k := commentId.value;
      match Checked(liked, "点赞失败")
      case Err(m) => Change(s.(error := Some(ErrorText(m, "点赞失败"))), st, false)
      case Ok(_) =>
        var s1 := s.(comments := LikeShown(s.comments, k));
        var key := ArticleText(articleId);
        match Read(CachedComments(st, key))
        case Err(m) => Change(s1.(error := Some(ErrorText(m, "点赞失败"))), st, false)
        case Ok(None) => Change(s1, st, true)
        case Ok(Some(raw)) => Change(s1, PutComments(st, key, LikeRaw(raw, k)), true)
  }

  /** A like changes only the likes of the matching comments, each by
      exactly one. */
  lemma LikeOnlyMatching(cs: seq<Comment>, k: CommentKey, i: nat)
    requires i < |cs|
    ensures LikeShown(cs, k)[i].likes == cs[i].likes + (if cs[i].id == k then 1 else 0)
    ensures LikeShown(cs, k)[i] == cs[i].(likes := LikeShown(cs, k)[i].likes)
  {
  }

  /** The cache written by a successful load brings the same list back
      when the next load fails: a failed reload shows what the last good
      load showed (for a visitor without a token, whose user lookup reads
      only the cache). */
  lemma FailedReloadRestores(s: State, st: Store, articleId: Option<string>,
                             fetched: Reply<Option<seq<RawComment>>>, failed: Reply<Option<seq<RawComment>>>,
                             reply: Reply<Option<UserRecord>>, again: Reply<Option<UserRecord>>, clock: Clock)
    requires Present(articleId) && !HasToken(st) && Read(st.blogUser).Ok?
    requires Checked(fetched, "获取评论失败").Ok? && Checked(fetched, "获取评论失败").value.payload.Some?
    requires Checked(failed, "获取评论失败").Err?
    ensures var first := LoadComments(s, st, articleId, fetched, reply, again, clock);
      var second := LoadComments(first.0, first.1, articleId, failed, reply, again, clock);
      second.0.comments == first.0.comments && second.1 == first.1
  {
    var first := LoadComments(s, st, articleId, fetched, reply, again, clock);
    var raw := Checked(fetched, "获取评论失败").value.payload.value;
    assert first.1 == PutComments(st, articleId.value, raw);
    assert CachedComments(first.1, articleId.value) == Some(Parsed(raw));
  }

  /** A like that completes while an anonymous add is waiting is lost from
      the list: the add puts its comment in front of the list it saw when
      it was called, which does not have the like. The cache, which the
      add reads again before writing, keeps it. */
  lemma AddDropsConcurrentLike(s: State, st: Store, articleId: Option<string>, k: CommentKey, i: nat,
                               liked: Reply<()>, content: string, reply: Reply<Option<UserRecord>>,
                               created: Reply<Option<RawComment>>, clock: Clock, raw: seq<RawComment>)
    requires Present(articleId) && !IsBlank(content) && KeyPresent(Some(k))
    requires i < |s.comments| && s.comments[i].id == k
    requires Checked(liked, "点赞失败").Ok?
    requires CachedComments(st, articleId.value) == Some(Parsed(raw))
    requires !HasToken(st) && st.blogUser.None?
    ensures var liking := LikeComment(s, st, articleId, Some(k), liked);
      var adding := AddComment(liking.state, liking.store, articleId, content, reply, created, clock, s.comments);
      && liking.returned
      && liking.state.comments[i].likes == s.comments[i].likes + 1
      && adding.returned
      && adding.state.comments[i + 1].likes == s.comments[i].likes
      && CachedComments(adding.store, articleId.value) == Some(Parsed([TempRaw(content, clock)] + LikeRaw(raw, k)))
  {
    TrimEmptyIffBlank(content);
    var liking := LikeComment(s, st, articleId, Some(k), liked);
    assert ArticleText(articleId) == articleId.value;
    assert liking.store == PutComments(st, articleId.value, LikeRaw(raw, k));
    assert CachedComments(liking.store, articleId.value) == Some(Parsed(LikeRaw(raw, k)));
    assert !HasToken(liking.store) && liking.store.blogUser.None?;
    assert CurrentUser(liking.store, reply) == (liking.store, Ok(None));
  }
}

=== FILE: dates.dfy ===
/** `safeFormatDate`: a date shown as `YYYY-MM-DD HH:MM:SS` with every
    field after the year zero-padded to two digits. */
module Dates {
  import opened Wrappers
  import opened Strings

  /** What the `Date` getters report for a parsed timestamp, in the local
      time zone: `getFullYear`, `getMonth` (0-based), `getDate`,
      `getHours`, `getMinutes` and `getSeconds`. */
  datatype DateTime = DateTime(year: nat, month: nat, day: nat, hour: nat, minute: nat, second: nat)
  {
    /** The ranges the getters keep to. */
    predicate Valid() {
      month < 12 && 1 <= day <= 31 && hour < 24 && minute < 60 && second < 60
    }
  }

  /** A timestamp field as it arrives in a record: its text, which decides
      the field's truthiness, and what `new Date(text)` makes of it (None
      for an Invalid Date). Parsing dates is not part of this model, so the
      parse comes with the value. */
  datatype Stamp = Stamp(text: string, local: Option<DateTime>)

  /** A timestamp field that is present and not the empty string. */
  predicate StampPresent(s: Option<Stamp>) {
    s.Some? && s.value.text != ""
  }

  /** `a || b` on two timestamp fields. */
  function StampOr(a: Option<Stamp>, b: Option<Stamp>): Option<Stamp> {
    if StampPresent(a) then a else b
  }

  /** The `YYYY-MM-DD HH:MM:SS` text of a date. */
  function Format(d: DateTime): (r: string)
    ensures d.Valid() ==> |r| == |NatToString(d.year)| + 15
  {
    NatToString(d.year) + "-" + PadTwo(d.month + 1) + "-" + PadTwo(d.day)
      + " " + PadTwo(d.hour) + ":" + PadTwo(d.minute) + ":" + PadTwo(d.second)
  }

  /** `safeFormatDate(value)`: the formatted date when `new Date(value)` is
      valid, otherwise `nowText`, the locale rendering of the current time
      that the fallback produces. `new Date(undefined)` is invalid. */
  function SafeFormatDate(value: Option<Stamp>, nowText: string): (r: string)
    ensures value.Some? && value.value.local.Some? ==> r == Format(value.value.local.value)
    ensures (value.None? || value.value.local.None?) ==> r == nowText
  {
    match value
    case Some(Stamp(_, Some(d))) => Format(d)
    case _ => nowText
  }

  /** Reads back a two-digit field. */
  function TwoDigits(s: string, at: nat): Option<nat> {
    if at + 2 <= |s| && IsDigit(s[at]) && IsDigit(s[at + 1])
    then Some(DigitValue(s[at]) * 10 + DigitValue(s[at + 1])) else None
  }

  /** The separators of `YYYY-MM-DD HH:MM:SS` after a year of `n` digits. */
  predicate Separators(s: string, n: nat)
    requires n + 15 <= |s|
  {
    s[n] == '-' && s[n + 3] == '-' && s[n + 6] == ' ' && s[n + 9] == ':' && s[n + 12] == ':'
  }

  /** Reads a `YYYY-MM-DD HH:MM:SS` text back into its fields. */
  function Parse(s: string): Option<DateTime> {
    if |s| < 16 then None
    else
      var n := |s| - 15;
      if !IsDigits(s[..n]) || !Separators(s, n) then None
      else
        match (TwoDigits(s, n + 1), TwoDigits(s, n + 4), TwoDigits(s, n + 7), TwoDigits(s, n + 10), TwoDigits(s, n + 13))
        case (Some(mo), Some(d), Some(h), Some(mi), Some(se)) =>
          if mo == 0 then None else Some(DateTime(DecimalValue(s[..n]), mo - 1, d, h, mi, se))
        case _ => None
  }

  /** Two zero-padded digits read back as the number they came from. */
  lemma PadTwoReads(n: nat, s: string, at: nat)
    requires n < 100 && at + 2 <= |s| && s[at..at + 2] == PadTwo(n)
    ensures TwoDigits(s, at) == Some(n)
  {
    var p := PadTwo(n);
    assert s[at] == p[0] && s[at + 1] == p[1];
    assert p[..1] == [p[0]];
    assert DecimalValue(p) == DecimalValue(p[..1]) * 10 + DigitValue(p[1]);
  }

  /** Where the pieces of a `YYYY-MM-DD HH:MM:SS` text sit. */
  lemma Layout(s: string, y: string, p1: string, p2: string, p3: string, p4: string, p5: string)
    requires |p1| == 2 && |p2| == 2 && |p3| == 2 && |p4| == 2 && |p5| == 2
    requires s == y + "-" + p1 + "-" + p2 + " " + p3 + ":" + p4 + ":" + p5
    ensures |s| == |y| + 15 && s[..|y|] == y && Separators(s, |y|)
    ensures s[|y| + 1..|y| + 3] == p1 && s[|y| + 4..|y| + 6] == p2 && s[|y| + 7..|y| + 9] == p3
    ensures s[|y| + 10..|y| + 12] == p4 && s[|y| + 13..|y| + 15] == p5
  {
  }

  /** `Parse` on a text whose pieces have already been read. */
  lemma ParseFields(s: string, year: nat, mo: nat, d: nat, h: nat, mi: nat, se: nat)
    requires |s| >= 16 && IsDigits(s[..|s| - 15]) && Separators(s, |s| - 15)
    requires DecimalValue(s[..|s| - 15]) == year
    requires TwoDigits(s, |s| - 14) == Some(mo) && mo >= 1
    requires TwoDigits(s, |s| - 11) == Some(d) && TwoDigits(s, |s| - 8) == Some(h)
    requires TwoDigits(s, |s| - 5) == Some(mi) && TwoDigits(s, |s| - 2) == Some(se)
    ensures Parse(s) == Some(DateTime(year, mo - 1, d, h, mi, se))
  {
  }

  /** Where each field of a valid date sits in its formatted text. */
  lemma FormatLayout(d: DateTime)
    requires d.Valid()
    ensures var s, n := Format(d), |NatToString(d.year)|;
      && |s| == n + 15 && s[..n] == NatToString(d.year) && Separators(s, n)
      && s[n + 1..n + 3] == PadTwo(d.month + 1) && s[n + 4..n + 6] == PadTwo(d.day)
      && s[n + 7..n + 9] == PadTwo(d.hour) && s[n + 10..n + 12] == PadTwo(d.minute)
      && s[n + 13..n + 15] == PadTwo(d.second)
  {
    var y := NatToString(d.year);
    var p1, p2, p3, p4, p5 := PadTwo(d.month + 1), PadTwo(d.day), PadTwo(d.hour), PadTwo(d.minute), PadTwo(d.second);
    Layout(Format(d), y, p1, p2, p3, p4, p5);
  }

  /** The formatted text of a valid date determines the date: reading it
      back gives every field again. */
  lemma ParseFormat(d: DateTime)
    requires d.Valid()
    ensures Parse(Format(d)) == Some(d)
  {
    var s := Format(d);
    var n := |NatToString(d.year)|;
    FormatLayout(d);
    DecimalRoundTrip(d.year);
    PadTwoReads(d.month + 1, s, n + 1);
    PadTwoReads(d.day, s, n + 4);
    PadTwoReads(d.hour, s, n + 7);
    PadTwoReads(d.minute, s, n + 10);
    PadTwoReads(d.second, s, n + 13);
    ParseFields(s, d.year, d.month + 1, d.day, d.hour, d.minute, d.second);
  }

  /** Distinct valid dates are shown differently. */
  lemma FormatInjective(a: DateTime, b: DateTime)
    requires a.Valid() && b.Valid() && Format(a) == Format(b)
    ensures a == b
  {
    ParseFormat(a);
    ParseFormat(b);
  }
}

=== FILE: feed.dfy ===
/** The recommend tab's infinite feed on the home page, as written: the
    pager state, `loadArticles` split into the request it issues and the
    completion that applies the reply, the keyword-reset and mount effects,
    and the scroll and button triggers. The only guard against overlapping
    requests is the `loading` flag. */
module HomeFeed {
  import opened Wrappers
  import opened Records
  import opened Seqs
  import ArticleService

  const ItemsPerPage: nat := 50

  datatype Feed = Feed(list: seq<RawArticle>, loading: bool, hasMore: bool, page: nat)

  datatype Tab = Recommend | Hot | Columns

  /** The tab the page opens on. */
  const InitialTab: Tab := Columns

  const Initial: Feed := Feed([], false, true, 0)

  datatype Endpoint = AllArticles | SearchArticles(keyword: string)

  /** A request `loadArticles` sent, with the arguments it was called
      with. */
  datatype Request = Request(endpoint: Endpoint, limit: nat, offset: nat, targetPage: nat, isSearchChange: bool)

  /** `loadArticles(targetPage, keyword, isSearchChange)` up to the
      `await`: while a request is in flight the call does nothing;
      otherwise it marks the feed loading and requests page `targetPage`
      of the search results (for a non-empty keyword) or of all
      articles. */
  function Begin(f: Feed, targetPage: nat, keyword: string, isSearchChange: bool): (r: (Feed, Option<Request>))
    ensures f.loading ==> r == (f, None)
    ensures !f.loading ==> r.0 == f.(loading := true) && r.1.Some?
    ensures r.1.Some? ==> var q := r.1.value;
      && q.limit == ItemsPerPage && q.offset == targetPage * ItemsPerPage
      && q.targetPage == targetPage && q.isSearchChange == isSearchChange
      && (q.endpoint.SearchArticles? <==> keyword != "")
      && (q.endpoint.SearchArticles? ==> q.endpoint.keyword == keyword)
  {
    if f.loading then (f, None)
    else
      var endpoint := if keyword != "" then SearchArticles(keyword) else AllArticles;
      (f.(loading := true), Some(Request(endpoint, ItemsPerPage, targetPage * ItemsPerPage, targetPage, isSearchChange)))
  }

  /** The rest of `loadArticles`, once the service has answered with
      `outcome`: a list replaces the feed for page 0 or a search change and
      is appended otherwise; a missing list or an error stops paging. */
  function Complete(f: Feed, q: Request, outcome: Result<ArticleService.Listing>): (r: Feed)
    ensures !r.loading
    ensures (outcome.Err? || outcome.value.list.None?) ==> r == f.(loading := false, hasMore := false)
    ensures outcome.Ok? && outcome.value.list.Some? ==>
      var l := outcome.value.list.value;
      && r.list == (if q.isSearchChange || q.targetPage == 0 then l else f.list + l)
      && r.page == q.targetPage + 1
      && r.hasMore == outcome.value.hasMore.GetOr(true)
  {
    match outcome
    case Err(_) => f.(loading := false, hasMore := false)
    case Ok(resp) =>
      match resp.list
      case None => f.(loading := false, hasMore := false)
      case Some(l) =>
        var list := if q.isSearchChange || q.targetPage == 0 then l else f.list + l;
        Feed(list, false, resp.hasMore.GetOr(true), q.targetPage + 1)
  }

  /** Appending keeps the earlier articles first and in order. */
  lemma AppendKeepsOrder(f: Feed, q: Request, outcome: Result<ArticleService.Listing>)
    requires outcome.Ok? && outcome.value.list.Some?
    requires !q.isSearchChange && q.targetPage != 0
    ensures var r := Complete(f, q, outcome);
      f.list <= r.list && r.list[|f.list|..] == outcome.value.list.value
  {
  }

  /** The reset effect, when the keyword or the tab changed since the last
      render: a changed keyword on the recommend tab empties the feed and
      then asks for page 0 of the new keyword as a search change. The
      request goes through the `loadArticles` of the same render, so it
      sees that render's `loading`. */
  function Reset(f: Feed, tab: Tab, prevKeyword: string, keyword: string): (r: (Feed, Option<Request>))
    ensures tab != Recommend || prevKeyword == keyword ==> r == (f, None)
    ensures tab == Recommend && prevKeyword != keyword ==>
      r == Begin(f.(list := [], page := 0, hasMore := true), 0, keyword, true)
  {
    if tab == Recommend && prevKeyword != keyword then
      Begin(f.(list := [], page := 0, hasMore := true), 0, keyword, true)
    else (f, None)
  }

  /** The mount effect: it loads page 0 only on the recommend tab of an
      empty, idle feed. */
  function MountLoad(f: Feed, tab: Tab, keyword: string): (r: (Feed, Option<Request>))
    ensures r.1.Some? <==> tab == Recommend && |f.list| == 0 && !f.loading
    ensures r.1.Some? ==> r == Begin(f, 0, keyword, false)
    ensures r.1.None? ==> r.0 == f
  {
    if tab == Recommend && |f.list| == 0 && !f.loading then Begin(f, 0, keyword, false) else (f, None)
  }

  /** The page opens on the column tab, so the mount load never fires. */
  lemma MountNeverLoads(keyword: string)
    ensures MountLoad(Initial, InitialTab, keyword) == (Initial, None)
  {
  }

  /** The scroll handler, near the bottom of the page: the next page, if
      the recommend tab is shown, the feed is idle and has more. */
  function ScrollTrigger(f: Feed, tab: Tab, nearBottom: bool, keyword: string): (r: (Feed, Option<Request>))
    ensures r.1.Some? <==> tab == Recommend && nearBottom && !f.loading && f.hasMore
    ensures r.1.Some? ==> r == Begin(f, f.page, keyword, false) && r.1.value.targetPage == f.page
    ensures r.1.None? ==> r.0 == f
  {
    if tab == Recommend && nearBottom && !f.loading && f.hasMore then Begin(f, f.page, keyword, false) else (f, None)
  }

  /** The load-more button is rendered while the feed has more. */
  predicate ButtonShown(f: Feed) {
    f.hasMore
  }

  /** A click on the load-more button: the button is disabled while
      loading, so a click requests the next page exactly when the button
      is shown and enabled. */
  function ButtonClick(f: Feed, keyword: string): (r: (Feed, Option<Request>))
    ensures r.1.Some? <==> ButtonShown(f) && !f.loading
    ensures r.1.Some? ==> r == Begin(f, f.page, keyword, false) && r.1.value.targetPage == f.page
    ensures r.1.None? ==> r.0 == f
  {
    if ButtonShown(f) && !f.loading then Begin(f, f.page, keyword, false) else (f, None)
  }

  /** The keyword reset is lost while a request is in flight: the feed is
      emptied, no request for the new keyword is made, and when the old
      request completes its list (for the old keyword) is what the feed
      shows. */
  lemma ResetSwallowedWhileLoading(f: Feed, prevKeyword: string, keyword: string,
                                   inFlight: Request, outcome: Result<ArticleService.Listing>)
    requires f.loading && prevKeyword != keyword
    requires outcome.Ok? && outcome.value.list.Some?
    ensures var (g, q) := Reset(f, Recommend, prevKeyword, keyword);
      && q.None?
      && g == f.(list := [], page := 0, hasMore := true)
      && Complete(g, inFlight, outcome).list == outcome.value.list.value
      && Complete(g, inFlight, outcome).page == inFlight.targetPage + 1
  {
  }

  /** A concrete run: the feed on the recommend tab starts loading page 0
      of all articles, the user searches for "rust" before it answers, and
      the unfiltered first page is what stays on screen. */
  lemma StaleResultShown(a: RawArticle)
    ensures var (f1, q1) := Begin(Initial, 0, "", false);
      var (f2, q2) := Reset(f1, Recommend, "", "rust");
      var f3 := Complete(f2, q1.value, Ok(ArticleService.Listing(Some([a]), None, None, None)));
      && q1 == Some(Request(AllArticles, 50, 0, 0, false))
      && q2.None?
      && f3 == Feed([a], false, true, 1)
  {
  }
}

=== FILE: feed_fixed.dfy ===
/** The home feed with the keyword reset repaired: every request carries
    the generation it was issued in, a reset starts a new generation and
    always requests the new keyword's first page, and a reply from an
    older generation is dropped. */
module FeedFixed {
  import opened Wrappers
  import opened Records
  import ArticleService
  import HomeFeed

  datatype Controller = Controller(feed: HomeFeed.Feed, generation: nat)

  /** A request tagged with the generation that issued it. */
  datatype Tagged = Tagged(request: HomeFeed.Request, generation: nat)

  const Initial: Controller := Controller(HomeFeed.Initial, 0)

  /** `loadArticles` for a scroll or a click: as before, nothing while a
      request is in flight. */
  function Load(c: Controller, targetPage: nat, keyword: string): (r: (Controller, Option<Tagged>))
    ensures c.feed.loading ==> r == (c, None)
    ensures r.1.Some? ==> r.1.value.generation == c.generation && r.0.generation == c.generation
    ensures r.1.Some? ==> r.1.value.request.targetPage == targetPage
  {
    var (f, q) := HomeFeed.Begin(c.feed, targetPage, keyword, false);
    match q
    case None => (c, None)
    case Some(req) => (Controller(f, c.generation), Some(Tagged(req, c.generation)))
  }

  /** The reset: a changed keyword on the recommend tab empties the feed,
      starts a new generation and requests page 0 of the new keyword,
      whether or not an older request is still in flight. */
  function Reset(c: Controller, tab: HomeFeed.Tab, prevKeyword: string, keyword: string): (r: (Controller, Option<Tagged>))
    ensures tab != HomeFeed.Recommend || prevKeyword == keyword ==> r == (c, None)
    ensures tab == HomeFeed.Recommend && prevKeyword != keyword ==>
      && r.0.generation == c.generation + 1
      && r.0.feed == HomeFeed.Feed([], true, true, 0)
      && r.1.Some? && r.1.value.generation == r.0.generation
      && r.1.value.request.targetPage == 0 && r.1.value.request.isSearchChange
      && (r.1.value.request.endpoint.SearchArticles? <==> keyword != "")
      && (r.1.value.request.endpoint.SearchArticles? ==> r.1.value.request.endpoint.keyword == keyword)
  {
    if tab == HomeFeed.Recommend && prevKeyword != keyword then
      var idle := HomeFeed.Feed([], false, true, 0);
      var (f, q) := HomeFeed.Begin(idle, 0, keyword, true);
      (Controller(f, c.generation + 1), Some(Tagged(q.value, c.generation + 1)))
    else (c, None)
  }

  /** A reply: applied as before when it belongs to the current
      generation, dropped otherwise. */
  function Complete(c: Controller, q: Tagged, outcome: Result<ArticleService.Listing>): (r: Controller)
    ensures q.generation != c.generation ==> r == c
    ensures q.generation == c.generation ==> r == Controller(HomeFeed.Complete(c.feed, q.request, outcome), c.generation)
  {
    if q.generation != c.generation then c
    else Controller(HomeFeed.Complete(c.feed, q.request, outcome), c.generation)
  }

  /** Replies arriving one after another. */
  function CompleteAll(c: Controller, replies: seq<(Tagged, Result<ArticleService.Listing>)>): Controller
    decreases |replies|
  {
    if |replies| == 0 then c
    else CompleteAll(Complete(c, replies[0].0, replies[0].1), replies[1..])
  }

  /** Replies from earlier generations, in any number and order, change
      nothing. */
  lemma {:induction false} StaleRepliesIgnored(c: Controller, replies: seq<(Tagged, Result<ArticleService.Listing>)>)
    requires forall i :: 0 <= i < |replies| ==> replies[i].0.generation < c.generation
    ensures CompleteAll(c, replies) == c
    decreases |replies|
  {
    if |replies| > 0 {
      assert Complete(c, replies[0].0, replies[0].1) == c;
      StaleRepliesIgnored(c, replies[1..]);
    }
  }

  /** The last reset wins: whatever older replies arrive around it, once
      the reset's own request is answered with a list, that list is the
      feed. */
  lemma LastResetWins(c: Controller, prevKeyword: string, keyword: string,
                      before: seq<(Tagged, Result<ArticleService.Listing>)>, outcome: Result<ArticleService.Listing>)
    requires prevKeyword != keyword
    requires forall i :: 0 <= i < |before| ==> before[i].0.generation <= c.generation
    requires outcome.Ok? && outcome.value.list.Some?
    ensures var (c1, q) := Reset(c, HomeFeed.Recommend, prevKeyword, keyword);
      var c2 := Complete(CompleteAll(c1, before), q.value, outcome);
      c2.feed.list == outcome.value.list.value && !c2.feed.loading && c2.feed.page == 1
  {
    var (c1, q) := Reset(c, HomeFeed.Recommend, prevKeyword, keyword);
    StaleRepliesIgnored(c1, before);
  }

  /** The run that loses the search in the written feed: here the search
      for "rust" is requested, the first page of all articles is dropped,
      and the search results are what the feed shows. */
  lemma SearchNotLost(a: RawArticle, b: RawArticle)
    ensures var (c1, q1) := Load(Initial, 0, "");
      var (c2, q2) := Reset(c1, HomeFeed.Recommend, "", "rust");
      var c3 := Complete(c2, q1.value, Ok(ArticleService.Listing(Some([a]), None, None, None)));
      var c4 := Complete(c3, q2.value, Ok(ArticleService.Listing(Some([b]), None, None, None)));
      && q2.Some? && q2.value.request.endpoint == HomeFeed.SearchArticles("rust")
      && c3 == c2
      && c4.feed.list == [b]
  {
  }
}

=== FILE: hot_blogs.dfy ===
/** The hot-blogs page: the articles of the hot endpoint with more than a
    thousand views, mapped to cards without covers, shown fifty at a time. */
module HotBlogs {
  import opened Wrappers
  import opened Seqs
  import opened Dates
  import opened Records
  import opened Http
  import opened ArticleService

  const ViewThreshold: int := 1000
  const PageSize: nat := 50
  const UnknownAuthor: string := "未知作者"

  /** The page: the mapped list, the loading flag and the window size. */
  datatype State = State(list: seq<Card>, loading: bool, maxItems: nat)

  const Initial: State := State([], true, PageSize)

  /** `art.views || art.articleViews || 0`. */
  function ViewsOf(a: RawArticle): int {
    OrZero(NumOrElse(a.views, a.articleViews))
  }

  /** The filter test: more than a thousand views. */
  predicate IsHot(a: RawArticle) {
    ViewsOf(a) > ViewThreshold
  }

  /** The card of a hot article: short field names first, the cover
      always empty, counters defaulting to 0. `nowText` is what the date
      falls back to when the article's date does not parse. */
  function HotCard(a: RawArticle, nowText: string): (r: Card)
    ensures r.articleId == NumOrElse(a.id, a.articleId)
    ensures r.articleTitle == OrElse(a.title, a.articleTitle)
    ensures r.articleContent == Or(OrElse(a.summary, a.articleContent), "")
    ensures r.articleCover == Some("")
    ensures r.userName == Or(OrElse(a.author, OrElse(a.userName, a.username)), UnknownAuthor)
    ensures r.articleCreatedAt == SafeFormatDate(StampOr(a.createdAt, a.articleCreatedAt), nowText)
    ensures r.articleTopics == ListOr(ListOrElse(a.topics, a.articleTopics))
    ensures r.articleLikes == Some(OrZero(NumOrElse(a.likes, a.articleLikes)))
    ensures r.articleCollects == Some(OrZero(NumOrElse(a.favorites, a.articleCollects)))
    ensures r.articleViews == Some(ViewsOf(a))
  {
    Card(NumOrElse(a.id, a.articleId), OrElse(a.title, a.articleTitle),
         Or(OrElse(a.summary, a.articleContent), ""), Some(""),
         Or(OrElse(a.author, OrElse(a.userName, a.username)), UnknownAuthor),
         SafeFormatDate(StampOr(a.createdAt, a.articleCreatedAt), nowText),
         ListOr(ListOrElse(a.topics, a.articleTopics)),
         Some(OrZero(NumOrElse(a.likes, a.articleLikes))),
         Some(OrZero(NumOrElse(a.favorites, a.articleCollects))),
         Some(ViewsOf(a)))
  }

  /** The hot articles, in the server's order. */
  function HotOnly(data: seq<RawArticle>): (r: seq<RawArticle>)
    ensures forall i :: 0 <= i < |r| ==> IsHot(r[i])
  {
    Filter(data, (a: RawArticle) => IsHot(a))
  }

  /** `fetchHotArticles`: the hot articles mapped to cards; any failure
      leaves an empty list. A missing `data` reads as `[]`. */
  function Fetch(s: State, reply: Reply<Listing>, nowText: string): (r: State)
    ensures !r.loading && r.maxItems == s.maxItems
    ensures GetHot(reply).Err? ==> r.list == []
    ensures GetHot(reply).Ok? ==>
      var hot := HotOnly(ListOr(GetHot(reply).value));
      |r.list| == |hot| && forall i :: 0 <= i < |hot| ==> r.list[i] == HotCard(hot[i], nowText)
    ensures forall i :: 0 <= i < |r.list| ==> r.list[i].articleViews.Some? && r.list[i].articleViews.value > ViewThreshold
  {
    match GetHot(reply)
    case Err(_) => s.(list := [], loading := false)
    case Ok(data) =>
      var hot := HotOnly(ListOr(data));
      s.(list := Map(hot, (a: RawArticle) => HotCard(a, nowText)), loading := false)
  }

  /** The filter keeps exactly the hot articles, every copy of each. */
  lemma HotFilterExact(data: seq<RawArticle>, a: RawArticle)
    ensures a in HotOnly(data) <==> a in data && IsHot(a)
    ensures IsHot(a) ==> multiset(HotOnly(data))[a] == multiset(data)[a]
  {
    FilterMembership(data, (x: RawArticle) => IsHot(x), a);
    FilterCount(data, (x: RawArticle) => IsHot(x), a);
  }

  /** What the page renders once loaded. */
  datatype View = Loading | NoneHot | Cards(cards: seq<Card>, moreButton: bool)

  /** The first `maxItems` cards, and the button while some are hidden. */
  function Render(s: State): (r: View)
    ensures r.Loading? <==> s.loading
    ensures r.NoneHot? <==> !s.loading && |s.list| == 0
    ensures r.Cards? ==> r.cards == Take(s.list, s.maxItems) && (r.moreButton <==> |s.list| > s.maxItems)
  {
    if s.loading then Loading
    else if |s.list| == 0 then NoneHot
    else Cards(Take(s.list, s.maxItems), |s.list| > s.maxItems)
  }

  /** The "load more" button: fifty more, capped at the list length. */
  function LoadMore(s: State): (r: State)
    ensures r.list == s.list && r.loading == s.loading
    ensures r.maxItems <= |s.list|
    ensures |s.list| > s.maxItems ==> s.maxItems < r.maxItems <= s.maxItems + PageSize
  {
    s.(maxItems := Min(s.maxItems + PageSize, |s.list|))
  }

  /** A click on the button (it is shown only while cards are hidden)
      keeps the cards already shown in front and adds up to fifty. */
  lemma LoadMoreExtends(s: State)
    requires Render(s).Cards? && Render(s).moreButton
    ensures Render(LoadMore(s)).Cards?
    ensures Render(s).cards < Render(LoadMore(s)).cards
    ensures |Render(LoadMore(s)).cards| <= |Render(s).cards| + PageSize
  {
    var t := LoadMore(s);
    assert Take(s.list, s.maxItems) == s.list[..s.maxItems];
    assert Take(t.list, t.maxItems) == s.list[..t.maxItems];
  }
}

=== FILE: http.dfy ===
/** What a `fetch` call can come back with, and the response checks the
    services share. */
module Http {
  import opened Wrappers
  import opened Strings

  /** A parsed JSON body: the `success` flag, the optional `message`, and
      the endpoint-specific rest of the object. */
  datatype Body<P> = Body(success: bool, message: Option<string>, payload: P)

  /** The outcome of a `fetch`: a rejected promise (the network failed), or
      a response with its status, its raw text and its JSON body (None when
      the text is not valid JSON). */
  datatype Reply<P> =
    | NetworkFailure(reason: string)
    | Response(status: nat, text: string, body: Option<Body<P>>)

  /** `response.ok`. */
  predicate IsOk(status: nat) {
    200 <= status <= 299
  }

  /** The message of the SyntaxError `response.json()` throws on a body
      that is not JSON. The engine chooses the text; it is a constant here. */
  const InvalidJson: string := "Unexpected token in JSON"

  /** The message of the TypeError thrown when code reads a property of, or
      maps over, a missing value. */
  const MissingValue: string := "Cannot read properties of undefined"

  /** The `HTTP错误: <status>` message the services throw on a non-ok
      status. */
  function HttpError(status: nat): string {
    "HTTP错误: " + NatToString(status)
  }

  /** `data.message || fallback` for a parsed body. */
  function MessageOr<P>(b: Body<P>, fallback: string): (r: string)
    ensures b.message.Some? && b.message.value != "" ==> r == b.message.value
    ensures (b.message.None? || b.message.value == "") ==> r == fallback
  {
    if b.message.Some? && b.message.value != "" then b.message.value else fallback
  }

  /** The pattern every article and comment service method follows: a
      rejected fetch propagates, a non-ok status throws `HTTP错误: <status>`,
      an unparsable body throws, a body with `success` false throws its
      message or `fallback`, and otherwise the parsed body is returned. */
  function Checked<P>(reply: Reply<P>, fallback: string): (r: Result<Body<P>>)
    ensures r.Ok? <==> reply.Response? && IsOk(reply.status) && reply.body.Some? && reply.body.value.success
    ensures r.Ok? ==> r.value == reply.body.value
    ensures reply.Response? && !IsOk(reply.status) ==> r == Err(HttpError(reply.status))
    ensures reply.Response? && IsOk(reply.status) && reply.body.Some? && !reply.body.value.success
      ==> r == Err(MessageOr(reply.body.value, fallback))
  {
    match reply
    case NetworkFailure(m) => Err(m)
    case Response(status, _, body) =>
      if !IsOk(status) then Err(HttpError(status))
      else match body
        case None => Err(InvalidJson)
        case Some(b) => if !b.success then Err(MessageOr(b, fallback)) else Ok(b)
  }
}

=== FILE: images.dfy ===
/** Cover-image addresses: an uploaded cover is stored as a path on the API
    host and shown through that host; absent covers show a default
    picture. `imageUtils.getImageUrl` and the detail page's `getCoverUrl`
    do this; the article card's own helper is in `ArticleCard`. */
module Images {
  import opened Wrappers
  import opened Records

  const DefaultCover: string := "/default-cover.jpg"
  const ApiHost: string := "http://localhost:4000"

  /** A cover value that names no picture: missing, empty, or the texts an
      absent value prints as. */
  predicate NoCover(p: Option<string>) {
    !Present(p) || p.value == "undefined" || p.value == "null"
  }

  /** The path with one '/' in front when it has none. */
  function Rooted(p: string): (r: string)
    ensures "/" <= r
    ensures "/" <= p ==> r == p
    ensures !("/" <= p) ==> r == "/" + p
  {
    if "/" <= p then p else "/" + p
  }

  /** `getImageUrl(coverPath)` of `utils/imageUtils.js`. */
  function GetImageUrl(p: Option<string>): (r: string)
    ensures NoCover(p) ==> r == DefaultCover
    ensures !NoCover(p) && "http" <= p.value ==> r == p.value
    ensures !NoCover(p) && !("http" <= p.value) ==> r == ApiHost + Rooted(p.value)
  {
    if !Present(p) || p.value == "undefined" || p.value == "null" || p.value == "" then DefaultCover
    else if "http" <= p.value then p.value
    else ApiHost + Rooted(p.value)
  }

  /** `getCoverUrl(coverPath)` of the article page, written without the
      separate `''` test. */
  function GetCoverUrl(p: Option<string>): (r: string)
    ensures NoCover(p) ==> r == DefaultCover
    ensures !NoCover(p) && "http" <= p.value ==> r == p.value
    ensures !NoCover(p) && !("http" <= p.value) ==> r == ApiHost + Rooted(p.value)
  {
    if !Present(p) || p.value == "undefined" || p.value == "null" then DefaultCover
    else if "http" <= p.value then p.value
    else ApiHost + Rooted(p.value)
  }

  /** The two helpers agree on every input: the extra `''` test of the
      first is already covered by its falsy test. */
  lemma CoverHelpersAgree(p: Option<string>)
    ensures GetImageUrl(p) == GetCoverUrl(p)
  {
  }

  /** A relative path written with or without its leading '/' shows the
      same picture. */
  lemma LeadingSlashIrrelevant(p: string)
    requires !NoCover(Some(p)) && !("http" <= p) && !("/" <= p)
    ensures GetImageUrl(Some(p)) == GetImageUrl(Some("/" + p)) == ApiHost + "/" + p
  {
    assert ("/" + p)[0] == '/';
    assert !("http" <= "/" + p);
  }

  /** A host-relative address can be read back: the path behind the host
      is the stored path, rooted. */
  lemma HostedPathRecovered(p: string)
    requires !NoCover(Some(p)) && !("http" <= p)
    ensures var r := GetImageUrl(Some(p));
      ApiHost <= r && r[|ApiHost|..] == Rooted(p)
  {
  }
}

=== FILE: myblog_home.dfy ===
/** The personal blog's home page: the tab that picks the published list
    or the drafts, and the "load more" window over the picked list. */
module MyblogHome {
  import opened Wrappers
  import opened Seqs
  import opened Records
  import opened MyblogLists

  /** How many more cards each "load more" shows, and how many show first. */
  const PerPage: nat := 5

  datatype Tab = Published | Drafts

  /** An entry of either list. */
  datatype Listed = Article(article: ArticleEntry) | Draft(draft: DraftEntry)

  /** The page's own state: the active tab, the window size and the
      `loadingMore` flag. */
  datatype Page = Page(tab: Tab, visible: nat, loadingMore: bool)

  const Initial: Page := Page(Published, PerPage, false)

  /** `currentList`, `currentLoading` and `currentError`: all three come
      from the hook of the active tab. */
  function Current(tab: Tab, articles: ListState<ArticleEntry>, drafts: ListState<DraftEntry>): (r: ListState<Listed>)
    ensures tab == Published ==>
      (r.loading == articles.loading && r.error == articles.error && |r.list| == |articles.list|
       && forall i :: 0 <= i < |r.list| ==> r.list[i] == Article(articles.list[i]))
    ensures tab == Drafts ==>
      (r.loading == drafts.loading && r.error == drafts.error && |r.list| == |drafts.list|
       && forall i :: 0 <= i < |r.list| ==> r.list[i] == Draft(drafts.list[i]))
  {
    match tab
    case Published => ListState(Map(articles.list, (a: ArticleEntry) => Article(a)), articles.loading, articles.error)
    case Drafts => ListState(Map(drafts.list, (d: DraftEntry) => Draft(d)), drafts.loading, drafts.error)
  }

  /** A click on "load more" with `length` entries in the current list: a
      no-op while a load is pending or when everything is shown; otherwise
      the delayed load is started. */
  function LoadMoreClick(p: Page, length: nat): (r: Page)
    ensures (p.loadingMore || p.visible >= length) ==> r == p
    ensures !(p.loadingMore || p.visible >= length) ==> r == p.(loadingMore := true)
  {
    if p.loadingMore || p.visible >= length then p else p.(loadingMore := true)
  }

  /** The delayed load firing: five more entries, never more than the
      `length` the click saw, and the pending flag cleared. */
  function LoadMoreFire(p: Page, length: nat): (r: Page)
    ensures r.visible <= length && !r.loadingMore && r.tab == p.tab
    ensures r.visible == p.visible + PerPage || r.visible == length
    ensures p.visible <= length ==> p.visible <= r.visible
  {
    p.(visible := Min(p.visible + PerPage, length), loadingMore := false)
  }

  /** `setActiveTab(t)` followed by the effect on `activeTab`: a new tab
      shows the first five entries again; picking the active tab changes
      nothing. */
  function SwitchTab(p: Page, t: Tab): (r: Page)
    ensures r.tab == t && r.loadingMore == p.loadingMore
    ensures t != p.tab ==> r.visible == PerPage
    ensures t == p.tab ==> r == p
  {
    if t == p.tab then p else p.(tab := t, visible := PerPage)
  }

  /** What the page renders below its header. */
  datatype View =
    | Loading
    | Failed(message: string)
    | Empty(tab: Tab)
    | Cards(cards: seq<Listed>, moreButton: bool)

  /** The render: loading first (the user or the list), then a non-empty error,
      then an empty notice or the first `visible` cards and, when some are
      hidden, the "load more" button. */
  function Render(p: Page, userLoading: bool, articles: ListState<ArticleEntry>, drafts: ListState<DraftEntry>): (r: View)
    ensures var c := Current(p.tab, articles, drafts);
      && (r.Loading? <==> userLoading || c.loading)
      && (r.Failed? <==> !userLoading && !c.loading && Present(c.error))
      && (r.Cards? ==> r.cards == Take(c.list, p.visible) && (r.moreButton <==> p.visible < |c.list|))
      && (r.Empty? <==> !userLoading && !c.loading && !Present(c.error) && |c.list| == 0)
  {
    var c := Current(p.tab, articles, drafts);
    if userLoading || c.loading then Loading
    else if Present(c.error) then Failed(c.error.value)
    else if |c.list| == 0 then Empty(p.tab)
    else Cards(Take(c.list, p.visible), p.visible < |c.list|)
  }

  /** `k` rounds of clicking "load more" and letting the load fire. */
  function Rounds(p: Page, length: nat, k: nat): Page
    decreases k
  {
    if k == 0 then p
    else
      var q := LoadMoreClick(p, length);
      Rounds(if q.loadingMore && !p.loadingMore then LoadMoreFire(q, length) else q, length, k - 1)
  }

  /** After `k` rounds from an idle page, the window has grown by five
      per round up to the length of the list, and a window already past the
      end stays as it was. */
  lemma {:induction false} RoundsWindow(p: Page, length: nat, k: nat)
    requires !p.loadingMore
    ensures Rounds(p, length, k).visible == if p.visible >= length then p.visible else Min(p.visible + PerPage * k, length)
    ensures !Rounds(p, length, k).loadingMore && Rounds(p, length, k).tab == p.tab
    decreases k
  {
    if k > 0 {
      var q := LoadMoreClick(p, length);
      if p.visible >= length {
        assert q == p;
        RoundsWindow(p, length, k - 1);
      } else {
        var f := LoadMoreFire(q, length);
        RoundsWindow(f, length, k - 1);
        if f.visible >= length {
          assert Min(p.visible + PerPage * k, length) == length;
        } else {
          assert f.visible == p.visible + PerPage;
          assert f.visible + PerPage * (k - 1) == p.visible + PerPage * k;
        }
      }
    }
  }

  /** Enough rounds show the whole list and hide the button. */
  lemma LoadMoreShowsAll(p: Page, userLoading: bool, articles: ListState<ArticleEntry>, drafts: ListState<DraftEntry>, k: nat)
    requires !p.loadingMore
    requires var n := |Current(p.tab, articles, drafts).list|; p.visible + PerPage * k >= n
    ensures var c := Current(p.tab, articles, drafts);
      var r := Render(Rounds(p, |c.list|, k), userLoading, articles, drafts);
      r.Cards? ==> r.cards == c.list && !r.moreButton
  {
    var c := Current(p.tab, articles, drafts);
    RoundsWindow(p, |c.list|, k);
  }
}

=== FILE: myblog_lists.dfy ===
/** The two list hooks of the personal blog: `useMyblogArticles` (the
    signed-in author's published articles) and `useMyblogDrafts` (their
    drafts). Both fetch once, map each article to an entry, and report
    failures in `error`; they differ in what a failure does to the list. */
module MyblogLists {
  import opened Wrappers
  import opened Strings
  import opened Seqs
  import opened Dates
  import opened Records
  import opened Http

  const NotSignedIn: string := "用户未登录"

  /** The TypeError `article.articleId.toString()` throws for an article
      without an id. */
  const MissingId: string := "Cannot read properties of undefined (reading 'toString')"

  /** A published article as the page lists it. `file` is the id as text;
      `raw` is the article as it came. */
  datatype ArticleEntry = ArticleEntry(
    file: string, title: Option<string>, date: string, content: Option<string>,
    category: Option<string>, topics: seq<string>, likes: int, collects: int,
    views: int, cover: Option<string>, raw: RawArticle)

  /** A draft as the page lists it; `status` is copied as it came. */
  datatype DraftEntry = DraftEntry(
    file: string, title: Option<string>, content: Option<string>, date: string,
    topics: seq<string>, likes: int, views: int, collects: int, status: Option<string>)

  /** A list hook's state. */
  datatype ListState<E> = ListState(list: seq<E>, loading: bool, error: Option<string>)

  /** Both hooks start loading with an empty list. */
  function Initial<E>(): ListState<E> {
    ListState([], true, None)
  }

  /** The id as `toString()` prints it. Only articles with an id get this
      far: the mapping throws on the others first. */
  function FileOf(a: RawArticle): (r: string)
    ensures a.articleId.Some? ==> ParseInt(r) == a.articleId
  {
    var n := a.articleId.GetOr(0);
    ParseIntOfIntToString(n);
    IntToString(n)
  }

  /** One article mapped for the published list. The creation date's
      locale rendering is `localeText`, which is not part of this model. */
  function ArticleEntryOf(a: RawArticle, localeText: Option<Stamp> -> string): (r: ArticleEntry)
    ensures a.articleId.Some? ==> ParseInt(r.file) == a.articleId
    ensures r.raw == a && r.date == localeText(a.articleCreatedAt)
    ensures r.title == a.articleTitle && r.content == a.articleContent
    ensures r.category == a.articleCategory && r.cover == a.articleCover
    ensures r.topics == ListOr(a.articleTopics)
    ensures r.likes == OrZero(a.articleLikes) && r.collects == OrZero(a.articleCollects)
    ensures r.views == OrZero(a.articleViews)
  {
    ArticleEntry(FileOf(a), a.articleTitle, localeText(a.articleCreatedAt), a.articleContent,
                 a.articleCategory, ListOr(a.articleTopics), OrZero(a.articleLikes),
                 OrZero(a.articleCollects), OrZero(a.articleViews), a.articleCover, a)
  }

  /** One article mapped for the draft list, dated by its last update. */
  function DraftEntryOf(a: RawArticle, localeText: Option<Stamp> -> string): (r: DraftEntry)
    ensures a.articleId.Some? ==> ParseInt(r.file) == a.articleId
    ensures r.date == localeText(a.articleUpdatedAt)
    ensures r.title == a.articleTitle && r.content == a.articleContent
    ensures r.topics == ListOr(a.articleTopics) && r.status == a.articleStatus
    ensures r.likes == OrZero(a.articleLikes) && r.collects == OrZero(a.articleCollects)
    ensures r.views == OrZero(a.articleViews)
  {
    DraftEntry(FileOf(a), a.articleTitle, a.articleContent, localeText(a.articleUpdatedAt),
               ListOr(a.articleTopics), OrZero(a.articleLikes), OrZero(a.articleViews),
               OrZero(a.articleCollects), a.articleStatus)
  }

  /** Every article has an id. */
  predicate AllHaveIds(articles: seq<RawArticle>) {
    forall i :: 0 <= i < |articles| ==> articles[i].articleId.Some?
  }

  /** `data.articles.map(...)` for the published list: one entry per
      article, in order; an article without an id throws. */
  function MapArticles(articles: seq<RawArticle>, localeText: Option<Stamp> -> string): (r: Result<seq<ArticleEntry>>)
    ensures r.Ok? <==> AllHaveIds(articles)
    ensures r.Err? ==> r.message == MissingId
    ensures r.Ok? ==> |r.value| == |articles|
    ensures r.Ok? ==> forall i :: 0 <= i < |articles| ==> r.value[i] == ArticleEntryOf(articles[i], localeText)
  {
    if AllHaveIds(articles) then Ok(Map(articles, (a: RawArticle) => ArticleEntryOf(a, localeText)))
    else Err(MissingId)
  }

  /** `result.articles.map(...)` for the drafts. */
  function MapDrafts(articles: seq<RawArticle>, localeText: Option<Stamp> -> string): (r: Result<seq<DraftEntry>>)
    ensures r.Ok? <==> AllHaveIds(articles)
    ensures r.Err? ==> r.message == MissingId
    ensures r.Ok? ==> |r.value| == |articles|
    ensures r.Ok? ==> forall i :: 0 <= i < |articles| ==> r.value[i] == DraftEntryOf(articles[i], localeText)
  {
    if AllHaveIds(articles) then Ok(Map(articles, (a: RawArticle) => DraftEntryOf(a, localeText)))
    else Err(MissingId)
  }

  /** The published list read back from the reply to
      `GET /api/articles/my/articles`, whose `articles` field is the
      payload. A non-ok status throws `HTTP错误: <status> - <text>`. */
  function ArticlesOf(reply: Reply<Option<seq<RawArticle>>>, localeText: Option<Stamp> -> string): (r: Result<seq<ArticleEntry>>)
    ensures reply.Response? && !IsOk(reply.status) ==>
      r == Err(HttpError(reply.status) + " - " + reply.text)
    ensures r.Ok? ==> reply.Response? && IsOk(reply.status) && reply.body.Some? && reply.body.value.success
    ensures reply.Response? && IsOk(reply.status) && reply.body.Some? && !reply.body.value.success ==>
      r == Err(MessageOr(reply.body.value, "获取文章失败"))
  {
    match reply
    case NetworkFailure(m) => Err(m)
    case Response(status, text, body) =>
      if !IsOk(status) then Err(HttpError(status) + " - " + text)
      else match body
        case None => Err(InvalidJson)
        case Some(b) =>
          if !b.success then Err(MessageOr(b, "获取文章失败"))
          else match b.payload
            case None => Err(MissingValue)
            case Some(articles) => MapArticles(articles, localeText)
  }

  /** `fetchMyArticles`: without a token nothing is requested; every
      failure shows its message over an empty list. */
  function FetchArticles(s: ListState<ArticleEntry>, hasToken: bool, reply: Reply<Option<seq<RawArticle>>>,
                         localeText: Option<Stamp> -> string): (r: ListState<ArticleEntry>)
    ensures !r.loading
    ensures !hasToken ==> r == ListState([], false, Some(NotSignedIn))
    ensures hasToken ==> (r.error.None? <==> ArticlesOf(reply, localeText).Ok?)
    ensures hasToken && ArticlesOf(reply, localeText).Ok? ==> r.list == ArticlesOf(reply, localeText).value
    ensures r.error.Some? ==> r.list == []
  {
    if !hasToken then ListState([], false, Some(NotSignedIn))
    else match ArticlesOf(reply, localeText)
      case Ok(list) => ListState(list, false, None)
      case Err(m) => ListState([], false, Some(m))
  }

  /** The drafts read back from `GET /api/articles/my/drafts`. A non-ok
      status throws the fixed message without reading the body. */
  function DraftsOf(reply: Reply<Option<seq<RawArticle>>>, localeText: Option<Stamp> -> string): (r: Result<seq<DraftEntry>>)
    ensures reply.Response? && !IsOk(reply.status) ==> r == Err("获取草稿失败")
    ensures r.Ok? ==> reply.Response? && IsOk(reply.status) && reply.body.Some? && reply.body.value.success
    ensures reply.Response? && IsOk(reply.status) && reply.body.Some? && !reply.body.value.success ==>
      r == Err(MessageOr(reply.body.value, "获取草稿失败"))
  {
    match reply
    case NetworkFailure(m) => Err(m)
    case Response(status, _, body) =>
      if !IsOk(status) then Err("获取草稿失败")
      else match body
        case None => Err(InvalidJson)
        case Some(b) =>
          if !b.success then Err(MessageOr(b, "获取草稿失败"))
          else match b.payload
            case None => Err(MissingValue)
            case Some(articles) => MapDrafts(articles, localeText)
  }

  /** `fetchDrafts`: without a token nothing is requested and the drafts
      stay as they are; a failure sets only the error. */
  function FetchDrafts(s: ListState<DraftEntry>, hasToken: bool, reply: Reply<Option<seq<RawArticle>>>,
                       localeText: Option<Stamp> -> string): (r: ListState<DraftEntry>)
    ensures !r.loading
    ensures !hasToken ==> r == ListState(s.list, false, Some(NotSignedIn))
    ensures hasToken ==> (r.error.None? <==> DraftsOf(reply, localeText).Ok?)
    ensures hasToken && DraftsOf(reply, localeText).Ok? ==> r.list == DraftsOf(reply, localeText).value
    ensures r.error.Some? ==> r.list == s.list
  {
    if !hasToken then s.(loading := false, error := Some(NotSignedIn))
    else match DraftsOf(reply, localeText)
      case Ok(list) => ListState(list, false, None)
      case Err(m) => s.(loading := false, error := Some(m))
  }

  /** The entries the published list shows name their articles: reading
      each `file` back gives that article's id, in the order the server
      sent them. */
  lemma ArticleFilesAreIds(articles: seq<RawArticle>, localeText: Option<Stamp> -> string, i: nat)
    requires MapArticles(articles, localeText).Ok? && i < |articles|
    ensures ParseInt(MapArticles(articles, localeText).value[i].file) == articles[i].articleId
    ensures MapArticles(articles, localeText).value[i].raw == articles[i]
  {
  }

  /** Two drafts with different ids never share a `file`. */
  lemma DraftFilesDistinct(articles: seq<RawArticle>, localeText: Option<Stamp> -> string, i: nat, j: nat)
    requires MapDrafts(articles, localeText).Ok? && i < |articles| && j < |articles|
    requires articles[i].articleId != articles[j].articleId
    ensures MapDrafts(articles, localeText).value[i].file != MapDrafts(articles, localeText).value[j].file
  {
    assert articles[i].articleId.Some? && articles[j].articleId.Some?;
  }
}

=== FILE: publish.dfy ===
/** The article editor: tag parsing, the draft and publish checks, the
    cover-file checks, the request body, the submit decision, and loading an
    article for editing. */
module Publish {
  import opened Wrappers
  import opened Strings
  import opened Records
  import opened Seqs
  import opened Http

  const MaxTags: nat := 5
  const DefaultCategory: string := "前端开发"
  const MaxCoverBytes: nat := 5 * 1024 * 1024
  const MaxTitleLength: nat := 100
  const ApiHost: string := "http://localhost:4000"

  /** `x && x.trim().length > 0`. */
  predicate HasText(s: Option<string>) {
    s.Some? && Trim(s.value) != ""
  }

  /** `pieces.map(tag => tag.trim()).filter(tag => tag)`, fused: each
      piece trimmed, the empty ones dropped, the order kept. */
  function CleanPieces(ps: seq<string>): (r: seq<string>)
    ensures |r| <= |ps|
    ensures forall i :: 0 <= i < |r| ==> r[i] != "" && IsTrimmed(r[i])
    decreases |ps|
  {
    if |ps| == 0 then []
    else
      var t := Trim(ps[0]);
      if t == "" then CleanPieces(ps[1..]) else [t] + CleanPieces(ps[1..])
  }

  /** Pieces that trim to non-empty tags are cleaned to exactly those tags. */
  lemma {:induction false} CleanPiecesExact(ps: seq<string>, ts: seq<string>)
    requires |ps| == |ts|
    requires forall i :: 0 <= i < |ps| ==> Trim(ps[i]) == ts[i] && ts[i] != ""
    ensures CleanPieces(ps) == ts
    decreases |ps|
  {
    if |ps| > 0 {
      CleanPiecesExact(ps[1..], ts[1..]);
    }
  }

  /** `formatTags(tagsStr)`: no tags for a falsy input; otherwise the
      comma-separated pieces, trimmed, without the empty ones, at most five,
      in the order written. */
  function FormatTags(tags: Option<string>): (r: seq<string>)
    ensures !Present(tags) ==> r == []
    ensures |r| <= MaxTags
    ensures forall i :: 0 <= i < |r| ==> r[i] != "" && IsTrimmed(r[i])
  {
    if !Present(tags) then []
    else Take(CleanPieces(Split(tags.value, ',')), MaxTags)
  }

  /** The tags written back with a space after each comma. */
  function Spaced(ts: seq<string>): (r: seq<string>)
    ensures |r| == |ts|
    decreases |ts|
  {
    if |ts| == 0 then [] else [" " + ts[0]] + Spaced(ts[1..])
  }

  lemma {:induction false} SpacedAt(ts: seq<string>, i: nat)
    requires i < |ts|
    ensures Spaced(ts)[i] == [' '] + ts[i]
    decreases |ts|
  {
    if i > 0 {
      SpacedAt(ts[1..], i - 1);
    }
  }

  lemma {:induction false} JoinSpaced(ts: seq<string>)
    requires |ts| >= 1
    ensures Join(Spaced(ts), ",") == " " + Join(ts, ", ")
    decreases |ts|
  {
    if |ts| > 1 {
      var tail := Join(ts[1..], ", ");
      assert Spaced(ts)[1..] == Spaced(ts[1..]);
      JoinSpaced(ts[1..]);
      GlueShift(" " + ts[0], tail);
    }
  }

  /** Moving the space from the front of the next piece into the glue. */
  lemma GlueShift(head: string, tail: string)
    ensures head + "," + (" " + tail) == head + ", " + tail
  {
  }

  /** A clean tag: non-empty, no surrounding whitespace, no comma. */
  predicate CleanTag(t: string) {
    t != "" && IsTrimmed(t) && ',' !in t
  }

  /** The pieces `split(',')` finds in tags joined with ", ": the first
      tag, then each later tag behind one space. */
  function Pieces(ts: seq<string>): (r: seq<string>)
    requires |ts| >= 1
    ensures |r| == |ts|
  {
    [ts[0]] + Spaced(ts[1..])
  }

  lemma PiecesAt(ts: seq<string>, i: nat)
    requires 1 <= i < |ts|
    ensures Pieces(ts)[i] == [' '] + ts[i]
  {
    SpacedAt(ts[1..], i - 1);
  }

  lemma JoinPieces(ts: seq<string>)
    requires |ts| >= 1
    ensures Join(Pieces(ts), ",") == Join(ts, ", ")
  {
    if |ts| > 1 {
      var parts := Pieces(ts);
      assert parts[1..] == Spaced(ts[1..]);
      JoinSpaced(ts[1..]);
      GlueShift(ts[0], Join(ts[1..], ", "));
    }
  }

  lemma SplitOfJoin(ts: seq<string>)
    requires |ts| >= 1
    requires forall i :: 0 <= i < |ts| ==> CleanTag(ts[i])
    ensures Split(Join(ts, ", "), ',') == Pieces(ts)
  {
    JoinPieces(ts);
    PiecesHaveNoComma(ts);
    SplitJoin(Pieces(ts), ',');
  }

  lemma PiecesHaveNoComma(ts: seq<string>)
    requires |ts| >= 1
    requires forall i :: 0 <= i < |ts| ==> CleanTag(ts[i])
    ensures forall i :: 0 <= i < |ts| ==> ',' !in Pieces(ts)[i]
  {
    forall i | 0 <= i < |ts| ensures ',' !in Pieces(ts)[i] {
      if i > 0 { PiecesAt(ts, i); }
    }
  }

  lemma TrimPieces(ts: seq<string>)
    requires |ts| >= 1
    requires forall i :: 0 <= i < |ts| ==> CleanTag(ts[i])
    ensures forall i :: 0 <= i < |ts| ==> Trim(Pieces(ts)[i]) == ts[i]
  {
    forall i | 0 <= i < |ts| ensures Trim(Pieces(ts)[i]) == ts[i] {
      TrimPiece(ts, i);
    }
  }

  lemma TrimPiece(ts: seq<string>, i: nat)
    requires i < |ts| && IsTrimmed(ts[i])
    ensures Trim(Pieces(ts)[i]) == ts[i]
  {
    TrimTrimmed(ts[i]);
    if i > 0 {
      PiecesAt(ts, i);
      TrimSkipsLeadingSpace(' ', ts[i]);
    }
  }

  /** Editing round trip: the editor shows an article's tags joined with
      ", ", and submitting that text gives back the same tags, provided
      there are at most five clean ones. */
  lemma FormatTagsOfJoin(ts: seq<string>)
    requires |ts| <= MaxTags
    requires forall i :: 0 <= i < |ts| ==> CleanTag(ts[i])
    ensures FormatTags(Some(Join(ts, ", "))) == ts
  {
    if |ts| == 0 { return; }
    JoinNotEmpty(ts, ", ");
    CleanOfJoin(ts);
    TakeAll(ts, MaxTags);
  }

  lemma CleanOfJoin(ts: seq<string>)
    requires |ts| >= 1
    requires forall i :: 0 <= i < |ts| ==> CleanTag(ts[i])
    ensures CleanPieces(Split(Join(ts, ", "), ',')) == ts
  {
    SplitOfJoin(ts);
    CleanPiecesOfPieces(ts);
  }

  lemma CleanPiecesOfPieces(ts: seq<string>)
    requires |ts| >= 1
    requires forall i :: 0 <= i < |ts| ==> CleanTag(ts[i])
    ensures CleanPieces(Pieces(ts)) == ts
  {
    TrimPieces(ts);
    CleanPiecesExact(Pieces(ts), ts);
  }

  /** A join whose first part is non-empty is non-empty. */
  lemma JoinNotEmpty(ts: seq<string>, glue: string)
    requires |ts| >= 1 && ts[0] != ""
    ensures Join(ts, glue) != ""
  {
    if |ts| > 1 {
      assert Join(ts, glue) == ts[0] + glue + Join(ts[1..], glue);
    }
  }

  /** Cleaning works piece by piece: the tags of two runs of pieces are the
      tags of the first run followed by those of the second. */
  lemma {:induction false} CleanPiecesAppend(ps: seq<string>, qs: seq<string>)
    ensures CleanPieces(ps + qs) == CleanPieces(ps) + CleanPieces(qs)
    decreases |ps|
  {
    if |ps| == 0 {
      assert ps + qs == qs;
    } else {
      assert (ps + qs)[1..] == ps[1..] + qs;
      CleanPiecesAppend(ps[1..], qs);
    }
  }

  /** One piece gives its trimmed text as a tag, or nothing when it is blank. */
  lemma CleanPiecesOne(p: string)
    ensures Trim(p) == "" ==> CleanPieces([p]) == []
    ensures Trim(p) != "" ==> CleanPieces([p]) == [Trim(p)]
  {
    assert [p][1..] == [];
  }

  /** A blank piece anywhere among the others contributes no tag. */
  lemma CleanPiecesDropsBlank(ps: seq<string>, p: string, qs: seq<string>)
    requires Trim(p) == ""
    ensures CleanPieces(ps + [p] + qs) == CleanPieces(ps + qs)
  {
    CleanPiecesAppend(ps + [p], qs);
    CleanPiecesAppend(ps, [p]);
    CleanPiecesOne(p);
    CleanPiecesAppend(ps, qs);
  }

  /** Formatting any comma-separated text: the first five tags the cleaned
      pieces give, in the order written, blank pieces dropped. */
  lemma FormatTagsOfPieces(ps: seq<string>)
    requires |ps| >= 1
    requires forall i :: 0 <= i < |ps| ==> ',' !in ps[i]
    ensures FormatTags(Some(Join(ps, ","))) == Take(CleanPieces(ps), MaxTags)
  {
    SplitJoin(ps, ',');
    if Join(ps, ",") == "" {
      EmptyJoin(ps);
      CleanPiecesOne("");
    }
  }

  /** Only the one empty piece joins to the empty text. */
  lemma EmptyJoin(ps: seq<string>)
    requires |ps| >= 1 && Join(ps, ",") == ""
    ensures ps == [""]
  {
    if |ps| == 1 {
      assert Join(ps, ",") == ps[0];
    }
  }

  /** More than five clean tags joined with ", " keep only the first five. */
  lemma FormatTagsKeepsFirstFive(ts: seq<string>)
    requires |ts| >= 1
    requires forall i :: 0 <= i < |ts| ==> CleanTag(ts[i])
    ensures FormatTags(Some(Join(ts, ", "))) == Take(ts, MaxTags)
  {
    JoinNotEmpty(ts, ", ");
    CleanOfJoin(ts);
  }

  /** The editor's form fields. */
  datatype Form = Form(title: Option<string>, category: Option<string>, tags: Option<string>)

  const EmptyForm: Form := Form(Some(""), Some(DefaultCategory), Some(""))

  /** `isFormValidForDraft()`: a draft needs a title. */
  predicate DraftValid(f: Form) {
    HasText(f.title)
  }

  /** `isFormValidForPublish()`: publishing needs a title, content and a
      category. */
  predicate PublishValid(f: Form, content: string) {
    HasText(f.title) && HasText(Some(content)) && HasText(f.category)
  }

  lemma PublishValidIsDraftValid(f: Form, content: string)
    requires PublishValid(f, content)
    ensures DraftValid(f)
  {
  }

  /** The react-hook-form rules on the title, in the order they run:
      required, at most 100 characters, not only whitespace. */
  function TitleError(title: Option<string>): (r: Option<string>)
    ensures r.None? <==> Present(title) && |title.value| <= MaxTitleLength && Trim(title.value) != ""
    ensures r.None? ==> DraftValid(Form(title, None, None))
  {
    if !Present(title) then Some("标题不能为空")
    else if |title.value| > MaxTitleLength then Some("标题不能超过100个字符")
    else if Trim(title.value) == "" then Some("标题不能为空")
    else None
  }

  /** A chosen cover file: its MIME type and its size in bytes. */
  datatype CoverFile = CoverFile(mime: string, size: nat)

  /** The checks before a cover is uploaded. */
  function CheckCover(f: CoverFile): (r: Result<CoverFile>)
    ensures r.Ok? <==> "image/" <= f.mime && f.size <= MaxCoverBytes
    ensures !("image/" <= f.mime) ==> r == Err("请选择图片文件")
    ensures "image/" <= f.mime && f.size > MaxCoverBytes ==> r == Err("图片大小不能超过5MB")
  {
    if !("image/" <= f.mime) then Err("请选择图片文件")
    else if f.size > MaxCoverBytes then Err("图片大小不能超过5MB")
    else Ok(f)
  }

  /** The body sent to create or update an article. */
  datatype ArticleData = ArticleData(
    articleTitle: string, articleCover: string, articleContent: string,
    articleCategory: string, articleTopics: seq<string>, articleStatus: string)

  /** `prepareArticleData(data, status)`. */
  function PrepareArticleData(f: Form, coverUrl: string, content: string, status: string): (r: ArticleData)
    ensures r.articleTitle == if f.title.Some? then Trim(f.title.value) else ""
    ensures r.articleCover == coverUrl && r.articleContent == content
    ensures r.articleCategory == Or(f.category, DefaultCategory)
    ensures r.articleTopics == FormatTags(f.tags)
    ensures r.articleStatus == status
  {
    var topics := FormatTags(Some(Or(f.tags, "")));
    ArticleData(if f.title.Some? then Trim(f.title.value) else "", coverUrl, content,
                Or(f.category, DefaultCategory), topics, status)
  }

  /** What submitting does before the reply: refuse with a message, or send
      the body as an update of `id` or as a new article. */
  datatype Submission = Refused(message: string) | SendUpdate(id: string, data: ArticleData) | SendCreate(data: ArticleData)

  /** The first half of `onSubmit(data, status)`. */
  function Submit(f: Form, coverUrl: string, content: string, status: string,
                  hasToken: bool, isEditMode: bool, articleId: Option<string>): (r: Submission)
    // publishing needs content; a draft is not checked
    ensures status == "published" && !HasText(Some(content)) ==> r == Refused("文章内容不能为空")
    ensures (status != "published" || HasText(Some(content))) && !hasToken ==> r == Refused("用户未登录")
    ensures !r.Refused? ==> r.data == PrepareArticleData(f, coverUrl, content, status)
    ensures r.SendUpdate? <==> (status != "published" || HasText(Some(content))) && hasToken && isEditMode && Present(articleId)
    ensures r.SendUpdate? ==> r.id == articleId.value
  {
    if status == "published" && !HasText(Some(content)) then Refused("文章内容不能为空")
    else
      var data := PrepareArticleData(f, coverUrl, content, status);
      if !hasToken then Refused("用户未登录")
      else if isEditMode && Present(articleId) then SendUpdate(articleId.value, data)
      else SendCreate(data)
  }

  /** What the page does with the reply. */
  datatype Finished =
    | Failed(message: string)
    | Published                                    // form cleared, back to the blog home
    | DraftSaved(navigateTo: Option<string>)       // stays in edit mode, "草稿保存成功！"

  /** The second half of `onSubmit`: the body's `article` is the saved
      article. A reply that is not ok, or whose body says `success: false`,
      is a failure with the body's message or a default one. */
  function Finish(status: string, isEditMode: bool, reply: Reply<Option<RawArticle>>): (r: Finished)
    ensures r.Published? <==> status == "published" && reply.Response? && IsOk(reply.status)
                              && reply.body.Some? && reply.body.value.success
    ensures r.DraftSaved? <==> status != "published" && reply.Response? && IsOk(reply.status)
                               && reply.body.Some? && reply.body.value.success
    ensures r.DraftSaved? ==> (r.navigateTo.Some? <==> !isEditMode && reply.body.value.payload.Some?)
  {
    var verb := if status == "published" then "发布" else "保存";
    match reply
    case NetworkFailure(m) => Failed(Or(Some(m), verb + "失败，请稍后重试"))
    case Response(code, _, body) =>
      match body
      case None => Failed(InvalidJson)
      case Some(b) =>
        if !IsOk(code) || !b.success then Failed(MessageOr(b, verb + "失败"))
        else if status == "published" then Published
        else
          var target :=
            if !isEditMode && b.payload.Some? then
              Some("/myblog/publish?id=" + (match b.payload.value.articleId case Some(n) => IntToString(n) case None => "undefined"))
            else None;
          DraftSaved(target)
  }

  /** The id effect: a truthy `id` query value other than 'undefined'
      switches the page to edit mode and loads the article. */
  predicate EntersEditMode(urlId: Option<string>) {
    Present(urlId) && urlId.value != "undefined"
  }

  /** `fetchArticleData(id)` refuses a missing id and the texts 'undefined'
      and 'null'. */
  predicate ValidArticleId(id: Option<string>) {
    Present(id) && id.value != "undefined" && id.value != "null"
  }

  /** The literal 'null' reaches edit mode, and is then refused. */
  lemma NullIdEntersEditModeButIsRefused()
    ensures EntersEditMode(Some("null")) && !ValidArticleId(Some("null"))
  {
  }

  /** A valid id always enters edit mode. */
  lemma ValidIdEntersEditMode(id: Option<string>)
    requires ValidArticleId(id)
    ensures EntersEditMode(id)
  {
  }

  /** The editor after loading an article: the form, the content, and the
      cover URL and preview when the article has a cover. */
  datatype Loaded = Loaded(form: Form, content: string, cover: Option<(string, string)>)

  /** The fields `fetchArticleData` copies into the editor. */
  function EditorOf(a: RawArticle): (r: Loaded)
    ensures r.form.title == Some(Or(a.articleTitle, ""))
    ensures r.form.category == Some(Or(a.articleCategory, DefaultCategory))
    ensures r.form.tags == Some(if a.articleTopics.Some? then Join(a.articleTopics.value, ", ") else "")
    ensures r.content == Or(a.articleContent, "")
    ensures r.cover.Some? <==> Present(a.articleCover)
    ensures r.cover.Some? ==> r.cover.value == (a.articleCover.value, ApiHost + a.articleCover.value)
  {
    Loaded(
      Form(Some(Or(a.articleTitle, "")), Some(Or(a.articleCategory, DefaultCategory)),
           Some(if a.articleTopics.Some? then Join(a.articleTopics.value, ", ") else "")),
      Or(a.articleContent, ""),
      if Present(a.articleCover) then Some((a.articleCover.value, ApiHost + a.articleCover.value)) else None)
  }

  /** Opening an article and saving it unchanged sends back its topics,
      when it has at most five clean ones. */
  lemma EditKeepsTopics(a: RawArticle, status: string)
    requires a.articleTopics.Some? && |a.articleTopics.value| <= MaxTags
    requires forall i :: 0 <= i < |a.articleTopics.value| ==> CleanTag(a.articleTopics.value[i])
    ensures var e := EditorOf(a);
      PrepareArticleData(e.form, "", e.content, status).articleTopics == a.articleTopics.value
  {
    FormatTagsOfJoin(a.articleTopics.value);
  }
}

=== FILE: records.dfy ===
/** The JSON records the client and server exchange, and JavaScript's
    truthiness rules for the fields the code tests with `||` and `!`. */
module Records {
  import opened Wrappers
  import opened Strings
  import opened Dates

  /** A string field is truthy when it is defined and not "". */
  predicate Present(s: Option<string>) {
    s.Some? && s.value != ""
  }

  /** `a || b` on two optional string fields. */
  function OrElse(a: Option<string>, b: Option<string>): (r: Option<string>)
    ensures Present(a) ==> r == a
    ensures !Present(a) ==> r == b
  {
    if Present(a) then a else b
  }

  /** `a || fallback` ending in a string literal. */
  function Or(a: Option<string>, fallback: string): (r: string)
    ensures Present(a) ==> r == a.value
    ensures !Present(a) ==> r == fallback
  {
    if Present(a) then a.value else fallback
  }

  /** A numeric field is truthy when it is defined and not 0. */
  predicate NumPresent(n: Option<int>) {
    n.Some? && n.value != 0
  }

  /** `a || b` on two optional numeric fields. */
  function NumOrElse(a: Option<int>, b: Option<int>): (r: Option<int>)
    ensures NumPresent(a) ==> r == a
    ensures !NumPresent(a) ==> r == b
  {
    if NumPresent(a) then a else b
  }

  /** `a || 0`: the field's value, with undefined read as 0. */
  function OrZero(a: Option<int>): (r: int)
    ensures a.Some? ==> r == a.value
    ensures a.None? ==> r == 0
  {
    if NumPresent(a) then a.value else 0
  }

  /** `a || b` on two optional arrays: an array, even an empty one, is
      truthy. */
  function ListOrElse<T>(a: Option<seq<T>>, b: Option<seq<T>>): (r: Option<seq<T>>)
    ensures a.Some? ==> r == a
    ensures a.None? ==> r == b
  {
    if a.Some? then a else b
  }

  /** `a || []`. */
  function ListOr<T>(a: Option<seq<T>>): (r: seq<T>)
    ensures a.Some? ==> r == a.value
    ensures a.None? ==> r == []
  {
    match a case Some(l) => l case None => []
  }

  /** A user object as the client holds it. The server sends `userid`,
      `username`, `email` and `avatar`; the local registry writes `id`,
      `nickname`, `avatar` and `email`; `password` appears only in registry
      accounts. */
  datatype UserRecord = UserRecord(
    userid: Option<int>,
    id: Option<int>,
    username: Option<string>,
    nickname: Option<string>,
    email: Option<string>,
    avatar: Option<string>,
    password: Option<string>)

  /** An article object as the API returns it. The server uses the
      `article…` names; the featured and hot endpoints and older code paths
      use the short names, so the client reads both. */
  datatype RawArticle = RawArticle(
    id: Option<int>,
    articleId: Option<int>,
    title: Option<string>,
    articleTitle: Option<string>,
    summary: Option<string>,
    articleContent: Option<string>,
    author: Option<string>,
    userName: Option<string>,
    username: Option<string>,
    createdAt: Option<Stamp>,
    articleCreatedAt: Option<Stamp>,
    articleUpdatedAt: Option<Stamp>,
    topics: Option<seq<string>>,
    articleTopics: Option<seq<string>>,
    likes: Option<int>,
    articleLikes: Option<int>,
    favorites: Option<int>,
    articleCollects: Option<int>,
    views: Option<int>,
    articleViews: Option<int>,
    cover: Option<string>,
    articleCover: Option<string>,
    articleCategory: Option<string>,
    articleStatus: Option<string>)

  /** The article card the home, column and hot-blog pages render. */
  datatype Card = Card(
    articleId: Option<int>,
    articleTitle: Option<string>,
    articleContent: string,
    articleCover: Option<string>,
    userName: string,
    articleCreatedAt: string,
    articleTopics: seq<string>,
    articleLikes: Option<int>,
    articleCollects: Option<int>,
    articleViews: Option<int>)
}

=== FILE: seqs.dfy ===
/** The array operations the application uses: `filter`, `find`,
    `findIndex`, `map` and `slice(0, n)`. */
module Seqs {
  import opened Wrappers

  /** `s.filter(p)`. */
  function Filter<T>(s: seq<T>, p: T -> bool): (r: seq<T>)
    ensures |r| <= |s|
    ensures forall i :: 0 <= i < |r| ==> p(r[i]) && r[i] in s
    decreases |s|
  {
    if |s| == 0 then []
    else if p(s[0]) then [s[0]] + Filter(s[1..], p)
    else Filter(s[1..], p)
  }

  /** Filtering distributes over concatenation, so the kept elements stay
      in their original relative order. */
  lemma {:induction false} FilterAppend<T>(a: seq<T>, b: seq<T>, p: T -> bool)
    ensures Filter(a + b, p) == Filter(a, p) + Filter(b, p)
    decreases |a|
  {
    if |a| > 0 {
      assert (a + b)[1..] == a[1..] + b;
      FilterAppend(a[1..], b, p);
    } else {
      assert a + b == b;
    }
  }

  /** An element is kept exactly when it occurs and satisfies the test. */
  lemma {:induction false} FilterMembership<T>(s: seq<T>, p: T -> bool, x: T)
    ensures x in Filter(s, p) <==> x in s && p(x)
    decreases |s|
  {
    if |s| > 0 {
      FilterMembership(s[1..], p, x);
      assert s == [s[0]] + s[1..];
    }
  }

  /** Every occurrence of a kept value survives: the filter drops nothing
      that passes the test. */
  lemma {:induction false} FilterCount<T>(s: seq<T>, p: T -> bool, x: T)
    ensures multiset(Filter(s, p))[x] == if p(x) then multiset(s)[x] else 0
    decreases |s|
  {
    if |s| > 0 {
      FilterCount(s[1..], p, x);
      assert s == [s[0]] + s[1..];
    }
  }

  /** When every element passes, the filter is the identity. */
  lemma {:induction false} FilterAll<T>(s: seq<T>, p: T -> bool)
    requires forall i :: 0 <= i < |s| ==> p(s[i])
    ensures Filter(s, p) == s
    decreases |s|
  {
    if |s| > 0 {
      FilterAll(s[1..], p);
    }
  }

  /** `s.findIndex(p)`, with -1 as None. */
  function FindIndex<T>(s: seq<T>, p: T -> bool): (r: Option<nat>)
    ensures r.None? <==> forall i :: 0 <= i < |s| ==> !p(s[i])
    ensures r.Some? ==> r.value < |s| && p(s[r.value])
    ensures r.Some? ==> forall i :: 0 <= i < r.value ==> !p(s[i])
    decreases |s|
  {
    if |s| == 0 then None
    else if p(s[0]) then Some(0)
    else match FindIndex(s[1..], p)
      case None => None
      case Some(i) => Some(i + 1)
  }

  /** `s.find(p)`: the first element passing the test. */
  function Find<T>(s: seq<T>, p: T -> bool): (r: Option<T>)
    ensures r.None? <==> forall i :: 0 <= i < |s| ==> !p(s[i])
    ensures r.Some? ==> r.value in s && p(r.value)
  {
    match FindIndex(s, p)
    case None => None
    case Some(i) => Some(s[i])
  }

  /** `s.map(f)`. */
  function Map<A, B>(s: seq<A>, f: A -> B): (r: seq<B>)
    ensures |r| == |s|
    ensures forall i :: 0 <= i < |s| ==> r[i] == f(s[i])
  {
    seq(|s|, i requires 0 <= i < |s| => f(s[i]))
  }

  function Min(a: int, b: int): int {
    if a <= b then a else b
  }

  /** `s.slice(0, n)` for a non-negative `n`. */
  function Take<T>(s: seq<T>, n: nat): (r: seq<T>)
    ensures |r| == Min(n, |s|)
    ensures r <= s
  {
    if n <= |s| then s[..n] else s
  }

  /** A window at least as long as the sequence keeps all of it. */
  lemma TakeAll<T>(s: seq<T>, n: nat)
    requires |s| <= n
    ensures Take(s, n) == s
  {
  }
}

=== FILE: server.dfy ===
/** What the API's handlers have in common: the JSON answer they send, the
    signed-in user the authentication middleware leaves on the request, and
    the message of the catch-all 500 answer. */
module Server {
  import opened Wrappers
  import opened Records

  /** An answer: the status code, the `success` flag (absent on the
      answers of the user endpoints that send none), the `message`, and the
      endpoint's own data. */
  datatype Answer<P> = Answer(status: nat, success: Option<bool>, message: Option<string>, data: Option<P>)

  /** `res.status(code).json({ success: false, message })`. */
  function Refuse<P>(status: nat, message: string): (r: Answer<P>)
    ensures r.status == status && r.success == Some(false) && r.message == Some(message) && r.data.None?
  {
    Answer(status, Some(false), Some(message), None)
  }

  /** `res.status(code).json({ success: true, ... })`. */
  function Accept<P>(status: nat, message: Option<string>, data: P): (r: Answer<P>)
    ensures r.status == status && r.success == Some(true) && r.message == message && r.data == Some(data)
  {
    Answer(status, Some(true), message, Some(data))
  }

  /** The error mysql2 raises for an `undefined` bind parameter. */
  const UndefinedBind: string := "Bind parameters must not contain undefined. To pass SQL NULL specify JS null"

  /** The message of the article controller's catch-all answer. */
  function InternalError(m: string): string {
    "服务器内部错误: " + m
  }

  /** `req.user` as the authentication middleware sets it: exactly the
      token's `userid`, `email` and `username`, each possibly absent. */
  datatype ReqUser = ReqUser(userid: Option<int>, email: Option<string>, username: Option<string>)

  /** `req.user?.userid || req.user?.userId`: the middleware never sets
      `userId`, so the second operand is always undefined and the id is the
      token's `userid` when it is truthy. */
  function CurrentUserId(u: Option<ReqUser>): (r: Option<int>)
    ensures r.Some? <==> u.Some? && NumPresent(u.value.userid)
    ensures r.Some? ==> r == u.value.userid && r.value != 0
  {
    if u.Some? && NumPresent(u.value.userid) then u.value.userid else None
  }
}

=== FILE: sidebar.dfy ===
/** The right sidebar: a carousel of at most five featured articles, each
    with a fixed picture, and the hot-tag cloud. */
module Sidebar {
  import opened Wrappers
  import opened Seqs
  import opened Records
  import opened Http
  import opened ArticleService

  const FeaturedCount: nat := 5

  /** The twenty carousel pictures, in order. */
  const Images: seq<string> := [
    "/1_(1).png", "/1_(2).png", "/1_(3).png", "/1_(4).png", "/1_(5).png",
    "/1_(6).png", "/1_(7).png", "/1_(8).png", "/1_(9).png", "/1_(10).png",
    "/1_(11).png", "/1_(12).png", "/1_(13).png", "/1_(14).png", "/1_(15).png",
    "/1_(16).png", "/1_(17).png", "/1_(18).png", "/1_(19).png", "/1_(20).png"]

  /** A featured article with the picture fixed to it. */
  datatype Slide = Slide(article: RawArticle, fixedCover: string)

  /** The sidebar: the slides, the slide shown, the tag list (None once an
      answer without `list` has been stored) and the two loading flags. */
  datatype State = State(list: seq<Slide>, idx: nat, loading: bool, tags: Option<seq<HotTag>>, tagLoading: bool)

  const Initial: State := State([], 0, false, Some([]), false)

  /** `data.slice(0, 5).map((item, index) => ({...item, fixedCover}))`. */
  function Slides(data: seq<RawArticle>): (r: seq<Slide>)
    ensures |r| == Min(FeaturedCount, |data|)
    ensures forall i :: 0 <= i < |r| ==> r[i] == Slide(data[i], Images[i % |Images|])
  {
    var first := Take(data, FeaturedCount);
    seq(|first|, (i: int) requires 0 <= i < |first| => Slide(first[i], Images[i % |Images|]))
  }

  /** `fetchFeatured`: the slides, shown from the first; any failure, a
      missing list included, leaves no slides. */
  function FetchFeatured(s: State, reply: Reply<Listing>): (r: State)
    ensures !r.loading && r.tags == s.tags && r.tagLoading == s.tagLoading
    ensures |r.list| <= FeaturedCount
    ensures GetFeatured(reply).Ok? && GetFeatured(reply).value.Some? ==>
      r.list == Slides(GetFeatured(reply).value.value) && r.idx == 0
    ensures !(GetFeatured(reply).Ok? && GetFeatured(reply).value.Some?) ==> r.list == [] && r.idx == s.idx
  {
    match GetFeatured(reply)
    case Ok(Some(data)) => s.(list := Slides(data), idx := 0, loading := false)
    case _ => s.(list := [], loading := false)
  }

  /** The interval's step: it runs only while there are two slides or
      more, and wraps around at the end. */
  function Tick(s: State): (r: State)
    ensures |s.list| <= 1 ==> r == s
    ensures |s.list| > 1 ==> r == s.(idx := (s.idx + 1) % |s.list|)
    ensures |s.list| > 1 ==> r.idx < |r.list|
  {
    if |s.list| <= 1 then s else s.(idx := (s.idx + 1) % |s.list|)
  }

  /** A click on dot `i` (one dot per slide). */
  function GoSlide(s: State, i: nat): (r: State)
    requires i < |s.list|
    ensures r == s.(idx := i) && r.idx < |r.list|
  {
    s.(idx := i)
  }

  /** `k` interval steps: the list stays and the index stays in range, so
      the slide shown is always one of the slides. */
  function Ticks(s: State, k: nat): (r: State)
    requires s.idx < |s.list|
    ensures r.list == s.list && r.idx < |r.list|
    decreases k
  {
    if k == 0 then s else Ticks(Tick(s), k - 1)
  }

  /** After a fetch, each slide's picture is the one its position names,
      so a slide keeps its picture as the carousel turns. */
  lemma SlidePictures(s: State, reply: Reply<Listing>, i: nat)
    requires GetFeatured(reply).Ok? && GetFeatured(reply).value.Some?
    requires i < |FetchFeatured(s, reply).list|
    ensures FetchFeatured(s, reply).list[i].fixedCover == Images[i]
    ensures FetchFeatured(s, reply).list[i].article == GetFeatured(reply).value.value[i]
  {
    var data := GetFeatured(reply).value.value;
    assert |Images| == 20;
    assert i < FeaturedCount;
    assert i % 20 == i;
    assert FetchFeatured(s, reply).list == Slides(data);
  }

  /** `fetchHotTags`: a body with `success` replaces the tags with its
      list; any failure empties them. */
  function FetchTags(s: State, reply: Reply<Listing>): (r: State)
    ensures !r.tagLoading && r.list == s.list && r.idx == s.idx && r.loading == s.loading
    ensures Call(HotTags, reply).Ok? ==> r.tags == Call(HotTags, reply).value.payload.tags
    ensures Call(HotTags, reply).Err? ==> r.tags == Some([])
  {
    match Call(HotTags, reply)
    case Err(_) => s.(tags := Some([]), tagLoading := false)
    case Ok(data) => if data.success then s.(tags := data.payload.tags, tagLoading := false) else s.(tagLoading := false)
  }
}

=== FILE: storage.dfy ===
/** The browser's `localStorage` as the application uses it: the `token`
    string, the cached `blogUser` object, the `blogUsers` registry, and one
    `cmt_raw_<articleId>` raw comment list per article. */
module Storage {
  import opened Wrappers
  import opened Records
  import opened Dates

  /** A stored JSON text: one that `JSON.parse` reads as `value`, or one it
      rejects (an empty text is falsy and is never parsed). */
  datatype Entry<T> = Parsed(value: T) | Unparsable(text: string)

  /** A comment as it is stored raw in the per-article cache and as the
      comment API returns it. Server comments carry a numeric id; comments
      added without an account carry a `temp_` string id. */
  datatype CommentKey = Num(n: int) | Str(s: string)

  /** A `CommentKey` is truthy unless it is 0 or "". */
  predicate KeyPresent(k: Option<CommentKey>) {
    match k
    case None => false
    case Some(Num(n)) => n != 0
    case Some(Str(s)) => s != ""
  }

  datatype RawComment = RawComment(
    commentId: Option<CommentKey>,
    userId: Option<int>,
    username: Option<string>,
    commentContent: Option<string>,
    commentCreatedAt: Option<Stamp>,
    commentLikes: Option<int>,
    avatar: Option<string>)

  /** A registry account written by the local user store. */
  datatype Account = Account(
    id: int,
    nickname: Option<string>,
    avatar: Option<string>,
    email: Option<string>,
    password: Option<string>)

  datatype Store = Store(
    token: Option<string>,
    blogUser: Option<Entry<UserRecord>>,
    blogUsers: Option<Entry<seq<Account>>>,
    comments: map<string, Entry<seq<RawComment>>>)

  /** `!!localStorage.getItem('token')`. */
  predicate HasToken(st: Store) {
    st.token.Some? && st.token.value != ""
  }

  /** The message of the SyntaxError `JSON.parse` throws. */
  const ParseError: string := "Unexpected token in JSON at position 0"

  /** `saved ? JSON.parse(saved) : null`: an absent or empty entry reads as
      null, a parsable one as its value, and any other text throws. */
  function Read<T>(e: Option<Entry<T>>): (r: Result<Option<T>>)
    ensures e.None? ==> r == Ok(None)
    ensures e.Some? && e.value.Parsed? ==> r == Ok(Some(e.value.value))
    ensures e.Some? && e.value.Unparsable? ==> (r.Ok? <==> e.value.text == "")
    ensures r.Ok? && r.value.Some? ==> e == Some(Parsed(r.value.value))
  {
    match e
    case None => Ok(None)
    case Some(Parsed(v)) => Ok(Some(v))
    case Some(Unparsable(t)) => if t == "" then Ok(None) else Err(ParseError)
  }

  /** The cache key of an article's comments: `cmt_raw_${articleId}`. */
  function CommentCacheKey(articleId: string): (k: string)
    ensures |k| == 8 + |articleId| && k[8..] == articleId
  {
    "cmt_raw_" + articleId
  }

  /** Each article has a cache entry of its own. */
  lemma CommentCacheKeyInjective(a: string, b: string)
    requires CommentCacheKey(a) == CommentCacheKey(b)
    ensures a == b
  {
    assert a == CommentCacheKey(a)[8..];
  }

  /** The stored comment list of an article, as `Read` sees it. */
  function CachedComments(st: Store, articleId: string): Option<Entry<seq<RawComment>>> {
    var k := CommentCacheKey(articleId);
    if k in st.comments then Some(st.comments[k]) else None
  }

  /** Writes an article's raw comment list. */
  function PutComments(st: Store, articleId: string, raw: seq<RawComment>): (r: Store)
    ensures CachedComments(r, articleId) == Some(Parsed(raw))
    ensures forall other :: other != articleId ==> CachedComments(r, other) == CachedComments(st, other)
    ensures r.token == st.token && r.blogUser == st.blogUser && r.blogUsers == st.blogUsers
  {
    var r := st.(comments := st.comments[CommentCacheKey(articleId) := Parsed(raw)]);
    assert forall other :: other != articleId ==> CommentCacheKey(other) != CommentCacheKey(articleId) by {
      forall other | other != articleId ensures CommentCacheKey(other) != CommentCacheKey(articleId) {
        if CommentCacheKey(other) == CommentCacheKey(articleId) { CommentCacheKeyInjective(other, articleId); }
      }
    }
    r
  }
}

=== FILE: strings.dfy ===
/** The JavaScript string operations the application relies on: `trim`,
    `startsWith`, `split`, `join`, `replace` with a string pattern,
    `parseInt`, `String(n)` and `padStart(2, '0')`. */
module Strings {
  import opened Wrappers

  // ---------------------------------------------------------------------
  // Whitespace and trim
  // ---------------------------------------------------------------------

  /** The ECMAScript WhiteSpace and LineTerminator code points: exactly the
      characters `String.prototype.trim` and `parseInt` skip. */
  predicate IsSpace(c: char) {
    || c == ' ' || c == '\t' || c == '\n' || c == '\r'
    || c == '\U{000B}' || c == '\U{000C}' || c == '\U{00A0}' || c == '\U{1680}'
    || ('\U{2000}' <= c <= '\U{200A}')
    || c == '\U{2028}' || c == '\U{2029}' || c == '\U{202F}' || c == '\U{205F}'
    || c == '\U{3000}' || c == '\U{FEFF}'
  }

  /** Every character is whitespace (vacuously true of ""). */
  predicate IsBlank(s: string) {
    forall i :: 0 <= i < |s| ==> IsSpace(s[i])
  }

  /** Neither end of `s` is whitespace: `trim` leaves `s` as it is. */
  predicate IsTrimmed(s: string) {
    |s| == 0 || (!IsSpace(s[0]) && !IsSpace(s[|s| - 1]))
  }

  /** `s.trimStart()`: drops the leading whitespace and nothing else. */
  function TrimStart(s: string): (r: string)
    ensures |r| <= |s| && r == s[|s| - |r|..]
    ensures IsBlank(s[..|s| - |r|])
    ensures |r| > 0 ==> !IsSpace(r[0])
    decreases |s|
  {
    if |s| > 0 && IsSpace(s[0]) then TrimStart(s[1..]) else s
  }

  /** `s.trimEnd()`: drops the trailing whitespace and nothing else. */
  function TrimEnd(s: string): (r: string)
    ensures |r| <= |s| && r == s[..|r|]
    ensures IsBlank(s[|r|..])
    ensures |r| > 0 ==> !IsSpace(r[|r| - 1])
    decreases |s|
  {
    if |s| > 0 && IsSpace(s[|s| - 1]) then TrimEnd(s[..|s| - 1]) else s
  }

  /** `s.trim()`: the result is a contiguous piece of `s`, only whitespace
      was cut off either end, and neither end of the result is whitespace. */
  function Trim(s: string): (r: string)
    ensures exists i, j :: 0 <= i <= j <= |s| && r == s[i..j] && IsBlank(s[..i]) && IsBlank(s[j..])
    ensures IsTrimmed(r)
  {
    var t := TrimStart(s);
    var r := TrimEnd(t);
    TrimBounds(s, t, r);
    r
  }

  /** The piece `trim` keeps, located inside `s`, from what `trimStart`
      and `trimEnd` promise. */
  lemma TrimBounds(s: string, t: string, r: string)
    requires |t| <= |s| && t == s[|s| - |t|..] && IsBlank(s[..|s| - |t|])
    requires |t| > 0 ==> !IsSpace(t[0])
    requires |r| <= |t| && r == t[..|r|] && IsBlank(t[|r|..])
    requires |r| > 0 ==> !IsSpace(r[|r| - 1])
    ensures exists i, j :: 0 <= i <= j <= |s| && r == s[i..j] && IsBlank(s[..i]) && IsBlank(s[j..])
    ensures IsTrimmed(r)
  {
    var i := |s| - |t|;
    var j := i + |r|;
    SliceOfSuffix(s, i, |r|);
    assert s[j..] == t[|r|..];
    if |r| > 0 {
      assert r[0] == t[0];
    }
  }

  lemma SliceOfSuffix(s: string, i: nat, n: nat)
    requires i + n <= |s|
    ensures s[i..][..n] == s[i..i + n]
  {
  }

  /** `s.trim()` is empty exactly when `s` is blank; this is the
      `!x.trim()` test every form and controller uses. */
  lemma TrimEmptyIffBlank(s: string)
    ensures Trim(s) == "" <==> IsBlank(s)
  {
    var i, j :| 0 <= i <= j <= |s| && Trim(s) == s[i..j] && IsBlank(s[..i]) && IsBlank(s[j..]);
    if Trim(s) == "" {
      assert i == j;
      forall k | 0 <= k < |s| ensures IsSpace(s[k]) {
        if k < i { assert s[..i][k] == s[k]; } else { assert s[j..][k - j] == s[k]; }
      }
    } else {
      assert !IsSpace(s[i]);
    }
  }

  /** Trimming a string whose ends are not whitespace changes nothing. */
  lemma TrimTrimmed(s: string)
    requires IsTrimmed(s)
    ensures Trim(s) == s
  {
  }

  /** Leading whitespace never survives `trim`. */
  lemma TrimSkipsLeadingSpace(c: char, s: string)
    requires IsSpace(c)
    ensures Trim([c] + s) == Trim(s)
  {
    assert ([c] + s)[1..] == s;
  }

  // ---------------------------------------------------------------------
  // Searching and splitting
  // ---------------------------------------------------------------------

  /** The first index of `c` in `s` (`s.indexOf(c)`, with -1 as None). */
  function FindChar(s: string, c: char): (r: Option<nat>)
    ensures r.None? <==> c !in s
    ensures r.Some? ==> r.value < |s| && s[r.value] == c && c !in s[..r.value]
    decreases |s|
  {
    if |s| == 0 then None
    else if s[0] == c then Some(0)
    else
      match FindChar(s[1..], c)
      case None => None
      case Some(i) => assert s[..i + 1] == [s[0]] + s[1..][..i]; Some(i + 1)
  }

  /** `parts.join(glue)`. */
  function Join(parts: seq<string>, glue: string): string
    decreases |parts|
  {
    if |parts| == 0 then ""
    else if |parts| == 1 then parts[0]
    else parts[0] + glue + Join(parts[1..], glue)
  }

  /** `s.split(sep)` for a one-character separator: the pieces contain no
      separator and joining them back with it gives `s` again. */
  function Split(s: string, sep: char): (parts: seq<string>)
    ensures |parts| >= 1
    ensures forall i :: 0 <= i < |parts| ==> sep !in parts[i]
    ensures Join(parts, [sep]) == s
    decreases |s|
  {
    match FindChar(s, sep)
    case None => [s]
    case Some(i) =>
      var rest := Split(s[i + 1..], sep);
      var parts := [s[..i]] + rest;
      assert parts[1..] == rest;
      assert s == s[..i] + [sep] + s[i + 1..];
      parts
  }

  /** The other half of the round trip: splitting a join of separator-free
      pieces gives the pieces back. */
  lemma {:induction false} SplitJoin(parts: seq<string>, sep: char)
    requires |parts| >= 1
    requires forall i :: 0 <= i < |parts| ==> sep !in parts[i]
    ensures Split(Join(parts, [sep]), sep) == parts
    decreases |parts|
  {
    var s := Join(parts, [sep]);
    if |parts| == 1 {
      assert sep !in parts[0];
    } else {
      var rest := parts[1..];
      assert s == parts[0] + [sep] + Join(rest, [sep]);
      assert s[..|parts[0]|] == parts[0];
      assert s[|parts[0]|] == sep;
      assert FindChar(s, sep) == Some(|parts[0]|);
      assert s[|parts[0]| + 1..] == Join(rest, [sep]);
      SplitJoin(rest, sep);
      assert parts == [parts[0]] + rest;
    }
  }

  /** The first index at which `pat` occurs in `s`. */
  function FindSub(s: string, pat: string): (r: Option<nat>)
    ensures r.Some? ==> r.value + |pat| <= |s| && pat <= s[r.value..]
    ensures r.Some? ==> forall k :: 0 <= k < r.value ==> !(pat <= s[k..])
    ensures r.None? ==> forall k :: 0 <= k <= |s| ==> !(pat <= s[k..])
    decreases |s|
  {
    if pat <= s then Some(0)
    else if |s| == 0 then None
    else
      match FindSub(s[1..], pat)
      case None =>
        assert forall k :: 1 <= k <= |s| ==> s[k..] == s[1..][k - 1..];
        None
      case Some(i) =>
        assert forall k :: 1 <= k <= |s| ==> s[k..] == s[1..][k - 1..];
        Some(i + 1)
  }

  /** `s.replace(pat, rep)` with a string pattern: only the first occurrence
      is replaced, and a string without `pat` is returned as it is. */
  function ReplaceFirst(s: string, pat: string, rep: string): (r: string)
    ensures FindSub(s, pat).None? ==> r == s
    ensures FindSub(s, pat).Some? ==>
      var i := FindSub(s, pat).value; r == s[..i] + rep + s[i + |pat|..]
  {
    match FindSub(s, pat)
    case None => s
    case Some(i) => s[..i] + rep + s[i + |pat|..]
  }

  // ---------------------------------------------------------------------
  // Numbers as text
  // ---------------------------------------------------------------------

  predicate IsDigit(c: char) {
    '0' <= c <= '9'
  }

  predicate IsDigits(s: string) {
    forall i :: 0 <= i < |s| ==> IsDigit(s[i])
  }

  function DigitChar(d: nat): (c: char)
    requires d < 10
    ensures IsDigit(c)
  {
    (48 + d) as char
  }

  function DigitValue(c: char): (d: nat)
    requires IsDigit(c)
    ensures d < 10
  {
    (c as int - 48) as nat
  }

  /** `String(n)` for a non-negative integer. */
  function NatToString(n: nat): (r: string)
    ensures |r| >= 1 && IsDigits(r)
    decreases n
  {
    if n < 10 then [DigitChar(n)] else NatToString(n / 10) + [DigitChar(n % 10)]
  }

  /** `String(n)` (or `n.toString()`) for any integer. */
  function IntToString(n: int): (r: string)
    ensures n >= 0 ==> r == NatToString(n)
    ensures n < 0 ==> r == "-" + NatToString(-n)
  {
    if n >= 0 then NatToString(n) else "-" + NatToString(-n)
  }

  /** `parseInt(String(n))` is `n` for every integer. */
  lemma ParseIntOfIntToString(n: int)
    ensures ParseInt(IntToString(n)) == Some(n)
  {
    if n >= 0 {
      assert IntToString(n) == NatToString(n);
      ParseIntOfNatToString(n);
    } else {
      var m: nat := -n;
      assert IntToString(n) == "-" + NatToString(m);
      ParseIntOfNegative(m);
    }
  }

  /** The number a string of decimal digits denotes. */
  function DecimalValue(s: string): nat
    requires IsDigits(s)
    decreases |s|
  {
    if |s| == 0 then 0 else DecimalValue(s[..|s| - 1]) * 10 + DigitValue(s[|s| - 1])
  }

  /** Reading back what `String(n)` wrote gives `n`. */
  lemma {:induction false} DecimalRoundTrip(n: nat)
    ensures DecimalValue(NatToString(n)) == n
    decreases n
  {
    if n >= 10 {
      var s := NatToString(n);
      assert s[..|s| - 1] == NatToString(n / 10);
      DecimalRoundTrip(n / 10);
    }
  }

  /** Different numbers print differently. */
  lemma NatToStringInjective(a: nat, b: nat)
    requires NatToString(a) == NatToString(b)
    ensures a == b
  {
    DecimalRoundTrip(a);
    DecimalRoundTrip(b);
  }

  /** `String(n).padStart(2, '0')`. */
  function PadTwo(n: nat): (r: string)
    ensures |r| >= 2 && IsDigits(r)
    ensures n < 100 ==> |r| == 2 && DecimalValue(r) == n
  {
    var d := NatToString(n);
    DecimalRoundTrip(n);
    if |d| < 2 then
      assert d == [DigitChar(n)];
      "0" + d
    else d
  }

  /** The longest prefix of `s` made of characters satisfying `ok`. */
  function Prefix(s: string, ok: char -> bool): (r: string)
    ensures r <= s
    ensures forall i :: 0 <= i < |r| ==> ok(r[i])
    ensures |r| < |s| ==> !ok(s[|r|])
    decreases |s|
  {
    if |s| > 0 && ok(s[0]) then [s[0]] + Prefix(s[1..], ok) else ""
  }

  predicate IsHexDigit(c: char) {
    IsDigit(c) || ('a' <= c <= 'f') || ('A' <= c <= 'F')
  }

  function HexDigitValue(c: char): (d: nat)
    requires IsHexDigit(c)
    ensures d < 16
  {
    if IsDigit(c) then DigitValue(c)
    else if 'a' <= c <= 'f' then (c as int - 87) as nat
    else (c as int - 55) as nat
  }

  function HexValue(s: string): nat
    requires forall i :: 0 <= i < |s| ==> IsHexDigit(s[i])
    decreases |s|
  {
    if |s| == 0 then 0 else HexValue(s[..|s| - 1]) * 16 + HexDigitValue(s[|s| - 1])
  }

  /** The magnitude `parseInt` reads after the sign: a `0x`/`0X` prefix
      switches to base 16, and the longest run of digits that follows is the
      value; no digits at all is NaN, modelled as None. */
  function ParseMagnitude(u: string): Option<nat>
  {
    if |u| >= 2 && u[0] == '0' && (u[1] == 'x' || u[1] == 'X') then
      var h := Prefix(u[2..], IsHexDigit);
      if |h| == 0 then None else Some(HexValue(h))
    else
      var d := Prefix(u, IsDigit);
      if |d| == 0 then None else Some(DecimalValue(d))
  }

  /** JavaScript's global `parseInt(s)` with no radix: leading whitespace is
      skipped, then at most one sign is read, then the magnitude. */
  function ParseInt(s: string): (r: Option<int>)
  {
    var t := TrimStart(s);
    if |t| > 0 && t[0] == '-' then
      match ParseMagnitude(t[1..]) case None => None case Some(m) => Some(-(m as int))
    else if |t| > 0 && t[0] == '+' then
      match ParseMagnitude(t[1..]) case None => None case Some(m) => Some(m as int)
    else
      match ParseMagnitude(t) case None => None case Some(m) => Some(m as int)
  }

  /** `parseInt(String(n))` is `n`. */
  lemma ParseIntOfNatToString(n: nat)
    ensures ParseInt(NatToString(n)) == Some(n)
  {
    var s := NatToString(n);
    DigitsNotSpace(s);
    ParseDigits(s);
    DecimalRoundTrip(n);
  }

  /** `parseInt('-' + String(n))` is `-n`. */
  lemma ParseIntOfNegative(n: nat)
    ensures ParseInt("-" + NatToString(n)) == Some(-(n as int))
  {
    var s := NatToString(n);
    var m := "-" + s;
    assert !IsSpace(m[0]);
    assert TrimStart(m) == m;
    assert m[1..] == s;
    ParseDigits(s);
    DecimalRoundTrip(n);
  }

  /** A string that starts with a digit does not start with whitespace. */
  lemma DigitsNotSpace(s: string)
    requires |s| >= 1 && IsDigits(s)
    ensures TrimStart(s) == s
  {
    assert IsDigit(s[0]);
    assert !IsSpace(s[0]);
  }

  /** The unsigned decimal branch of `parseInt` reads a digit string whole. */
  lemma ParseDigits(s: string)
    requires |s| >= 1 && IsDigits(s)
    ensures ParseMagnitude(s) == Some(DecimalValue(s))
  {
    if |s| >= 2 {
      assert IsDigit(s[1]);
    }
    PrefixOfAll(s, IsDigit);
  }

  /** A string wholly made of accepted characters is its own prefix. */
  lemma {:induction false} PrefixOfAll(s: string, ok: char -> bool)
    requires forall i :: 0 <= i < |s| ==> ok(s[i])
    ensures Prefix(s, ok) == s
    decreases |s|
  {
    if |s| > 0 {
      PrefixOfAll(s[1..], ok);
    }
  }
}

=== FILE: user_controller.dfy ===
/** The API's account handlers over an abstract user table: registration,
    login, lookup by id, and the avatar and profile updates. Password
    hashing, its comparison and token signing are the functions passed in. */
module UserController {
  import opened Wrappers
  import opened Strings
  import opened Records
  import opened Seqs
  import opened Server

  const MissingFields: string := "缺少必填字段"
  const EmailTaken: string := "邮箱已存在"
  const DefaultAvatar: string := "/default-avatar.png"
  const UnknownUser: string := "用户不存在"
  const WrongPassword: string := "密码错误"
  const IdNotNumber: string := "id 必须是数字"
  const MissingAvatar: string := "头像URL不能为空"
  const MissingProfile: string := "用户名和邮箱不能为空"
  const EmailInUse: string := "邮箱已被其他用户使用"

  /** A row of the user table. */
  datatype UserRow = UserRow(userid: int, username: string, email: string, passwordHash: string, avatar: string)

  /** The user table in row order. */
  type Users = seq<UserRow>

  /** A user as the answers show one: never with the password hash. */
  datatype PublicUser = PublicUser(userid: int, username: string, email: string, avatar: string)

  function Public(u: UserRow): (p: PublicUser)
    ensures p.userid == u.userid && p.username == u.username && p.email == u.email && p.avatar == u.avatar
  {
    PublicUser(u.userid, u.username, u.email, u.avatar)
  }

  datatype Payload =
    | Registered(userid: int)
    | LoggedIn(token: string, user: PublicUser)
    | Account(user: PublicUser)

  /** An answer without a `success` field. */
  function Say(status: nat, message: string): (r: Answer<Payload>)
    ensures r.status == status && r.success.None? && r.message == Some(message) && r.data.None?
  {
    Answer(status, None, Some(message), None)
  }

  predicate HasEmail(email: string, u: UserRow) {
    u.email == email
  }

  predicate HasId(id: int, u: UserRow) {
    u.userid == id
  }

  /** `SELECT ... WHERE email = ?`, first row. */
  function ByEmail(t: Users, email: string): (r: Option<UserRow>)
    ensures r.None? <==> forall i :: 0 <= i < |t| ==> t[i].email != email
    ensures r.Some? ==> r.value in t && r.value.email == email
  {
    Find(t, u => HasEmail(email, u))
  }

  /** `SELECT ... WHERE userid = ?`, first row. */
  function ById(t: Users, id: int): (r: Option<UserRow>)
    ensures r.None? <==> forall i :: 0 <= i < |t| ==> t[i].userid != id
    ensures r.Some? ==> r.value in t && r.value.userid == id
  {
    Find(t, u => HasId(id, u))
  }

  predicate UniqueEmails(t: Users) {
    forall i, j :: 0 <= i < j < |t| ==> t[i].email != t[j].email
  }

  predicate UniqueIds(t: Users) {
    forall i, j :: 0 <= i < j < |t| ==> t[i].userid != t[j].userid
  }

  /** The fields of a registration. */
  datatype Registration = Registration(username: Option<string>, email: Option<string>,
                                       password: Option<string>, avatar: Option<string>)

  /** `register`: 400 when a field is missing, before any lookup; 409 for
      an email already in the table, inserting nothing; otherwise a row with
      the hashed password and the avatar or the default one, under the id
      the table assigns (`newId`, unused so far), answered with 201. */
  function Register(t: Users, b: Registration, hash: string -> string, newId: int): (r: (Users, Answer<Payload>))
    requires ById(t, newId).None?
    ensures !Present(b.username) || !Present(b.email) || !Present(b.password) ==> r == (t, Say(400, MissingFields))
    ensures Present(b.username) && Present(b.email) && Present(b.password) && ByEmail(t, b.email.value).Some? ==>
      r == (t, Say(409, EmailTaken))
    ensures r.1.status == 201 <==> Present(b.username) && Present(b.email) && Present(b.password) && ByEmail(t, b.email.value).None?
    ensures r.1.status == 201 ==>
      && r.0 == t + [UserRow(newId, b.username.value, b.email.value, hash(b.password.value), Or(b.avatar, DefaultAvatar))]
      && r.1 == Answer(201, None, Some("注册成功"), Some(Registered(newId)))
    ensures r.1.status != 201 ==> r.0 == t
  {
    if !Present(b.username) || !Present(b.email) || !Present(b.password) then (t, Say(400, MissingFields))
    else if ByEmail(t, b.email.value).Some? then (t, Say(409, EmailTaken))
    else
      var row := UserRow(newId, b.username.value, b.email.value, hash(b.password.value), Or(b.avatar, DefaultAvatar));
      (t + [row], Answer(201, None, Some("注册成功"), Some(Registered(newId))))
  }

  /** Registration keeps one account per email and one row per id. */
  lemma RegisterKeepsTableUnique(t: Users, b: Registration, hash: string -> string, newId: int)
    requires ById(t, newId).None?
    requires UniqueEmails(t) && UniqueIds(t)
    ensures UniqueEmails(Register(t, b, hash, newId).0) && UniqueIds(Register(t, b, hash, newId).0)
  {
    var after := Register(t, b, hash, newId).0;
    if after != t {
      assert after[..|t|] == t;
    }
  }

  /** `login`: 400 for a missing field, 401 for an unknown email, 401 for
      a password that does not match the stored hash (`matches` is
      `bcrypt.compare`); otherwise the signed token (`sign` of the id and
      the email) and the user without the hash. */
  function Login(t: Users, email: Option<string>, password: Option<string>,
                 matches: (string, string) -> bool, sign: (int, string) -> string): (r: Answer<Payload>)
    ensures !Present(email) || !Present(password) ==> r == Say(400, MissingFields)
    ensures Present(email) && Present(password) && ByEmail(t, email.value).None? ==> r == Say(401, UnknownUser)
    ensures (Present(email) && Present(password) && ByEmail(t, email.value).Some? &&
             !matches(password.value, ByEmail(t, email.value).value.passwordHash)) ==> r == Say(401, WrongPassword)
    ensures r.status == 200 <==> (Present(email) && Present(password) && ByEmail(t, email.value).Some? &&
                                  matches(password.value, ByEmail(t, email.value).value.passwordHash))
    ensures r.status == 200 ==>
      var u := ByEmail(t, email.value).value;
      r == Answer(200, None, Some("登录成功"), Some(LoggedIn(sign(u.userid, u.email), Public(u))))
  {
    if !Present(email) || !Present(password) then Say(400, MissingFields)
    else match ByEmail(t, email.value)
      case None => Say(401, UnknownUser)
      case Some(u) =>
        if !matches(password.value, u.passwordHash) then Say(401, WrongPassword)
        else Answer(200, None, Some("登录成功"), Some(LoggedIn(sign(u.userid, u.email), Public(u))))
  }

  /** An account just registered can log in with its password, given a
      comparison that accepts a password against its own hash, and the
      login answers with the registered fields. */
  lemma RegisterThenLogin(t: Users, b: Registration, hash: string -> string, newId: int,
                          matches: (string, string) -> bool, sign: (int, string) -> string)
    requires ById(t, newId).None?
    requires Present(b.username) && Present(b.email) && Present(b.password) && ByEmail(t, b.email.value).None?
    requires matches(b.password.value, hash(b.password.value))
    ensures var after := Register(t, b, hash, newId).0;
      var r := Login(after, b.email, b.password, matches, sign);
      && r.status == 200
      && r.data.value.user == PublicUser(newId, b.username.value, b.email.value, Or(b.avatar, DefaultAvatar))
      && r.data.value.token == sign(newId, b.email.value)
  {
    var after := Register(t, b, hash, newId).0;
    assert after[|t|].email == b.email.value;
    assert forall i :: 0 <= i < |t| ==> after[i] == t[i];
    assert FindIndex(after, u => HasEmail(b.email.value, u)) == Some(|t|);
  }

  /** `Number(req.params.id)`: NaN, or a number that may have a fraction. */
  datatype JsNumber = NaN | Num(value: real)

  /** `getUserById`: 400 for NaN; 404 unless the number is a whole id of
      the table. */
  function GetUser(t: Users, id: JsNumber): (r: Answer<Payload>)
    ensures id.NaN? ==> r == Say(400, IdNotNumber)
    ensures r.status == 200 <==> id.Num? && id.value == id.value.Floor as real && ById(t, id.value.Floor).Some?
    ensures r.status == 200 ==> r == Accept(200, None, Account(Public(ById(t, id.value.Floor).value)))
    ensures id.Num? && r.status != 200 ==> r == Say(404, UnknownUser)
  {
    match id
    case NaN => Say(400, IdNotNumber)
    case Num(v) =>
      if v != v.Floor as real then Say(404, UnknownUser)
      else match ById(t, v.Floor)
        case None => Say(404, UnknownUser)
        case Some(u) => Accept(200, None, Account(Public(u)))
  }

  /** Every row with id `id` rewritten by `f`, as an `UPDATE ... WHERE
      userid = ?` does. */
  function SetWhere(t: Users, id: int, f: UserRow -> UserRow): (r: Users)
    ensures |r| == |t|
    ensures forall i :: 0 <= i < |t| ==> r[i] == if t[i].userid == id then f(t[i]) else t[i]
  {
    if |t| == 0 then []
    else [if t[0].userid == id then f(t[0]) else t[0]] + SetWhere(t[1..], id, f)
  }

  /** `updateAvatar`: 400 for an empty avatar, 404 for an id with no row;
      otherwise the row's avatar is replaced and the row answered. Which
      user asks is not looked at. */
  function UpdateAvatar(t: Users, id: string, avatar: Option<string>): (r: (Users, Answer<Payload>))
    ensures !Present(avatar) ==> r == (t, Say(400, MissingAvatar))
    ensures Present(avatar) && (ParseInt(id).None? || ById(t, ParseInt(id).value).None?) ==> r == (t, Say(404, UnknownUser))
    ensures r.1.status == 200 <==> Present(avatar) && ParseInt(id).Some? && ById(t, ParseInt(id).value).Some?
    ensures r.1.status == 200 ==>
      && r.0 == SetWhere(t, ParseInt(id).value, (u: UserRow) => u.(avatar := avatar.value))
      && r.1.message == Some("头像更新成功")
      && r.1.data == Some(Account(Public(ById(t, ParseInt(id).value).value.(avatar := avatar.value))))
  {
    if !Present(avatar) then (t, Say(400, MissingAvatar))
    else match ParseInt(id)
      case None => (t, Say(404, UnknownUser))
      case Some(k) =>
        match ById(t, k)
        case None => (t, Say(404, UnknownUser))
        case Some(u) =>
          var after := SetWhere(t, k, (v: UserRow) => v.(avatar := avatar.value));
          (after, Answer(200, Some(true), Some("头像更新成功"), Some(Account(Public(u.(avatar := avatar.value))))))
  }

  /** Whether another user than `id` holds `email`; for an id that does
      not parse, every user counts as another. */
  predicate EmailOfOther(t: Users, email: string, id: Option<int>) {
    exists i :: 0 <= i < |t| && t[i].email == email && (id.None? || t[i].userid != id.value)
  }

  /** `updateProfile`: 400 for a missing username or email, 409 when
      another user has the email (the user's own email is fine), 404 when
      no row has the id; otherwise the row takes the new name and email.
      Which user asks is not looked at. */
  function UpdateProfile(t: Users, id: string, username: Option<string>, email: Option<string>): (r: (Users, Answer<Payload>))
    ensures !Present(username) || !Present(email) ==> r == (t, Say(400, MissingProfile))
    ensures Present(username) && Present(email) && EmailOfOther(t, email.value, ParseInt(id)) ==> r == (t, Say(409, EmailInUse))
    ensures r.1.status == 200 <==>
      Present(username) && Present(email) && !EmailOfOther(t, email.value, ParseInt(id)) &&
      ParseInt(id).Some? && ById(t, ParseInt(id).value).Some?
    ensures r.1.status != 200 ==> r.0 == t
    ensures r.1.status == 200 ==>
      && r.0 == SetWhere(t, ParseInt(id).value, (u: UserRow) => u.(username := username.value, email := email.value))
      && r.1.data == Some(Account(Public(ById(t, ParseInt(id).value).value.(username := username.value, email := email.value))))
  {
    if !Present(username) || !Present(email) then (t, Say(400, MissingProfile))
    else if EmailOfOther(t, email.value, ParseInt(id)) then (t, Say(409, EmailInUse))
    else match ParseInt(id)
      case None => (t, Say(404, UnknownUser))
      case Some(k) =>
        match ById(t, k)
        case None => (t, Say(404, UnknownUser))
        case Some(u) =>
          var after := SetWhere(t, k, (v: UserRow) => v.(username := username.value, email := email.value));
          (after, Answer(200, Some(true), Some("用户信息更新成功"),
                         Some(Account(Public(u.(username := username.value, email := email.value))))))
  }

  /** A profile update keeps one account per email: the 409 check leaves
      only the updated user itself holding the new email. */
  lemma UpdateProfileKeepsEmailsUnique(t: Users, id: string, username: Option<string>, email: Option<string>)
    requires UniqueEmails(t) && UniqueIds(t)
    ensures UniqueEmails(UpdateProfile(t, id, username, email).0)
    ensures UniqueIds(UpdateProfile(t, id, username, email).0)
  {
    var r := UpdateProfile(t, id, username, email);
    if r.1.status == 200 {
      var k := ParseInt(id).value;
      var after := r.0;
      forall i, j | 0 <= i < j < |after|
        ensures after[i].email != after[j].email && after[i].userid != after[j].userid
      {
        assert after[i].userid == t[i].userid && after[j].userid == t[j].userid;
        if t[i].userid == k {
          assert after[i].email == email.value && t[j].userid != k;
        } else if t[j].userid == k {
          assert after[j].email == email.value;
        }
      }
    }
  }

  /** The profile and avatar routes require a signed-in user but never
      compare that user with the account in the address: any signed-in
      user can give another account an email of their choosing, and with
      it the login of that account. */
  lemma ProfileOfAnotherUserChanged(t: Users, me: int, victim: int, newEmail: string, name: string)
    requires 0 <= me < |t| && 0 <= victim < |t| && t[me].userid != t[victim].userid && t[me].userid != 0
    requires name != "" && newEmail != ""
    requires forall k :: 0 <= k < |t| ==> t[k].email != newEmail
    ensures var signedIn := Some(ReqUser(Some(t[me].userid), Some(t[me].email), Some(t[me].username)));
      var r := UpdateProfile(t, IntToString(t[victim].userid), Some(name), Some(newEmail));
      && CurrentUserId(signedIn) != ParseInt(IntToString(t[victim].userid))
      && r.1.status == 200
      && r.0[victim].email == newEmail
  {
    ParseIntOfIntToString(t[victim].userid);
    assert !EmailOfOther(t, newEmail, Some(t[victim].userid));
    assert ById(t, t[victim].userid).Some?;
  }

  const NotYourAccount: string := "无权修改此用户"

  /** Whether the signed-in user is the account the address names. */
  predicate OwnAccount(user: Option<ReqUser>, id: string) {
    CurrentUserId(user).Some? && CurrentUserId(user) == ParseInt(id)
  }

  /** `updateProfile` with the ownership check the article handlers make:
      403 unless the signed-in user is the account being changed. */
  function UpdateOwnProfile(t: Users, user: Option<ReqUser>, id: string,
                            username: Option<string>, email: Option<string>): (r: (Users, Answer<Payload>))
    ensures !OwnAccount(user, id) ==> r == (t, Refuse(403, NotYourAccount))
    ensures OwnAccount(user, id) ==> r == UpdateProfile(t, id, username, email)
  {
    if !OwnAccount(user, id) then (t, Refuse(403, NotYourAccount)) else UpdateProfile(t, id, username, email)
  }

  /** `updateAvatar` with the same check. */
  function UpdateOwnAvatar(t: Users, user: Option<ReqUser>, id: string, avatar: Option<string>): (r: (Users, Answer<Payload>))
    ensures !OwnAccount(user, id) ==> r == (t, Refuse(403, NotYourAccount))
    ensures OwnAccount(user, id) ==> r == UpdateAvatar(t, id, avatar)
  {
    if !OwnAccount(user, id) then (t, Refuse(403, NotYourAccount)) else UpdateAvatar(t, id, avatar)
  }

  /** With the check, a successful change only ever touches the rows of
      the signed-in user: every other row is left as it was. */
  lemma OnlyOwnRowsChange(t: Users, user: Option<ReqUser>, id: string,
                          username: Option<string>, email: Option<string>, avatar: Option<string>, i: int)
    requires 0 <= i < |t| && CurrentUserId(user) != Some(t[i].userid)
    ensures |UpdateOwnProfile(t, user, id, username, email).0| == |t|
    ensures UpdateOwnProfile(t, user, id, username, email).0[i] == t[i]
    ensures |UpdateOwnAvatar(t, user, id, avatar).0| == |t|
    ensures UpdateOwnAvatar(t, user, id, avatar).0[i] == t[i]
  {
  }
}

=== FILE: user_hook.dfy ===
/** `useMyblogUser`: the profile page's user, fetched from the API with the
    cached `blogUser` as fallback. */
module UserHook {
  import opened Wrappers
  import opened Records
  import opened Http
  import opened Storage
  import UserService

  datatype State = State(user: Option<UserRecord>, loading: bool, error: Option<string>)

  /** What `fetchUser()` did: the new state and storage, and whether the
      returned promise rejected (the catch block parses the cache again, so
      a cache that does not parse escapes it). */
  datatype Fetch = Fetch(state: State, store: Store, rejected: bool)

  /** `fetchUser()`. Without a token the cached user is shown as it is and
      nothing is requested; with one, an API user is shown and cached, and
      an API error is reported while the cached user, if any, is shown. */
  function FetchUser(s: State, st: Store, reply: Reply<Option<UserRecord>>): (r: Fetch)
    ensures !r.state.loading
    // without a token: the cache only, no request, no error unless it is corrupt
    ensures !HasToken(st) ==> r.store == st
    ensures !HasToken(st) && Read(st.blogUser).Ok? ==>
      r == Fetch(State(if Read(st.blogUser).value.Some? then Read(st.blogUser).value else s.user, false, None), st, false)
    // with a token and an API user
    ensures HasToken(st) && UserService.GetCurrentUser(st, reply).1.Ok? ==>
      var u := UserService.GetCurrentUser(st, reply).1.value;
      r == Fetch(State(Some(u), false, None), UserService.GetCurrentUser(st, reply).0.(blogUser := Some(Parsed(u))), false)
    // with a token and an API error
    ensures HasToken(st) && UserService.GetCurrentUser(st, reply).1.Err? ==>
      var (st1, api) := UserService.GetCurrentUser(st, reply);
      && r.store == st1 && r.state.error == Some(api.message)
      && (Read(st1.blogUser).Ok? ==>
            (!r.rejected && r.state.user == (if Read(st1.blogUser).value.Some? then Read(st1.blogUser).value else s.user)))
      && (Read(st1.blogUser).Err? ==> r.rejected && r.state.user == s.user)
  {
    var s0 := s.(loading := true, error := None);
    if !HasToken(st) then
      match Read(st.blogUser)
      case Ok(cached) => Fetch(s0.(user := if cached.Some? then cached else s.user, loading := false), st, false)
      case Err(m) =>
        // the parse error reaches the catch block, which parses again
        Fetch(s0.(loading := false, error := Some(m)), st, true)
    else
      var (st1, api) := UserService.GetCurrentUser(st, reply);
      match api
      case Ok(u) => Fetch(s0.(user := Some(u), loading := false), st1.(blogUser := Some(Parsed(u))), false)
      case Err(m) =>
        match Read(st1.blogUser)
        case Ok(cached) => Fetch(s0.(user := if cached.Some? then cached else s.user, loading := false, error := Some(m)), st1, false)
        case Err(_) => Fetch(s0.(loading := false, error := Some(m)), st1, true)
  }

  /** `updateUser(userData)`: the same value goes to the state and the
      cache. */
  function UpdateUser(s: State, st: Store, u: UserRecord): (r: (State, Store))
    ensures r.0.user == Some(u) && r.1.blogUser == Some(Parsed(u))
    ensures Read(r.1.blogUser) == Ok(r.0.user)
    ensures r.0.loading == s.loading && r.0.error == s.error
    ensures r.1.token == st.token && r.1.blogUsers == st.blogUsers && r.1.comments == st.comments
  {
    (s.(user := Some(u)), st.(blogUser := Some(Parsed(u))))
  }
}

=== FILE: user_service.dfy ===
/** The client's user service: the `/user/me` lookup, the profile and
    avatar updates, and the local login check. Every request needs the
    stored token, and a 401 ends the session. */
module UserService {
  import opened Wrappers
  import opened Strings
  import opened Records
  import opened Http
  import opened Storage

  /** The message thrown when no token is stored. */
  const NotSignedIn: string := "用户未登录"

  /** The session keys removed on a 401 (and on sign-out). */
  function DropSession(st: Store): (r: Store)
    ensures r.token.None? && r.blogUser.None?
    ensures r.blogUsers == st.blogUsers && r.comments == st.comments
  {
    st.(token := None, blogUser := None)
  }

  /** The message of a failed response: the JSON body's `message` when
      there is one (a body that does not parse counts as `{}`), else
      `fallback`. */
  function ErrorMessage<P>(body: Option<Body<P>>, fallback: string): string {
    match body
    case Some(b) => MessageOr(b, fallback)
    case None => fallback
  }

  /** `userService.getCurrentUser()`: the new storage and the user, or the
      error it throws. */
  function GetCurrentUser(st: Store, reply: Reply<Option<UserRecord>>): (r: (Store, Result<UserRecord>))
    // without a token nothing is requested and nothing changes
    ensures !HasToken(st) ==> r == (st, Err(NotSignedIn))
    // a 401 signs the user out; every other outcome leaves storage alone
    ensures HasToken(st) && reply.Response? && reply.status == 401 ==> r.0 == DropSession(st) && r.1.Err?
    ensures !(HasToken(st) && reply.Response? && reply.status == 401) ==> r.0 == st
    ensures HasToken(st) && reply.Response? && !IsOk(reply.status) ==> r.1.Err?
    // the user is returned only from a successful body that carries one
    ensures r.1.Ok? <==> HasToken(st) && reply.Response? && IsOk(reply.status) && reply.body.Some?
                         && reply.body.value.success && reply.body.value.payload.Some?
    ensures r.1.Ok? ==> r.1.value == reply.body.value.payload.value
  {
    if !HasToken(st) then (st, Err(NotSignedIn))
    else match reply
      case NetworkFailure(m) => (st, Err(m))
      case Response(status, _, body) =>
        if !IsOk(status) then
          if status == 401 then (DropSession(st), Err(ErrorMessage(body, "登录已过期，请重新登录")))
          else (st, Err(ErrorMessage(body, HttpError(status))))
        else match body
          case None => (st, Err(InvalidJson))
          case Some(b) =>
            if b.success && b.payload.Some? then (st, Ok(b.payload.value))
            else (st, Err(MessageOr(b, "用户数据格式错误")))
  }

  /** Without a token the reply plays no part: no request is made. */
  lemma GetCurrentUserNeedsToken(st: Store, a: Reply<Option<UserRecord>>, b: Reply<Option<UserRecord>>)
    requires !HasToken(st)
    ensures GetCurrentUser(st, a) == GetCurrentUser(st, b)
  {
  }

  /** `userService.getUserById(id)`: a failed response's text is read as
      JSON for its message, or used as the message itself when it is not
      JSON. */
  function GetUserById(reply: Reply<Option<UserRecord>>): (r: Result<UserRecord>)
    ensures r.Ok? <==> reply.Response? && IsOk(reply.status) && reply.body.Some?
                       && reply.body.value.success && reply.body.value.payload.Some?
    ensures reply.Response? && !IsOk(reply.status) && reply.body.None? && reply.text != ""
      ==> r == Err(reply.text)
  {
    match reply
    case NetworkFailure(m) => Err(m)
    case Response(status, text, body) =>
      if !IsOk(status) then
        match body
        case Some(b) => Err(MessageOr(b, HttpError(status)))
        case None => Err(Or(Some(text), HttpError(status)))
      else match body
        case None => Err(InvalidJson)
        case Some(b) =>
          if b.success && b.payload.Some? then Ok(b.payload.value) else Err(MessageOr(b, "用户数据格式错误"))
  }

  /** `userService.updateAvatar(userId, avatarUrl)` and
      `userService.updateProfile(userId, profileData)`, which share one
      shape: both need a token and return the whole parsed body of an ok
      response, whatever its `success` says. */
  function SendUpdate<P>(st: Store, reply: Reply<P>): (r: Result<Body<P>>)
    ensures !HasToken(st) ==> r == Err(NotSignedIn)
    ensures r.Ok? <==> HasToken(st) && reply.Response? && IsOk(reply.status) && reply.body.Some?
    ensures r.Ok? ==> r.value == reply.body.value
    ensures HasToken(st) && reply.Response? && !IsOk(reply.status)
      ==> r == Err(ErrorMessage(reply.body, HttpError(reply.status)))
  {
    if !HasToken(st) then Err(NotSignedIn)
    else match reply
      case NetworkFailure(m) => Err(m)
      case Response(status, _, body) =>
        if !IsOk(status) then Err(ErrorMessage(body, HttpError(status)))
        else match body
          case None => Err(InvalidJson)
          case Some(b) => Ok(b)
  }

  /** What `checkAuth()` returns. */
  datatype AuthStatus = AuthStatus(isAuthenticated: bool, token: Option<string>, user: Option<UserRecord>)

  /** `userService.checkAuth()`: signed in exactly when a non-empty token is
      stored; the user is the cached `blogUser`, and a cache that does not
      parse makes the call throw. */
  function CheckAuth(st: Store): (r: Result<AuthStatus>)
    ensures r.Ok? <==> Read(st.blogUser).Ok?
    ensures r.Ok? ==> r.value.isAuthenticated == HasToken(st) && r.value.token == st.token
    ensures r.Ok? ==> r.value.user == Read(st.blogUser).value
  {
    match Read(st.blogUser)
    case Err(m) => Err(m)
    case Ok(u) => Ok(AuthStatus(HasToken(st), st.token, u))
  }
}

=== FILE: user_store.dfy ===
/** The browser-only account registry: accounts in `blogUsers`, the signed
    in account's public fields in `blogUser`. */
module UserStore {
  import opened Wrappers
  import opened Records
  import opened Storage
  import opened Seqs

  /** The `{ success, message }` object `register` and `login` return. */
  datatype Outcome = Succeeded | Failed(message: string)

  /** The fields a registration form supplies. */
  datatype RegisterInfo = RegisterInfo(
    nickname: Option<string>, avatar: Option<string>, email: Option<string>, password: Option<string>)

  /** `getAllUsers()`: the registry, [] when none is stored. */
  function AllUsers(st: Store): (r: Result<seq<Account>>)
    ensures st.blogUsers.None? ==> r == Ok([])
    ensures st.blogUsers.Some? && st.blogUsers.value.Parsed? ==> r == Ok(st.blogUsers.value.value)
  {
    match Read(st.blogUsers)
    case Err(m) => Err(m)
    case Ok(None) => Ok([])
    case Ok(Some(users)) => Ok(users)
  }

  /** The record `login` stores for an account: its id, nickname, avatar
      and email, and never its password. */
  function SessionOf(a: Account): (u: UserRecord)
    ensures u.password.None? && u.id == Some(a.id)
    ensures u.nickname == a.nickname && u.avatar == a.avatar && u.email == a.email
    ensures u.userid.None? && u.username.None?
  {
    UserRecord(None, Some(a.id), None, a.nickname, a.email, a.avatar, None)
  }

  /** The test `login` applies to each account. */
  function Matches(email: Option<string>, password: Option<string>): Account -> bool {
    (u: Account) => u.email == email && u.password == password
  }

  /** `login(email, password)`: the first account with both the email and
      the password becomes the session; otherwise nothing is written. */
  function Login(st: Store, email: Option<string>, password: Option<string>): (r: (Store, Result<Outcome>))
    ensures AllUsers(st).Err? ==> r == (st, Err(AllUsers(st).message))
    ensures AllUsers(st).Ok? ==>
      (r.1 == Ok(Succeeded) <==> exists i :: 0 <= i < |AllUsers(st).value| && Matches(email, password)(AllUsers(st).value[i]))
    ensures r.1 == Ok(Succeeded) ==>
      r.0 == st.(blogUser := Some(Parsed(SessionOf(Find(AllUsers(st).value, Matches(email, password)).value))))
    ensures AllUsers(st).Ok? && r.1 != Ok(Succeeded) ==> r.1 == Ok(Failed("邮箱或密码错误"))
    ensures r.1 != Ok(Succeeded) ==> r.0 == st
  {
    match AllUsers(st)
    case Err(m) => (st, Err(m))
    case Ok(users) =>
      match Find(users, Matches(email, password))
      case Some(a) => (st.(blogUser := Some(Parsed(SessionOf(a)))), Ok(Succeeded))
      case None => (st, Ok(Failed("邮箱或密码错误")))
  }

  /** A stored session never carries a password. */
  lemma LoginStoresNoPassword(st: Store, email: Option<string>, password: Option<string>)
    requires Login(st, email, password).1 == Ok(Succeeded)
    ensures Login(st, email, password).0.blogUser.Some?
    ensures Login(st, email, password).0.blogUser.value.Parsed?
    ensures Login(st, email, password).0.blogUser.value.value.password.None?
  {
  }

  /** `register(userInfo)`: an email already in the registry is refused;
      otherwise the account (with id `now`, the clock) is appended and
      signed in. */
  function Register(st: Store, info: RegisterInfo, now: int): (r: (Store, Result<Outcome>))
    ensures AllUsers(st).Err? ==> r == (st, Err(AllUsers(st).message))
    ensures AllUsers(st).Ok? && (exists i :: 0 <= i < |AllUsers(st).value| && AllUsers(st).value[i].email == info.email)
      ==> r == (st, Ok(Failed("该邮箱已被注册")))
  {
    match AllUsers(st)
    case Err(m) => (st, Err(m))
    case Ok(users) =>
      if Find(users, (u: Account) => u.email == info.email).Some? then (st, Ok(Failed("该邮箱已被注册")))
      else
        var account := Account(now, info.nickname, info.avatar, info.email, info.password);
        var saved := st.(blogUsers := Some(Parsed(users + [account])));
        (Login(saved, info.email, info.password).0, Ok(Succeeded))
  }

  /** A fresh email is registered by appending exactly one account, and
      that account is the session afterwards. */
  lemma RegisterAppendsAndSignsIn(st: Store, info: RegisterInfo, now: int)
    requires AllUsers(st).Ok?
    requires forall i :: 0 <= i < |AllUsers(st).value| ==> AllUsers(st).value[i].email != info.email
    ensures var account := Account(now, info.nickname, info.avatar, info.email, info.password);
      var r := Register(st, info, now);
      && r.1 == Ok(Succeeded)
      && r.0.blogUsers == Some(Parsed(AllUsers(st).value + [account]))
      && r.0.blogUser == Some(Parsed(SessionOf(account)))
      && r.0.token == st.token && r.0.comments == st.comments
  {
    var users := AllUsers(st).value;
    var account := Account(now, info.nickname, info.avatar, info.email, info.password);
    var all := users + [account];
    var saved := st.(blogUsers := Some(Parsed(all)));
    assert Find(users, (u: Account) => u.email == info.email).None?;
    var p := Matches(info.email, info.password);
    assert p(all[|users|]);
    var k := FindIndex(all, p);
    assert k.Some?;
    assert k.value == |users|;
    assert Find(all, p) == Some(account);
  }

  /** `logout()`: the session is removed and nothing else. */
  function Logout(st: Store): (r: Store)
    ensures r.blogUser.None?
    ensures r.token == st.token && r.blogUsers == st.blogUsers && r.comments == st.comments
  {
    st.(blogUser := None)
  }

  /** The registry with the avatar of the first account whose id is
      `userId` replaced; unchanged when there is none. */
  function SetAvatar(users: seq<Account>, userId: int, avatar: Option<string>): (r: seq<Account>)
    ensures |r| == |users|
    ensures match FindIndex(users, (u: Account) => u.id == userId)
      case None => r == users
      case Some(i) => r == users[i := users[i].(avatar := avatar)]
  {
    match FindIndex(users, (u: Account) => u.id == userId)
    case None => users
    case Some(i) => users[i := users[i].(avatar := avatar)]
  }

  /** `updateAvatar(userId, newAvatar)`: allowed only for the signed-in
      account; the avatar changes in the session and in the first registry
      account with that id, and nowhere else. */
  function UpdateAvatar(st: Store, userId: int, avatar: Option<string>): (r: (Store, Result<bool>))
    ensures r.1 == Ok(true) <==>
      (AllUsers(st).Ok? && Read(st.blogUser).Ok?
       && Read(st.blogUser).value.Some? && Read(st.blogUser).value.value.id == Some(userId))
    ensures r.1 == Ok(true) ==>
      && r.0.blogUsers == (if FindIndex(AllUsers(st).value, (u: Account) => u.id == userId).Some?
                           then Some(Parsed(SetAvatar(AllUsers(st).value, userId, avatar))) else st.blogUsers)
      && r.0.blogUser == Some(Parsed(Read(st.blogUser).value.value.(avatar := avatar)))
    ensures r.1 != Ok(true) ==> r.0 == st
    ensures r.0.token == st.token && r.0.comments == st.comments
  {
    match AllUsers(st)
    case Err(m) => (st, Err(m))
    case Ok(users) =>
      match Read(st.blogUser)
      case Err(m) => (st, Err(m))
      case Ok(current) =>
        if current.Some? && current.value.id == Some(userId) then
          var registry :=
            if FindIndex(users, (u: Account) => u.id == userId).Some?
            then Some(Parsed(SetAvatar(users, userId, avatar))) else st.blogUsers;
          (st.(blogUsers := registry, blogUser := Some(Parsed(current.value.(avatar := avatar)))), Ok(true))
        else (st, Ok(false))
  }

  /** A successful avatar update gives the first account with that id the
      new avatar and leaves every other account as it was; when no account
      has the id the registry is not rewritten. The session keeps its other
      fields. */
  lemma UpdateAvatarOnlyThatUser(st: Store, userId: int, avatar: Option<string>, j: nat)
    requires UpdateAvatar(st, userId, avatar).1 == Ok(true)
    requires j < |AllUsers(st).value|
    ensures var r := UpdateAvatar(st, userId, avatar).0;
      var users := AllUsers(st).value;
      var at := FindIndex(users, (u: Account) => u.id == userId);
      && AllUsers(r).Ok? && |AllUsers(r).value| == |users|
      && (at == Some(j) ==> AllUsers(r).value[j] == users[j].(avatar := avatar))
      && (at != Some(j) ==> AllUsers(r).value[j] == users[j])
      && (at.None? ==> r.blogUsers == st.blogUsers)
      && r.blogUser == Some(Parsed(Read(st.blogUser).value.value.(avatar := avatar)))
  {
  }
}

=== FILE: wrappers.dfy ===
/** Option and Result, the shapes the model uses for JavaScript's
    `undefined`/`null` and for a call that either returns or throws. */
module Wrappers {

  /** A value that may be absent (`undefined` or `null` in the source). */
  datatype Option<+T> = None | Some(value: T) {

    /** The value, or `default` when absent. */
    function GetOr(default: T): T {
      match this
      case Some(v) => v
      case None => default
    }
  }

  /** The outcome of a call that returns `value` or throws an error whose
      message is `message`. */
  datatype Result<+T> = Ok(value: T) | Err(message: string) {

    predicate IsFailure() {
      Err?
    }

    function PropagateFailure<U>(): Result<U>
      requires Err?
    {
      Err(message)
    }

    function Extract(): T
      requires Ok?
    {
      value
    }
  }
}
